=== FILE: README.md ===
# File server core in Dafny

A model of the pure decision logic of a small Flask file server: an
authenticated user browses one upload folder, uploads, downloads, previews and
deletes files, creates folders and looks at statistics, and the server keeps
its settings and users in a JSON configuration tree. The model covers:

- **Path guard** (`paths.dfy`). POSIX `os.path.join`, `os.path.abspath`
  (lexical normalisation of `.`, `..` and repeated slashes, including POSIX's
  special case of exactly two leading slashes) and `FileUtils.is_safe_path`.
  The main theorem, `Paths.IsSafePathMeaning`, shows that the string test
  "target + `/` starts with base + `/`" is exactly the structural relation
  "the target is the base or lies below it at a component boundary".
- **Validators** (`validation.dfy`). The extension allow-list check and the
  inclusive size check.
- **Statistics** (`filetree.dfy`, `typestats.dfy`, `folderstats.dfy`). An
  abstract directory tree replaces the disk: a file has a name, a size and a
  `readable` flag, which is false when `os.path.getsize` raises. The model
  includes the traversal `os.walk` performs and the three statistics built on
  it: file/dir/byte counts, type categories and the ten largest folders.
- **Upload and request decisions** (`filesize.dfy`, `naming.dfy`,
  `filesystem.dfy`, `handlers.dfy`):
  - `parse_file_size`, including its regular expression;
  - the file-name sanitiser and the `_1`, `_2`, … collision loop;
  - the ordered accept/reject chains of upload, download, preview, delete and
    create-folder, over an abstract file system (a map from normalised paths
    to file/directory).
- **Configuration** (`configtree.dfy`, `users.dfy`):
  - the recursive `merge_dict`;
  - dotted-key `get` and `set`;
  - the user-list operations, in-memory effect only.

`text.dfy`, `json.dfy` and `wrappers.dfy` hold the Python string primitives,
the JSON value type and `Option`/`Result`.

Behaviour of the code that the model keeps:

- Files without an extension get the marker `无扩展名`, which no table lists.
  They land in the `其他` (Other) category; there is no separate
  "no extension" bucket.
- The upload handler checks the file, then its extension, then its size, and
  only then the target folder. The path check is not the first step.
- `delete_file` ignores the outcome of `safe_delete` and always answers success.
- `delete_file` on `.` passes the guard, because the path equals the upload
  folder. `shutil.rmtree` empties the folder, but the kernel refuses the
  final `rmdir` of a path ending in `.`, so the upload folder stays, empty.
  The same holds for any directory named by a path ending in `.` or `..`.
  `Handlers.DeleteOfRootEmptiesIt` states this.
- Paths are normalised lexically and symlinks are not resolved, because that
  is what `os.path.abspath` does.
- `os.makedirs` receives the joined path as written, not the normalised path
  the guard approved. It walks the raw components, so it can create
  directories outside the upload folder (see "## Findings").

## Model

| member | source | states |
|---|---|---|
| Paths.JoinRelative | app.py:268 | `os.path.join` of a relative path onto an absolute one, normalised, resolves the relative path's `/`-separated parts in order onto the normalised first path |
| Paths.ComponentsJoinRelative | app.py:416 | the raw components of a relative path joined onto an absolute one are the first path's components followed by the non-empty parts of the second, `..` included |
| Paths.NormAbs | utils.py:278-279 | normalising an absolute path yields a canonical path (non-empty segments, no `.`/`..`) |
| Paths.Abs | utils.py:278-279 | `abspath` fails exactly when the path is relative and the working directory is unknown; an absolute path is just normalised |
| Paths.IsSafePath | utils.py:275-296 | a target that normalises to the base itself is accepted, and nothing is accepted unless both paths normalise; `IsSafePathMeaning` gives the full characterisation |
| Paths.CompareMeaning | utils.py:282-293 | on canonical paths, "equal, or target+`/` starts with base+`/`" holds iff the target is the base or lies below it at a component boundary |
| Paths.IsSafePathMeaning | utils.py:274-295 | `is_safe_path` accepts iff both paths normalise and the target is the base or under it at a segment boundary; a failure to normalise gives False |
| Paths.NormAbsRender | utils.py:278-279 | normalisation is idempotent: a canonical path renders to text that normalises back to it |
| Paths.JoinComponent | app.py:274 | joining a slash-free component onto an absolute path and normalising applies one normalisation step to the normalised path |
| Paths.JoinChild | app.py:274 | a plain component joined onto a canonical path becomes its child |
| Paths.SamePathIsSafe | utils.py:281-283 | every base that normalises is safe with respect to itself |
| Paths.SiblingPrefixRejected | utils.py:285-293 | `/root-evil` is rejected for base `/root` |
| Paths.ParentOfRootRejected | utils.py:274-295 | `..` joined onto a non-root base escapes it and is rejected |
| Paths.RelativeWithoutParentIsSafe | utils.py:274-295 | a relative path with no `..` component joined onto the base is always accepted |
| Paths.ResolveAppend | utils.py:278-279 | normalising a concatenation of components is normalising the rest onto the normalised prefix |
| Paths.ResolveNoParent | utils.py:278-279 | without `..`, normalisation only ever extends what is already resolved |
| Validation.NormalizedExtension | utils.py:317-318 | the compared extension is non-empty iff the name has an extension (a dot in its last component with a non-dot character before it there); then it is one dot followed by dot-free, slash-free text; it is always a suffix of the lower-cased name |
| Validation.NormalizedExtensionUnique | utils.py:317-318 | an independent description: `e` is a dot-led, dot-free suffix of the lower-cased name when the name has an extension, and `""` when not, iff `e` is the compared extension |
| Text.SplitExt | utils.py:317 | `os.path.splitext`: the two parts concatenate to the name; the extension is empty or one leading dot with no dot or slash after it, so it starts at the last dot; it is non-empty iff the name has an extension |
| Validation.ValidateFileExtension | utils.py:315-318 | accepted iff some allow-list entry is the name's lower-cased extension: a dot-led, dot-free suffix of the lower-cased name when it has an extension, `""` when it has none |
| Validation.ExtensionCheckIgnoresCase | utils.py:317-318 | an upper-cased name is accepted exactly when the original is |
| Validation.DotFileHasNoExtension | utils.py:317-318 | `.pdf` has no extension and passes only when `""` is allowed |
| Validation.LastDotCounts | utils.py:317 | only the last dot counts: `a.tar.gz` is checked as `.gz` |
| Validation.FileSizeLimitInclusive | utils.py:321-323 | the limit itself passes, one byte more fails, and any size below an accepted size is accepted |
| FileTree.SumReadable | utils.py:76-81 | the inner loop adds exactly the sizes of the readable files |
| FileTree.Walk | utils.py:73 | `os.walk` yields exactly one step per directory of the tree, the top included |
| FileTree.GetFileStats | utils.py:66-90 | `file_count` and `dir_count` count every file and directory below the top, unreadable files included; `total_size` sums only the readable sizes |
| FileTree.WalkTotals | utils.py:73-75 | summing over the steps of `os.walk` gives the number of files, directories and readable bytes anywhere below the top |
| FileTree.WalkEachBytes | utils.py:73-81 | the readable bytes of a walk plus those of the top's own files are the bytes below the entries |
| TypeStats.ClassifyMeaning | utils.py:106-125 | a file outside Other has its lower-cased extension in the table of the category it is given; Other iff no table lists the extension |
| TypeStats.NoExtensionIsOther | utils.py:107-111 | a name without extension (`README`, `.bashrc`) is Other |
| TypeStats.ClassifyIgnoresCase | utils.py:108 | classification does not depend on letter case |
| TypeStats.RecordEffect | utils.py:127-140 | one iteration creates the category on first use and adds one file and its size to that category only; an unreadable file changes nothing |
| TypeStats.TallyMeaning | utils.py:98-140 | a category is present iff some readable file belongs to it, and then records exactly that category's count and size |
| TypeStats.OnlyNonEmptyCategories | utils.py:128-135 | every category present holds at least one file |
| TypeStats.CategoriesPartition | utils.py:99-140 | every readable file counts in exactly one category: counts add up to the readable files, sizes to their bytes |
| TypeStats.TypeStatsTotal | utils.py:96-104 | `total_size` is the readable bytes below the top, the same as `get_file_stats` |
| TypeStats.GetFileTypeStats | utils.py:93-156 | every category present holds at least one file and no more bytes than `total_size` |
| TypeStats.SizeWithinTotal | utils.py:104-136 | the bytes added to one category never exceed the bytes added to `total_size` |
| TypeStats.ShareOfCategory | utils.py:145-150 | a category's share is its readable bytes over the total, times 100 |
| TypeStats.Percentage | utils.py:145-150 | a percentage is never negative; with a non-zero total it is the category's size times 100 over the total; with a zero total it is 0 |
| TypeStats.ZeroTotalZeroPercentages | utils.py:145-150 | when `total_size` is 0, every category present gets 0 percent, so the percentages add up to 0, not 100 |
| TypeStats.PercentageAtMostHundred | utils.py:144-150 | in a report of a real tree, every category's percentage lies between 0 and 100 |
| TypeStats.PercentagesSum | utils.py:144-150 | with a non-zero total, the percentages of the categories present add up to 100 |
| TypeStats.SizeNeedsCount | utils.py:135-136 | a category with no file has no bytes |
| FolderStats.FolderSizeMeaning | utils.py:169-177 | a folder's size is the readable bytes anywhere below it |
| FolderStats.UpsertMeaning | utils.py:181-184 | a dictionary write keeps keys unique, adds the key, holds the new item and keeps the others |
| FolderStats.CollectMeaning | utils.py:164-186 | one item per distinct child-directory name, and every item's size is what the walk of such a child reads |
| FolderStats.InsertPermutes | utils.py:189 | one insertion step of the sort is a permutation that keeps the names |
| FolderStats.InsertStable | utils.py:189 | one insertion step keeps entries of equal size in their order |
| FolderStats.SortMeaning | utils.py:189 | the sort is a non-increasing, stable permutation of the items |
| FolderStats.FolderReportMeaning | utils.py:188-193 | at most ten entries, largest first; `total_folders` is the number of child-directory names; each entry names a child directory and carries its size |
| FolderStats.TopAreLargest | utils.py:189-192 | the report is the head of the sorted items, and nothing left out is larger than anything reported |
| FolderStats.NotADirectory | utils.py:185-193 | a path that cannot be listed yields an empty report |
| FolderStats.GetFolderSizeStats | utils.py:188-193 | at most ten folders are reported; `FolderReportMeaning` and `TopAreLargest` say which |
| FileSize.SplitDigits | app.py:33 | `\d+` read greedily: the digits and the rest, which does not start with a digit |
| FileSize.SplitSpaces | app.py:33 | `\s*` read greedily: the whitespace and the rest, which does not start with whitespace |
| FileSize.ReadFraction | app.py:33 | `(?:\.\d+)?`: a fraction is read iff a point and then a digit come next; the text is the dotted fraction followed by the rest, and after a fraction the rest does not start with a digit |
| FileSize.ReadFractionUnique | app.py:33 | for any digit string and any tail not starting with a digit or a point, reading the dotted digits and the tail gives back exactly that split |
| FileSize.MatchSizeSound | app.py:33-35 | every match has the pattern's shape |
| FileSize.MatchSizeComplete | app.py:33 | every text in the pattern's shape matches, with exactly its pieces |
| FileSize.NoDigitNoMatch | app.py:33-35 | a text not starting with a digit does not match |
| FileSize.MultiplierTable | app.py:41-56 | of the units the pattern admits, exactly `P` and `PB` have no multiplier |
| FileSize.ParseShaped | app.py:28-58 | a normalised text in the pattern's shape with no fraction gives its number times its unit's multiplier, or the unit error |
| FileSize.SizeRoundTrip | app.py:22-58 | writing a number followed by a unit of the table and parsing it gives the number times that multiplier |
| FileSize.DigitsMeanMegabytes | app.py:24-26 | a digit string without unit means megabytes, as a bare number does |
| FileSize.ByteSuffixOptional | app.py:41-52 | `K`/`KB`, `M`/`MB`, `G`/`GB`, `T`/`TB` read alike and succeed |
| FileSize.PetabytesRefused | app.py:54-56 | `P` and `PB` match the pattern but are refused |
| FileSize.NormalizeKeepsLead | app.py:29 | stripping and upper-casing keep whether the text is blank and whether it starts with a digit |
| FileSize.NoLeadingDigitRefused | app.py:33-35 | a normalised text that is blank or does not start with a digit is refused as malformed |
| FileSize.ParseSound | app.py:28-58 | every accepted normalised text is a whole number of at most 2^53 in the pattern's shape, and the result is that number times its unit |
| FileSize.ParseFileSize | app.py:22-60 | the type error is raised exactly for values that are not numbers, booleans or strings |
| UploadNaming.ReplaceIllegal | app.py:251-253 | same length; each of `\ / : " * ? < > \|` becomes `_`, every other character is kept |
| UploadNaming.Fallback | app.py:262-263 | same length; every character outside `[\w\d.-]` becomes `_` |
| UploadNaming.NonAsciiNameSanitised | app.py:251-253 | a non-ASCII name keeps its length and legal characters and becomes a single path component (non-empty, not `.` or `..`, no `/`) |
| UploadNaming.AsciiNameUsesSecureFilename | app.py:254-256 | an ASCII name is stored as `secure_filename` returns it when that is non-empty |
| UploadNaming.SafeName | app.py:244-263 | a non-empty client name never gives an empty stored name |
| UploadNaming.CandidatesDistinct | app.py:282-286 | different counters name different paths |
| UploadNaming.TakenBound | app.py:281-287 | while the names `_1` … `_(n-1)` are taken, the file system holds at least n-1 entries, so the loop ends |
| UploadNaming.UniqueName | app.py:278-287 | the result is free; a free name is kept; otherwise it is `stem_k+ext` with the original stem and extension, for the least k ≥ 1 that is free |
| FileSystem.MakeDirs | app.py:425 | the reference behaviour of `makedirs(exist_ok=True)` on a normalised path: it fails iff a file is in the way; otherwise the target is a directory, nothing existing changes, and only ancestors of the target are added |
| FileSystem.MakeDirsKeepsClosed | app.py:273 | creating directories keeps every entry's ancestors existing directories |
| FileSystem.MakeDirsExisting | app.py:425 | creating an existing directory changes nothing |
| FileSystem.Traverse | app.py:425 | a walk of components from a start directory that succeeds ends where lexical normalisation of those components leads |
| FileSystem.Mkdir | app.py:425 | `os.mkdir`: unreachable iff the components before the last do not lead to a directory; success iff they do, the last one is a plain name and nothing exists there; a success adds exactly that directory and a failure changes nothing |
| FileSystem.MakeDirsRaw | app.py:273 | `os.makedirs(exist_ok=True)` on the components as written never changes or removes an existing entry and only adds directories |
| FileSystem.MakeDirsRawAdds | app.py:425 | every directory `os.makedirs` adds is where some prefix of the raw components leads, `..` components included |
| FileSystem.MakeDirsRawKeepsClosed | app.py:425 | `os.makedirs` on raw components keeps every entry's ancestors existing directories |
| FileSystem.MakeDirsCanonical | app.py:425 | on a well-formed tree, `os.makedirs` of a normalised path agrees with the reference `MakeDirs`: success iff no file is in the way, then the same tree, else the tree unchanged |
| FileSystem.EntryAt | utils.py:266-268 | what `os.stat` finds at a path as written: whenever the kernel's walk of its components finds an entry, it is the entry at the normalised path |
| FileSystem.EntryAtCanonical | app.py:388 | on a well-formed tree, a normalised path is found iff it is in the tree, with its kind |
| FileSystem.EntryAtDot | app.py:388 | a directory named with a trailing `.` is found, as that directory |
| FileSystem.EntryAtPastNonDirectory | app.py:388 | a path that goes on past a file or a missing entry finds nothing, even where its normalised form exists |
| FileSystem.SafeDelete | utils.py:263-272 | when `isfile` and `isdir` both fail on the path as written nothing happens; a file is removed alone; a directory is removed with everything below it; when the path is the root or ends in `.` or `..`, a directory only loses what lies strictly below it and a file stays; nothing else changes |
| FileSystem.SafeDeleteKeepsClosed | utils.py:262-272 | deleting keeps the tree well formed |
| FileSystem.AddFile | app.py:290 | saving succeeds iff the parent is an existing directory and the path is not a directory; only that path changes, to a file |
| Handlers.Locate | app.py:346-364 | a located file is the normalised joined path and is an existing file |
| Handlers.LocateMeaning | app.py:350-364 | 403 iff the path is outside the upload folder; otherwise 404 iff missing; otherwise 400 iff a directory |
| Handlers.Download | app.py:343-369 | succeeds iff the shared checks do, with the same error otherwise, serving the located file |
| Handlers.DownloadAttachmentFlag | app.py:366 | without the argument the file is an attachment; `False`, in any case, turns that off |
| Handlers.RequireField | app.py:495-499 | the field is found iff the body is an object holding it; a missing or falsy body is 400 |
| Handlers.Preview | app.py:491-540 | a preview URL is only given for a non-blank path the download checks accept |
| Handlers.PreviewBlankRejected | app.py:501-506 | a path that strips to nothing is 400 before any path check |
| Handlers.PreviewMatchesDownload | app.py:509-534 | preview succeeds iff an inline download of the stripped path does, fails with the same code, and its URL names that download |
| Handlers.Delete | app.py:379-393 | a successful delete found an entry at the joined path as written, by the kernel's walk, and applied `safe_delete` to that path |
| Handlers.DeleteMeaning | app.py:382-389 | 403 iff outside the upload folder, checked before existence; then 404 iff `os.path.exists` of the joined path as written fails |
| Handlers.DeletePastNonDirectory | app.py:388-389 | deleting `m/x` when `m` is a file or missing is 404, including `m/..`, whose normalised form is the upload folder |
| Handlers.DeleteOnlyUnderRoot | app.py:379-393 | a delete only removes entries under the upload folder and keeps the tree well formed |
| Handlers.DeleteOfRootEmptiesIt | app.py:382-393 | on a well-formed tree, `.` passes the guard and is found; afterwards the upload folder is still a directory and exactly the entries strictly below it are gone |
| Handlers.FolderRequest | app.py:403-422 | a request passes only when the composed path is absolute and passes `is_safe_path`; the value is that composed path as written |
| Handlers.FolderRequestMeaning | app.py:404-422 | with a non-blank string folder name and a string or falsy `current_path`, the request passes with the composed path iff that path passes `is_safe_path`, and is 403 otherwise |
| Handlers.CreateFolder | app.py:400-425 | a rejected request answers its error and leaves the tree; a success passed the checks; `os.makedirs` on the joined path as written never changes an existing entry and only adds directories |
| Handlers.CreateFolderBlankName | app.py:404-409 | a folder name that strips to nothing is 400 whatever the current path |
| Handlers.CreateFolderKeepsClosed | app.py:425 | creating a folder as written keeps the tree well formed |
| Handlers.CreateFolderEscapes | app.py:414-425 | with upload folder `/p/u`, folder `x` under current path `../e/../u` passes the guard and answers success, and `/p/e`, outside the upload folder, now exists |
| Handlers.CreateFolderIntended | app.py:414-425 | the same checks and errors, with `os.makedirs` on the normalised path the guard approved; existing entries are kept and only directories are added |
| Handlers.NormalisedMakeDirs | app.py:425 | `os.makedirs` of a normalised path under the upload folder adds only directories under it, keeps the tree well formed, and succeeds iff no ancestor is a file, leaving the path a directory |
| Handlers.CreateFolderUnderRoot | app.py:414-425 | with `os.makedirs` on the approved normalised path, everything added is under the upload folder, the tree stays well formed, and a success leaves that path a directory |
| Handlers.HandleUpload | app.py:195-297 | 400 for no file or no name, then 400 for a bad extension, then 413 iff over the limit; 403 only for an unsafe non-blank current path; existing entries never change and only a 500 may leave new folders behind; on success the stored path was free and is now a file directly in the normalised target folder, under the upload folder; a valid upload into the upload folder itself succeeds |
| Handlers.PrepareFolder | app.py:266-273 | a blank current path changes nothing; 403 iff the joined folder fails the guard, leaving the tree; otherwise `os.makedirs` on the joined folder as written, 500 on its error, never changing an existing entry and adding only directories |
| Handlers.UploadFolderEscapes | app.py:266-273 | with upload folder `/p/u` and current path `../e/../u`, the folder step passes the guard and succeeds, and `/p/e`, outside the upload folder, now exists |
| Handlers.PrepareFolderIntended | app.py:266-273 | the same guard and 403, with `os.makedirs` on the normalised folder the guard approved; existing entries are kept |
| Handlers.PrepareFolderUnderRoot | app.py:266-273 | with the normalised folder, the folder step only adds directories under the upload folder, keeps the tree well formed, and a success leaves the target folder a directory |
| Handlers.StoreUpload | app.py:274-290 | after the folder step: a failure is 500 with the tree as given; a success adds a file at a path that was free, keeps every entry and the tree well formed, and places the file directly in the normalised target folder, under the upload folder |
| Handlers.StoredUnderFolder | app.py:266-287 | a single-component name lands directly in the target folder, which lies under the upload folder |
| ConfigTree.Merge | config.py:122-134 | the merged key set is the union of both key sets |
| ConfigTree.Get | config.py:167-176 | a key without a dot reads the top-level entry, or gives the default when it is missing |
| ConfigTree.GetDotted | config.py:167-176 | a dotted key reads its first part at the top level and the rest inside the dictionary found there; a missing or non-dictionary first step gives the default |
| ConfigTree.Set | config.py:189-197 | a key without a dot is a plain top-level assignment |
| ConfigTree.MergeEmpty | config.py:130-136 | merging an empty user configuration changes nothing |
| ConfigTree.MergeIdempotent | config.py:122-134 | merging the same user configuration twice equals merging it once |
| ConfigTree.DefaultsSurvive | config.py:130-134 | a default the user configuration does not override keeps its value |
| ConfigTree.UserLeavesWin | config.py:131-134 | a user value that is not a dictionary is what the merge holds at its path |
| ConfigTree.GetAfterMerge | config.py:167-176 | `get` of a default key the user did not override gives the default's value |
| ConfigTree.SetFailsIffBlocked | config.py:189-197 | `set` fails exactly when an existing value on the way to the key is not a dictionary |
| ConfigTree.LookupAfterSet | config.py:189-197 | after a successful `set` the path leads to the stored value |
| ConfigTree.SetLeavesOthers | config.py:189-197 | a successful `set` leaves every path that parts ways with the key unchanged |
| ConfigTree.GetAfterSet | config.py:167-197 | `get` of a key just `set` returns the value |
| Users.ValidateUser | config.py:214-218 | a user is returned iff some user has that name and password, and it is one of them |
| Users.GetUserByUsername | config.py:234-238 | a user is returned iff the name is present, and it has that name |
| Users.LookupsTakeFirst | config.py:215-217 | both lookups return the earliest qualifying user |
| Users.ValidateIsLookupThenCompare | config.py:214-238 | with unique names, validation is a name lookup whose password agrees |
| Users.AddUser | config.py:255-268 | refused iff the name exists; otherwise exactly one user is appended at the end |
| Users.AddUserDefault | config.py:240 | without a role, the appended user has the role `user` |
| Users.AddThenFind | config.py:255-268 | an added user can be found and can log in, and unique names stay unique |
| Users.RemoveUser | config.py:284-287 | a user remains iff it was present and has another name |
| Users.RemoveAbsent | config.py:284-287 | removing an absent name changes nothing |
| Users.RemoveAppend | config.py:285 | removal filters each part of a concatenation in place, so the users kept stay in their original order |
| Users.RemoveCount | config.py:285 | every user with the removed name is gone; every other user keeps its multiplicity, duplicates included |
| Users.RemoveKeepsOrder | config.py:284-287 | lookups of other names find the same first user as before; the removed name is no longer found |
| Users.UpdateUserPassword | config.py:304-313 | refused iff no user has the name |
| Users.UpdateMeaning | config.py:304-313 | only the first user with the name changes, to the new password with its role kept, and it can then log in |

## Left out

- Flask plumbing is not modelled: routing, templates, JSON responses, sessions
  and the login decorators. Each handler becomes a function of the server
  settings, the file system and the request data.
- Werkzeug's `secure_filename` is a function parameter, not a definition.
- UploadNaming.SafeName: the `except UnicodeEncodeError` branch (app.py:257-259)
  is not modelled. A name makes `.encode('utf-8')` raise only when it holds a
  lone surrogate, and a Dafny `char` cannot be one. In the source such a name
  goes to `secure_filename` and may reach the fallback with non-ASCII text,
  whose letters Python's Unicode `\w` keeps; in the model only ASCII names
  reach the fallback.
- Real file-system calls are replaced by the abstract file system and the
  abstract tree. An unreadable file is one whose size cannot be read, and a
  directory that cannot be listed is modelled as yielding nothing. `os.walk`'s
  own error callback is not modelled.
- Symlinks are not modelled, because `os.path.abspath` does not resolve them.
- Only `os.makedirs` and the delete handler (`os.path.exists`, `isfile`,
  `isdir`) walk the raw components of a path. The existence and type checks
  of download, preview and the collision loop, and `file.save`, use the
  lexically normalised path, so a walk that the kernel refuses because it
  passes through a file or a missing directory is not modelled for them.
- A leading `//` is kept as a root of its own, as `os.path.abspath` keeps it.
  POSIX leaves its meaning implementation-defined; the theorems about the
  tree assume it exists as a directory when they need it.
- Each `os.walk` listing is taken in the order the tree holds it. Directory
  enumeration order is not modelled beyond that.
- Concurrency is not modelled: nothing happens between the collision loop's
  existence check and the write.
- `get_files_and_dirs`, `format_size`, `get_disk_usage`, `get_local_ip`, the
  QR-code helpers, `save_config` and `load_config` are not modelled: they are
  I/O and formatting.
- `app/controllers/file_controller.py` is not part of this model. It is an
  older variant with no path check.
- FileSize.ParseFileSize: float arithmetic is not modelled. Strings with a
  fractional part, and whole numbers above 2^53, give the error `Inexact`
  instead of Python's rounded `int(float(...) * multiplier)`. A numeric
  argument is taken as an integer.
- FileSize.ParseFileSize: `\d` and `upper()` are taken on ASCII only. Python
  also accepts other Unicode digits and case-maps non-ASCII letters.
- TypeStats.PercentagesSum: percentages are exact reals. Python's
  `round(..., 2)` is not modelled, so the sum of the rounded values may differ
  from 100.
- TypeStats.GetFileTypeStats: the buckets are a map, so the order in which
  `file_type_stats` first meets each category, which fixes the order of the
  returned dictionary's keys, is not modelled.
- TypeStats.ClassifyMeaning: it does not state that the extension tables are
  pairwise disjoint. They are, and the classification takes the first table
  that lists the extension.
- Text.Lower and Text.Upper: these map ASCII letters only.
- ConfigTree.Merge: the key order of the merged dictionary is not modelled,
  because a map has none.
- Users: the user list is modelled as a sequence of records holding name,
  password and role. Entries missing a key, and the write-back through
  `set('users', ...)` and `save_config`, are not modelled.
- `add_user` and `update_user_password` raise `ValueError`. This is modelled
  as a `Failure` result.
- Handlers.HandleUpload: it uses the folder step as written
  (`Handlers.PrepareFolder`), so its placement promise is about the stored
  file only; folders the step creates on the way may lie outside the upload
  folder (see "## Findings").

## Findings

| source | as written | input that shows it | evidently intended | confidence | as-written member | corrected member |
|---|---|---|---|---|---|---|
| app.py:414-425 | `os.makedirs(full_path, exist_ok=True)` runs on the joined path as written, after `is_safe_path` approved its normalised form | upload folder `/srv/uploads`, `folder_name` `x`, `current_path` `../evil/../uploads`: the guard sees `/srv/uploads/x`, and `makedirs` creates `/srv/evil` on the way | create the normalised path the guard approved, so every new folder lies under the upload folder | not executed | Handlers.CreateFolder, Handlers.CreateFolderEscapes | Handlers.CreateFolderIntended, Handlers.CreateFolderUnderRoot |
| app.py:266-273 | `os.makedirs(target_folder, exist_ok=True)` runs on the joined folder as written, after `is_safe_path` approved its normalised form | upload folder `/srv/uploads`, `current_path` `../evil/../uploads`: the guard sees `/srv/uploads`, and `makedirs` creates `/srv/evil` on the way | create the normalised folder the guard approved | not executed | Handlers.PrepareFolder, Handlers.UploadFolderEscapes | Handlers.PrepareFolderIntended, Handlers.PrepareFolderUnderRoot |

=== FILE: configtree.dfy ===
/**
 * The configuration tree of `Config`: the recursive merge of a user file over
 * the defaults (`merge_dict`), and dotted-key `get` and `set`.
 */
module ConfigTree {
  import opened Wrappers
  import opened Text
  import opened Json

  type Config = map<string, Value>

  // ------------------------------------------------------------------ merge_dict

  /**
   * `merge_dict(d1, d2)`: every key of `d2` is written into `d1`, except that
   * where both sides hold a dictionary the two are merged recursively.
   */
  function Merge(d1: Config, d2: Config): (r: Config)
    ensures r.Keys == d1.Keys + d2.Keys
    decreases Obj(d2)
  {
    map k | k in d1.Keys + d2.Keys ::
      if k !in d2 then d1[k]
      else if k in d1 && d1[k].Obj? && d2[k].Obj? then Obj(Merge(d1[k].fields, d2[k].fields))
      else d2[k]
  }

  /** Merging an empty user configuration changes nothing. */
  lemma MergeEmpty(d: Config)
    ensures Merge(d, map[]) == d
  {
  }

  /** Merging a configuration over itself changes nothing. */
  lemma {:induction false} MergeSelf(d: Config)
    ensures Merge(d, d) == d
    decreases Obj(d)
  {
    forall k | k in d && d[k].Obj?
      ensures Merge(d[k].fields, d[k].fields) == d[k].fields
    {
      MergeSelf(d[k].fields);
    }
  }

  /** Merging the same user configuration twice is the same as merging it once. */
  lemma {:induction false} MergeIdempotent(d1: Config, d2: Config)
    ensures Merge(Merge(d1, d2), d2) == Merge(d1, d2)
    decreases Obj(d2)
  {
    var m := Merge(d1, d2);
    forall k | k in d2 && m[k].Obj? && d2[k].Obj?
      ensures Merge(m[k].fields, d2[k].fields) == m[k].fields
    {
      if k in d1 && d1[k].Obj? {
        MergeIdempotent(d1[k].fields, d2[k].fields);
      } else {
        MergeSelf(d2[k].fields);
      }
    }
    assert forall k | k in m :: Merge(m, d2)[k] == m[k];
  }

  // ------------------------------------------------------------------ paths

  /** The value reached by following `p` through nested dictionaries, if every step exists. */
  function Lookup(v: Value, p: seq<string>): Option<Value>
    decreases |p|
  {
    if p == [] then Some(v)
    else if v.Obj? && p[0] in v.fields then Lookup(v.fields[p[0]], p[1..])
    else None
  }

  /**
   * `get(key, default)`: follow the dotted key, or give the default at the
   * first missing step; a key without a dot reads the top level.
   */
  function Get(c: Config, key: string, default: Value): (r: Value)
    ensures '.' !in key ==> r == if key in c then c[key] else default
  {
    PlainKey(key);
    assert Lookup(Obj(c), [key]) == if key in c then Some(c[key]) else None by {
      assert [key][1..] == [];
    }
    match Lookup(Obj(c), Split(key, '.'))
    case None => default
    case Some(v) => v
  }

  /** A dotted key reads its first part at the top level, then the rest inside the dictionary found there. */
  lemma GetDotted(c: Config, first: string, rest: string, default: Value)
    requires '.' !in first
    ensures Get(c, first + "." + rest, default) ==
      if first in c && c[first].Obj? then Get(c[first].fields, rest, default) else default
  {
    SplitAppend(first, rest, '.');
    SplitNoSep(first, '.');
    var p := Split(first + "." + rest, '.');
    assert p == [first] + Split(rest, '.');
    assert p[1..] == Split(rest, '.');
    assert Lookup(Obj(c), p) == if first in c then Lookup(c[first], Split(rest, '.')) else None;
    if first in c && !c[first].Obj? {
      assert |Split(rest, '.')| >= 1;
    }
  }

  /**
   * The user configuration neither holds a value at `p` nor replaces any
   * dictionary on the way to it: it is absent or a dictionary at each step.
   */
  predicate NotOverridden(d2: Config, p: seq<string>)
    decreases |p|
  {
    p != [] && (p[0] !in d2 || (d2[p[0]].Obj? && NotOverridden(d2[p[0]].fields, p[1..])))
  }

  /** A default the user configuration does not override survives the merge. */
  lemma {:induction false} DefaultsSurvive(d1: Config, d2: Config, p: seq<string>)
    requires NotOverridden(d2, p) && Lookup(Obj(d1), p).Some?
    ensures Lookup(Obj(Merge(d1, d2)), p) == Lookup(Obj(d1), p)
    decreases |p|
  {
    var k := p[0];
    if k in d2 {
      DefaultsSurvive(d1[k].fields, d2[k].fields, p[1..]);
    }
  }

  /** A user value that is not a dictionary is what the merged configuration holds at its path. */
  lemma {:induction false} UserLeavesWin(d1: Config, d2: Config, p: seq<string>)
    requires p != [] && Lookup(Obj(d2), p).Some? && !Lookup(Obj(d2), p).value.Obj?
    ensures Lookup(Obj(Merge(d1, d2)), p) == Lookup(Obj(d2), p)
    decreases |p|
  {
    var k := p[0];
    if |p| > 1 && k in d1 && d1[k].Obj? && d2[k].Obj? {
      UserLeavesWin(d1[k].fields, d2[k].fields, p[1..]);
    }
  }

  // ------------------------------------------------------------------ set

  /** An existing value on the way to the key is not a dictionary: Python raises `TypeError`. */
  datatype SetError = NotADictionary

  /** Walk `p` creating missing dictionaries, then store `value` under the last step. */
  function SetPath(c: Config, p: seq<string>, value: Value): Result<Config, SetError>
    requires |p| >= 1
    decreases |p|
  {
    var k := p[0];
    if |p| == 1 then Success(c[k := value])
    else if k !in c then
      match SetPath(map[], p[1..], value)
      case Success(sub) => Success(c[k := Obj(sub)])
      case Failure(e) => Failure(e)
    else if c[k].Obj? then
      match SetPath(c[k].fields, p[1..], value)
      case Success(sub) => Success(c[k := Obj(sub)])
      case Failure(e) => Failure(e)
    else Failure(NotADictionary)
  }

  /** `set(key, value)` on the dotted key; a key without a dot is a plain top-level assignment. */
  function Set(c: Config, key: string, value: Value): (r: Result<Config, SetError>)
    ensures '.' !in key ==> r == Success(c[key := value])
  {
    PlainKey(key);
    SetPath(c, Split(key, '.'), value)
  }

  /** A key without a dot is a single step. */
  lemma PlainKey(key: string)
    ensures '.' !in key ==> Split(key, '.') == [key]
  {
    if '.' !in key {
      SplitNoSep(key, '.');
    }
  }

  /** Some proper prefix of `p` leads to a value that is not a dictionary. */
  predicate Blocked(c: Config, p: seq<string>) {
    exists i :: 0 < i < |p| && Lookup(Obj(c), p[..i]).Some? && !Lookup(Obj(c), p[..i]).value.Obj?
  }

  lemma LookupStep(c: Config, p: seq<string>, i: nat)
    requires 0 < i <= |p| && p[0] in c
    ensures Lookup(Obj(c), p[..i]) == Lookup(c[p[0]], p[1..][..i - 1])
  {
    assert p[..i][1..] == p[1..][..i - 1];
  }

  lemma EmptyNeverBlocked(p: seq<string>)
    ensures !Blocked(map[], p)
  {
    forall i | 0 < i < |p| ensures Lookup(Obj(map[]), p[..i]).None? {
      assert p[..i][0] == p[0];
    }
  }

  /** `set` fails exactly when an existing value on the way to the key is not a dictionary. */
  lemma {:induction false} SetFailsIffBlocked(c: Config, p: seq<string>, value: Value)
    requires |p| >= 1
    ensures SetPath(c, p, value).Failure? <==> Blocked(c, p)
    decreases |p|
  {
    var k := p[0];
    if |p| == 1 {
    } else if k !in c {
      SetFailsIffBlocked(map[], p[1..], value);
      EmptyNeverBlocked(p[1..]);
      forall i | 0 < i < |p| ensures Lookup(Obj(c), p[..i]).None? {
        assert p[..i][0] == k;
      }
    } else {
      assert Lookup(Obj(c), p[..1]) == Some(c[k]) by {
        assert p[..1][1..] == [];
      }
      if c[k].Obj? {
        SetFailsIffBlocked(c[k].fields, p[1..], value);
        forall i | 0 < i < |p| ensures Lookup(Obj(c), p[..i]) == Lookup(c[k], p[1..][..i - 1]) {
          LookupStep(c, p, i);
        }
        if Blocked(c[k].fields, p[1..]) {
          var j :| 0 < j < |p[1..]| && Lookup(c[k], p[1..][..j]).Some? && !Lookup(c[k], p[1..][..j]).value.Obj?;
          assert Lookup(Obj(c), p[..j + 1]) == Lookup(c[k], p[1..][..j]);
        }
        if Blocked(c, p) {
          var i :| 0 < i < |p| && Lookup(Obj(c), p[..i]).Some? && !Lookup(Obj(c), p[..i]).value.Obj?;
          assert i > 1;
          assert Lookup(c[k], p[1..][..i - 1]) == Lookup(Obj(c), p[..i]);
        }
      }
    }
  }

  /** After a successful `set`, the path leads to the stored value. */
  lemma {:induction false} LookupAfterSet(c: Config, p: seq<string>, value: Value)
    requires |p| >= 1 && SetPath(c, p, value).Success?
    ensures Lookup(Obj(SetPath(c, p, value).value), p) == Some(value)
    decreases |p|
  {
    var k := p[0];
    if |p| > 1 {
      var sub := if k !in c then map[] else c[k].fields;
      LookupAfterSet(sub, p[1..], value);
    }
  }

  /** Two paths part ways: at some step they name different keys. */
  predicate Diverge(p: seq<string>, q: seq<string>) {
    p != [] && q != [] && (p[0] != q[0] || Diverge(p[1..], q[1..]))
  }

  /** A successful `set` leaves every path that parts ways with the key as it was. */
  lemma {:induction false} SetLeavesOthers(c: Config, p: seq<string>, value: Value, q: seq<string>)
    requires |p| >= 1 && SetPath(c, p, value).Success? && Diverge(p, q)
    ensures Lookup(Obj(SetPath(c, p, value).value), q) == Lookup(Obj(c), q)
    decreases |p|
  {
    var k := p[0];
    if q[0] == k {
      var sub := if k !in c then map[] else c[k].fields;
      SetLeavesOthers(sub, p[1..], value, q[1..]);
      if k !in c {
        EmptyLookup(q[1..]);
      }
    }
  }

  lemma EmptyLookup(q: seq<string>)
    requires q != []
    ensures Lookup(Obj(map[]), q).None?
  {
  }

  /** `get` of a dotted key just `set` gives back the value. */
  lemma GetAfterSet(c: Config, key: string, value: Value, default: Value)
    requires Set(c, key, value).Success?
    ensures Get(Set(c, key, value).value, key, default) == value
  {
    LookupAfterSet(c, Split(key, '.'), value);
  }

  /** On a configuration without a user override, `get` of a default key gives the default value. */
  lemma GetAfterMerge(d1: Config, d2: Config, key: string, default: Value)
    requires NotOverridden(d2, Split(key, '.'))
    requires Lookup(Obj(d1), Split(key, '.')).Some?
    ensures Get(Merge(d1, d2), key, default) == Get(d1, key, default)
  {
    DefaultsSurvive(d1, d2, Split(key, '.'));
  }
}

=== FILE: filesize.dfy ===
/**
 * `parse_file_size`: reads the configured upload limit, either a number of
 * megabytes or a string such as `"2GB"`, `"500 kb"` or `"4096"`.
 */
module FileSize {
  import opened Wrappers
  import opened Text
  import opened Json

  datatype SizeError =
    | UnsupportedType    // neither a number nor a string
    | InvalidFormat      // the string does not match the size pattern
    | UnsupportedUnit    // `P` or `PB`: allowed by the pattern, missing from the multiplier table
    | Inexact            // a fraction or a number too large for a float to hold exactly

  const MiB: nat := 1024 * 1024

  /** Integers up to 2^53 survive the round trip through a float exactly. */
  const ExactLimit: nat := 9007199254740992

  // ------------------------------------------------------------------ the pattern ^(\d+(?:\.\d+)?)\s*([KMGTP]?B?)$

  predicate AllSpace(s: string) {
    forall i :: 0 <= i < |s| ==> IsSpace(s[i])
  }

  predicate IsPrefixLetter(c: char) {
    c == 'K' || c == 'M' || c == 'G' || c == 'T' || c == 'P'
  }

  /** `[KMGTP]?B?` */
  predicate IsUnit(u: string) {
    || u == ""
    || u == "B"
    || (|u| == 1 && IsPrefixLetter(u[0]))
    || (|u| == 2 && IsPrefixLetter(u[0]) && u[1] == 'B')
  }

  /** `\d+` taken greedily: the longest run of digits at the start, and the rest. */
  function SplitDigits(s: string): (r: (string, string))
    ensures s == r.0 + r.1 && AllDigits(r.0)
    ensures r.1 == [] || !IsDigit(r.1[0])
    decreases |s|
  {
    if |s| > 0 && IsDigit(s[0]) then
      var (a, b) := SplitDigits(s[1..]);
      Reattach(s, a, b);
      DigitCons(s[0], a);
      ([s[0]] + a, b)
    else ([], s)
  }

  /** `\s*` taken greedily: the longest run of whitespace at the start, and the rest. */
  function SplitSpaces(s: string): (r: (string, string))
    ensures s == r.0 + r.1 && AllSpace(r.0)
    ensures r.1 == [] || !IsSpace(r.1[0])
    decreases |s|
  {
    if |s| > 0 && IsSpace(s[0]) then
      var (a, b) := SplitSpaces(s[1..]);
      Reattach(s, a, b);
      SpaceCons(s[0], a);
      ([s[0]] + a, b)
    else ([], s)
  }

  /** Putting the first character back in front of a split of the rest. */
  lemma Reattach(s: string, a: string, b: string)
    requires |s| > 0 && s[1..] == a + b
    ensures s == ([s[0]] + a) + b
  {
    assert s == [s[0]] + s[1..];
  }

  lemma DigitCons(c: char, a: string)
    requires IsDigit(c) && AllDigits(a)
    ensures AllDigits([c] + a)
  {
    assert forall i :: 1 <= i < |[c] + a| ==> ([c] + a)[i] == a[i - 1];
  }

  lemma SpaceCons(c: char, a: string)
    requires IsSpace(c) && AllSpace(a)
    ensures AllSpace([c] + a)
  {
    assert forall i :: 1 <= i < |[c] + a| ==> ([c] + a)[i] == a[i - 1];
  }

  function Dotted(fraction: string): string {
    if fraction == "" then "" else "." + fraction
  }

  /** `(?:\.\d+)?`: the digits after a point, if a point and a digit come next, and what follows. */
  function ReadFraction(rest: string): (r: (string, string))
    ensures rest == Dotted(r.0) + r.1 && AllDigits(r.0)
    ensures r.0 == "" <==> !(|rest| >= 2 && rest[0] == '.' && IsDigit(rest[1]))
    ensures r.0 != "" ==> r.1 == [] || !IsDigit(r.1[0])
  {
    if |rest| >= 2 && rest[0] == '.' && IsDigit(rest[1]) then
      var (f, after) := SplitDigits(rest[1..]);
      Reattach(rest, f, after);
      assert f != "" by {
        assert (f + after)[0] == rest[1];
      }
      (f, after)
    else ("", rest)
  }

  /**
   * What a match reads: the digits and fraction of group 1 (`fraction` is
   * empty when `(?:\.\d+)?` matched nothing), the whitespace, and group 2.
   */
  datatype Match = Match(whole: string, fraction: string, gap: string, unit: string)

  /** The text the pattern reads: digits, an optional `.digits`, whitespace, then a unit. */
  predicate Shape(t: string, m: Match) {
    && |m.whole| > 0 && AllDigits(m.whole)
    && AllDigits(m.fraction)
    && AllSpace(m.gap)
    && IsUnit(m.unit)
    && t == m.whole + (Dotted(m.fraction) + (m.gap + m.unit))
  }

  /** `re.match` of the size pattern against the whole of `t`. */
  function MatchSize(t: string): Option<Match> {
    var (whole, rest) := SplitDigits(t);
    if whole == [] then None
    else
      var (fraction, after) := ReadFraction(rest);
      var (gap, unit) := SplitSpaces(after);
      if IsUnit(unit) then Some(Match(whole, fraction, gap, unit)) else None
  }

  /** Every match has the pattern's shape: the pieces it reads make up the whole text. */
  lemma MatchSizeSound(t: string)
    ensures MatchSize(t).Some? ==> Shape(t, MatchSize(t).value)
  {
  }

  // ------------------------------------------------------------------ the match is the only one

  lemma {:induction false} DigitsUnique(a: string, b: string)
    requires AllDigits(a)
    requires b == [] || !IsDigit(b[0])
    ensures SplitDigits(a + b) == (a, b)
    decreases |a|
  {
    if a == [] {
      assert a + b == b;
    } else {
      assert (a + b)[1..] == a[1..] + b;
      DigitsUnique(a[1..], b);
      assert [a[0]] + a[1..] == a;
    }
  }

  lemma {:induction false} SpacesUnique(a: string, b: string)
    requires AllSpace(a)
    requires b == [] || !IsSpace(b[0])
    ensures SplitSpaces(a + b) == (a, b)
    decreases |a|
  {
    if a == [] {
      assert a + b == b;
    } else {
      assert (a + b)[1..] == a[1..] + b;
      SpacesUnique(a[1..], b);
      assert [a[0]] + a[1..] == a;
    }
  }

  /** Unit letters are neither whitespace, digits nor a point. */
  lemma UnitLetters(unit: string)
    requires IsUnit(unit) && unit != ""
    ensures !IsSpace(unit[0]) && !IsDigit(unit[0]) && unit[0] != '.'
    ensures !IsSpace(unit[|unit| - 1])
  {
  }

  /** What follows the number starts with neither a digit nor a point. */
  lemma TailStart(gap: string, unit: string)
    requires AllSpace(gap) && IsUnit(unit)
    ensures var tail := gap + unit;
      tail == [] || (!IsDigit(tail[0]) && tail[0] != '.')
  {
    if gap != [] {
      assert (gap + unit)[0] == gap[0];
    } else if unit != [] {
      UnitLetters(unit);
      assert gap + unit == unit;
    }
  }

  /** The fraction read is the only split of a dotted digit string and a tail that starts with no digit or point. */
  lemma ReadFractionUnique(fraction: string, tail: string)
    requires AllDigits(fraction)
    requires tail == [] || (!IsDigit(tail[0]) && tail[0] != '.')
    ensures ReadFraction(Dotted(fraction) + tail) == (fraction, tail)
  {
    if fraction == "" {
      assert Dotted(fraction) + tail == tail;
    } else {
      var rest := "." + fraction + tail;
      assert rest[1..] == fraction + tail;
      DigitsUnique(fraction, tail);
    }
  }

  /** Every text in the pattern's shape matches, with the pieces it was built from. */
  lemma MatchSizeComplete(t: string, m: Match)
    requires Shape(t, m)
    ensures MatchSize(t) == Some(m)
  {
    var tail := m.gap + m.unit;
    var rest := Dotted(m.fraction) + tail;
    TailStart(m.gap, m.unit);
    assert rest == [] || !IsDigit(rest[0]) by {
      if m.fraction != "" { assert rest[0] == '.'; } else { assert rest == tail; }
    }
    DigitsUnique(m.whole, rest);
    ReadFractionUnique(m.fraction, tail);
    if m.unit != [] {
      UnitLetters(m.unit);
    }
    SpacesUnique(m.gap, m.unit);
  }

  /** A text that does not begin with a digit does not match. */
  lemma NoDigitNoMatch(t: string)
    requires t == [] || !IsDigit(t[0])
    ensures MatchSize(t).None?
  {
  }

  // ------------------------------------------------------------------ the multiplier table

  /** `unit_multipliers.get(unit)`: a missing letter means megabytes, `P` and `PB` are missing. */
  function Multiplier(unit: string): Option<nat> {
    if unit == "B" then Some(1)
    else if unit == "K" || unit == "KB" then Some(1024)
    else if unit == "M" || unit == "MB" || unit == "" then Some(MiB)
    else if unit == "G" || unit == "GB" then Some(1024 * MiB)
    else if unit == "T" || unit == "TB" then Some(1024 * 1024 * MiB)
    else None
  }

  /** Of the units the pattern admits, exactly `P` and `PB` have no multiplier. */
  lemma MultiplierTable(unit: string)
    requires IsUnit(unit)
    ensures Multiplier(unit).None? <==> unit == "P" || unit == "PB"
  {
  }

  // ------------------------------------------------------------------ parse_file_size

  /** `size_str.strip().upper()` */
  function Normalize(s: string): string {
    Upper(Strip(s))
  }

  /** Match, look up the unit, scale; the unit is looked up before the number is converted. */
  function ParseNormalized(t: string): Result<int, SizeError> {
    match MatchSize(t)
    case None => Failure(InvalidFormat)
    case Some(m) =>
      match Multiplier(m.unit)
      case None => Failure(UnsupportedUnit)
      case Some(k) =>
        if m.fraction != "" || DigitsValue(m.whole) > ExactLimit then Failure(Inexact)
        else Success(DigitsValue(m.whole) * k)
  }

  /**
   * `parse_file_size(v)`: a number (a Python `bool` included) is a count of
   * megabytes, a string is parsed, anything else is refused.
   */
  function ParseFileSize(v: Value): (r: Result<int, SizeError>)
    ensures r == Failure(UnsupportedType) <==> !(v.Num? || v.Bool? || v.Str?)
  {
    match v
    case Num(n) => Success(n * MiB)
    case Bool(b) => Success(if b then MiB else 0)
    case Str(s) => NoTypeErrorForText(Normalize(s)); ParseNormalized(Normalize(s))
    case _ => Failure(UnsupportedType)
  }

  /** Every outcome of parsing a text is a value or a format, unit or precision error. */
  lemma NoTypeErrorForText(t: string)
    ensures ParseNormalized(t) != Failure(UnsupportedType)
  {
  }

  // ------------------------------------------------------------------ properties

  lemma UpperKeepsDigitsAndUnits(s: string)
    requires forall i :: 0 <= i < |s| ==> IsDigit(s[i]) || IsPrefixLetter(s[i]) || s[i] == 'B'
    ensures Upper(s) == s
  {
  }

  lemma StripUnpadded(s: string)
    requires |s| > 0 && !IsSpace(s[0]) && !IsSpace(s[|s| - 1])
    ensures Strip(s) == s
  {
    assert TrimStart(s) == s;
  }

  lemma UnitAlphabet(unit: string)
    requires IsUnit(unit)
    ensures forall i :: 0 <= i < |unit| ==> IsPrefixLetter(unit[i]) || unit[i] == 'B'
  {
  }

  lemma NumberUnitStripped(s: string, unit: string)
    requires |s| > 0 && AllDigits(s) && IsUnit(unit)
    ensures Strip(s + unit) == s + unit
  {
    var t := s + unit;
    if unit != "" {
      UnitLetters(unit);
      assert t[|t| - 1] == unit[|unit| - 1];
    } else {
      assert t[|t| - 1] == s[|s| - 1];
    }
    assert t[0] == s[0];
    StripUnpadded(t);
  }

  lemma NumberUnitUpper(s: string, unit: string)
    requires AllDigits(s) && IsUnit(unit)
    ensures Upper(s + unit) == s + unit
  {
    UnitAlphabet(unit);
    var t := s + unit;
    assert forall i :: 0 <= i < |t| ==> IsDigit(t[i]) || IsPrefixLetter(t[i]) || t[i] == 'B' by {
      assert forall i :: 0 <= i < |s| ==> t[i] == s[i];
      assert forall i :: |s| <= i < |t| ==> t[i] == unit[i - |s|];
    }
    UpperKeepsDigitsAndUnits(t);
  }

  lemma NumberUnitShape(s: string, unit: string)
    requires |s| > 0 && AllDigits(s) && IsUnit(unit)
    ensures Shape(s + unit, Match(s, "", "", unit))
  {
    assert "" + unit == unit;
    assert Dotted("") + unit == unit;
  }

  /** A number written directly before a unit is its own normal form, in the pattern's shape. */
  lemma NumberUnitText(n: nat, unit: string)
    requires IsUnit(unit)
    ensures var t := NatToString(n) + unit;
      Normalize(t) == t && Shape(t, Match(NatToString(n), "", "", unit))
  {
    var s := NatToString(n);
    NumberUnitStripped(s, unit);
    NumberUnitUpper(s, unit);
    NumberUnitShape(s, unit);
  }

  /** Parsing a normalised text in the pattern's shape with no fraction: look up the unit, then scale. */
  lemma ParseShaped(t: string, whole: string, unit: string)
    requires Normalize(t) == t && Shape(t, Match(whole, "", "", unit))
    ensures ParseFileSize(Str(t)) ==
      if Multiplier(unit).None? then Failure(UnsupportedUnit)
      else if DigitsValue(whole) > ExactLimit then Failure(Inexact)
      else Success(DigitsValue(whole) * Multiplier(unit).value)
  {
    MatchSizeComplete(t, Match(whole, "", "", unit));
    assert ParseFileSize(Str(t)) == ParseNormalized(t);
  }

  /**
   * Writing a number followed by a unit of the table and reading it back
   * gives the number times the unit's multiplier.
   */
  lemma SizeRoundTrip(n: nat, unit: string)
    requires IsUnit(unit) && Multiplier(unit).Some? && n <= ExactLimit
    ensures ParseFileSize(Str(NatToString(n) + unit)) == Success(n * Multiplier(unit).value)
  {
    NumberUnitText(n, unit);
    ParseShaped(NatToString(n) + unit, NatToString(n), unit);
    DigitsValueOfNatToString(n);
  }

  /** A digit string without a unit means megabytes, as a bare number does. */
  lemma DigitsMeanMegabytes(n: nat)
    requires n <= ExactLimit
    ensures ParseFileSize(Str(NatToString(n))) == ParseFileSize(Num(n))
  {
    SizeRoundTrip(n, "");
    assert NatToString(n) + "" == NatToString(n);
  }

  /** `K` and `KB`, `M` and `MB`, `G` and `GB`, `T` and `TB` read alike, and succeed. */
  lemma ByteSuffixOptional(n: nat, letter: char)
    requires n <= ExactLimit && (letter == 'K' || letter == 'M' || letter == 'G' || letter == 'T')
    ensures ParseFileSize(Str(NatToString(n) + [letter])) == ParseFileSize(Str(NatToString(n) + [letter, 'B']))
    ensures ParseFileSize(Str(NatToString(n) + [letter])).Success?
  {
    assert Multiplier([letter]) == Multiplier([letter, 'B']);
    SizeRoundTrip(n, [letter]);
    SizeRoundTrip(n, [letter, 'B']);
  }

  /** `P` and `PB` pass the pattern but are refused for want of a multiplier. */
  lemma PetabytesRefused(n: nat, unit: string)
    requires unit == "P" || unit == "PB"
    ensures ParseFileSize(Str(NatToString(n) + unit)) == Failure(UnsupportedUnit)
  {
    assert IsUnit(unit) && Multiplier(unit).None?;
    NumberUnitText(n, unit);
    ParseShaped(NatToString(n) + unit, NatToString(n), unit);
  }

  /** Normalising keeps a string's first character a digit or not, and blank strings blank. */
  lemma NormalizeKeepsLead(s: string)
    ensures Normalize(s) == [] <==> Strip(s) == []
    ensures Strip(s) != [] ==> (IsDigit(Normalize(s)[0]) <==> IsDigit(Strip(s)[0]))
  {
    var u := Strip(s);
    if u != [] {
      assert Normalize(s)[0] == UpperChar(u[0]);
    }
  }

  /**
   * A normalised text that does not begin with a digit is refused as
   * malformed; by `NormalizeKeepsLead`, so is every string that does not
   * begin with a digit once stripped.
   */
  lemma NoLeadingDigitRefused(t: string)
    requires t == [] || !IsDigit(t[0])
    ensures ParseNormalized(t) == Failure(InvalidFormat)
  {
    NoDigitNoMatch(t);
  }

  /**
   * Every accepted normalised text (`ParseFileSize(Str(s))` parses
   * `Normalize(s)`) is a whole number of at most 2^53 in the pattern's shape,
   * with a unit of the table, and the result is that number times the unit's
   * multiplier.
   */
  lemma ParseSound(t: string)
    requires ParseNormalized(t).Success?
    ensures var m := MatchSize(t);
      && m.Some? && Shape(t, m.value) && m.value.fraction == ""
      && DigitsValue(m.value.whole) <= ExactLimit
      && Multiplier(m.value.unit).Some?
      && ParseNormalized(t).value == DigitsValue(m.value.whole) * Multiplier(m.value.unit).value
  {
    MatchSizeSound(t);
  }
}

=== FILE: filesystem.dfy ===
/**
 * An abstract file system: the set of existing normalised paths, each a file
 * or a directory. It replaces `os.path.exists`, `os.path.isdir`,
 * `os.makedirs(..., exist_ok=True)` and `FileUtils.safe_delete`.
 */
module FileSystem {
  import opened Wrappers
  import opened Text
  import opened Paths

  datatype Kind = File | Directory

  type Fs = map<Canon, Kind>

  /** The ancestor of `c` with only its first `k` segments. */
  function Prefix(c: Canon, k: nat): Canon
    requires k <= |c.segs|
  {
    Canon(c.doubleRoot, c.segs[..k])
  }

  /** `c` is `top` or lies below it. */
  predicate Below(top: Canon, c: Canon) {
    c.doubleRoot == top.doubleRoot && top.segs <= c.segs
  }

  /** A real tree: every proper ancestor of an entry exists and is a directory. */
  predicate Closed(fs: Fs) {
    forall c, k :: c in fs && 0 <= k < |c.segs| ==> Prefix(c, k) in fs && fs[Prefix(c, k)] == Directory
  }

  /** `c` and all its ancestors. */
  function Ancestry(c: Canon): set<Canon> {
    set k | 0 <= k <= |c.segs| :: Prefix(c, k)
  }

  predicate BlockedBy(fs: Fs, target: Canon) {
    exists k :: 0 <= k <= |target.segs| && Prefix(target, k) in fs && fs[Prefix(target, k)] == File
  }

  /**
   * `os.makedirs(target, exist_ok=True)`: fails when the target or one of its
   * ancestors is a file, otherwise creates every missing ancestor.
   */
  function MakeDirs(fs: Fs, target: Canon): (r: Option<Fs>)
    ensures r.None? <==> BlockedBy(fs, target)
    ensures r.Some? ==> target in r.value && r.value[target] == Directory
    ensures r.Some? ==> forall c :: c in fs ==> c in r.value && r.value[c] == fs[c]
    ensures r.Some? ==> forall c :: c in r.value && c !in fs ==>
      exists k :: 0 <= k <= |target.segs| && c == Prefix(target, k)
  {
    if BlockedBy(fs, target) then None
    else
      assert Prefix(target, |target.segs|) == target;
      Some(map c | c in fs.Keys + Ancestry(target) :: if c in fs then fs[c] else Directory)
  }

  /** `c` is an existing directory. */
  predicate IsDir(fs: Fs, c: Canon) {
    c in fs && fs[c] == Directory
  }

  /**
   * Both roots exist as directories. POSIX leaves a leading `//`
   * implementation-defined, and `os.path.abspath` keeps it, so the model
   * keeps `//` as a root of its own.
   */
  predicate HasRoots(fs: Fs) {
    IsDir(fs, Canon(false, [])) && IsDir(fs, Canon(true, []))
  }

  /** Where the components `xs` lead lexically from `start`. */
  function Resolved(start: Canon, xs: seq<string>): Canon {
    Canon(start.doubleRoot, ResolveFrom(start.segs, xs))
  }

  /**
   * The kernel's walk of the components `xs` from `start`: each component is
   * looked up inside the directory reached by the ones before it, which
   * must exist and be a directory. With no symbolic links, `..` of a reached
   * directory is its lexical parent, so a walk that succeeds ends where the
   * lexical resolution does.
   */
  function Traverse(fs: Fs, start: Canon, xs: seq<string>): (r: Option<Canon>)
    ensures r.Some? ==> r.value == Resolved(start, xs)
    decreases |xs|
  {
    if xs == [] then Some(start)
    else
      var parent := Traverse(fs, start, xs[..|xs| - 1]);
      if parent.Some? && IsDir(fs, parent.value) then
        ResolveAppend(start.segs, xs[..|xs| - 1], [xs[|xs| - 1]]);
        assert xs[..|xs| - 1] + [xs[|xs| - 1]] == xs;
        Some(Canon(start.doubleRoot, Step(parent.value.segs, xs[|xs| - 1])))
      else None
  }

  /** `os.path.exists`: the walk succeeds and ends on an entry. */
  predicate PathExists(fs: Fs, start: Canon, xs: seq<string>) {
    var t := Traverse(fs, start, xs);
    t.Some? && t.value in fs
  }

  /** `os.path.isdir`: the walk succeeds and ends on a directory. */
  predicate PathIsDir(fs: Fs, start: Canon, xs: seq<string>) {
    var t := Traverse(fs, start, xs);
    t.Some? && IsDir(fs, t.value)
  }

  /**
   * The two ways `mkdir` fails here: `EEXIST` (Python's `FileExistsError`)
   * and a missing or non-directory ancestor (`ENOENT`, `ENOTDIR`).
   */
  datatype OsError = AlreadyExists | Unreachable

  /** The tree after a call, and the error it raised, if any. */
  datatype Outcome = Outcome(fs: Fs, error: Option<OsError>)

  /**
   * `os.mkdir` of the components `xs`: all but the last must lead to an
   * existing directory; a path with no components (the root), a last
   * component `.` or `..`, or an existing entry gives `EEXIST`.
   */
  function Mkdir(fs: Fs, start: Canon, xs: seq<string>): (r: Outcome)
    ensures r.error.Some? ==> r.fs == fs
    ensures r.error == Some(Unreachable) <==> xs != [] && !PathIsDir(fs, start, xs[..|xs| - 1])
    ensures r.error.None? <==>
      xs != [] && PathIsDir(fs, start, xs[..|xs| - 1]) && IsSegment(xs[|xs| - 1]) && !PathExists(fs, start, xs)
    ensures r.error.None? ==> Resolved(start, xs) !in fs && r.fs == fs[Resolved(start, xs) := Directory]
  {
    if xs == [] then Outcome(fs, Some(AlreadyExists))
    else if !PathIsDir(fs, start, xs[..|xs| - 1]) then Outcome(fs, Some(Unreachable))
    else if !IsSegment(xs[|xs| - 1]) || PathExists(fs, start, xs) then Outcome(fs, Some(AlreadyExists))
    else Outcome(fs[Traverse(fs, start, xs).value := Directory], None)
  }

  /** The final `mkdir` of `os.makedirs(..., exist_ok=True)`: an error is ignored when the path is then a directory. */
  function MkdirExistOk(fs: Fs, start: Canon, xs: seq<string>): Outcome {
    var m := Mkdir(fs, start, xs);
    if m.error.Some? && PathIsDir(fs, start, xs) then Outcome(fs, None) else m
  }

  /**
   * CPython's `os.makedirs(name, exist_ok=True)` on the components `xs` of
   * `name`, as the string is given: when the head (all components but the
   * last) does not exist, it is made first, a `FileExistsError` from that
   * being ignored, and a last component `.` then ends the call; finally
   * the whole path is made by `mkdir`, whose error is ignored when the path
   * is then a directory. Every directory it creates is where some prefix of
   * the raw components leads.
   */
  function MakeDirsRaw(fs: Fs, start: Canon, xs: seq<string>): (r: Outcome)
    ensures forall c :: c in fs ==> c in r.fs && r.fs[c] == fs[c]
    ensures forall c :: c in r.fs && c !in fs ==> r.fs[c] == Directory
    decreases |xs|
  {
    if xs != [] && !PathExists(fs, start, xs[..|xs| - 1]) then
      var inner := MakeDirsRaw(fs, start, xs[..|xs| - 1]);
      if inner.error == Some(Unreachable) then inner
      else if xs[|xs| - 1] == "." then Outcome(inner.fs, None)
      else MkdirExistOk(inner.fs, start, xs)
    else MkdirExistOk(fs, start, xs)
  }

  /** `os.makedirs(p, exist_ok=True)` for the absolute path string `p`. */
  function MakeDirsAt(fs: Fs, p: string): Outcome
    requires IsAbs(p)
  {
    MakeDirsRaw(fs, Canon(NormAbs(p).doubleRoot, []), Components(p))
  }

  /** Each directory `os.makedirs` creates is where a prefix of the components it was given leads. */
  lemma {:induction false} MakeDirsRawAdds(fs: Fs, start: Canon, xs: seq<string>)
    ensures forall c :: c in MakeDirsRaw(fs, start, xs).fs && c !in fs ==>
      exists k :: 1 <= k <= |xs| && c == Resolved(start, xs[..k])
    decreases |xs|
  {
    var r := MakeDirsRaw(fs, start, xs);
    if xs != [] {
      var head := xs[..|xs| - 1];
      assert xs[..|xs|] == xs;
      if !PathExists(fs, start, head) {
        MakeDirsRawAdds(fs, start, head);
        var inner := MakeDirsRaw(fs, start, head);
        forall c | c in r.fs && c !in fs
          ensures exists k :: 1 <= k <= |xs| && c == Resolved(start, xs[..k])
        {
          if c in inner.fs {
            var k :| 1 <= k <= |head| && c == Resolved(start, head[..k]);
            assert head[..k] == xs[..k];
          } else {
            assert c == Resolved(start, xs[..|xs|]);
          }
        }
      }
    }
  }

  lemma MkdirKeepsClosed(fs: Fs, start: Canon, xs: seq<string>)
    requires Closed(fs)
    ensures Closed(Mkdir(fs, start, xs).fs)
  {
    var r := Mkdir(fs, start, xs);
    if r.error.None? {
      var parent := Traverse(fs, start, xs[..|xs| - 1]).value;
      var c := Traverse(fs, start, xs).value;
      assert c.segs == parent.segs + [xs[|xs| - 1]];
      forall e, k | e in r.fs && 0 <= k < |e.segs|
        ensures Prefix(e, k) in r.fs && r.fs[Prefix(e, k)] == Directory
      {
        if e == c {
          if k < |parent.segs| {
            assert Prefix(e, k) == Prefix(parent, k);
          } else {
            assert Prefix(e, k) == parent;
          }
        }
      }
    }
  }

  lemma {:induction false} MakeDirsRawKeepsClosed(fs: Fs, start: Canon, xs: seq<string>)
    requires Closed(fs)
    ensures Closed(MakeDirsRaw(fs, start, xs).fs)
    decreases |xs|
  {
    if xs != [] && !PathExists(fs, start, xs[..|xs| - 1]) {
      MakeDirsRawKeepsClosed(fs, start, xs[..|xs| - 1]);
      MkdirKeepsClosed(MakeDirsRaw(fs, start, xs[..|xs| - 1]).fs, start, xs);
    } else {
      MkdirKeepsClosed(fs, start, xs);
    }
  }

  /** On a real tree, walking canonical segments from the root reaches exactly the entry they name. */
  lemma {:induction false} WalkCanonical(fs: Fs, d: bool, ys: seq<string>)
    requires Closed(fs) && IsDir(fs, Canon(d, []))
    requires forall i :: 0 <= i < |ys| ==> IsSegment(ys[i])
    ensures PathExists(fs, Canon(d, []), ys) <==> Canon(d, ys) in fs
    ensures PathIsDir(fs, Canon(d, []), ys) <==> IsDir(fs, Canon(d, ys))
    decreases |ys|
  {
    if ys != [] {
      var c := Canon(d, ys);
      WalkCanonical(fs, d, ys[..|ys| - 1]);
      WalkStep(fs, d, ys);
      if c in fs {
        ClosedParent(fs, c);
      }
    }
  }

  lemma WalkStep(fs: Fs, d: bool, ys: seq<string>)
    requires ys != [] && forall i :: 0 <= i < |ys| ==> IsSegment(ys[i])
    requires PathIsDir(fs, Canon(d, []), ys[..|ys| - 1]) <==> IsDir(fs, Canon(d, ys[..|ys| - 1]))
    ensures Traverse(fs, Canon(d, []), ys) == if IsDir(fs, Parent(Canon(d, ys))) then Some(Canon(d, ys)) else None
  {
    var root := Canon(d, []);
    var head := ys[..|ys| - 1];
    var last := ys[|ys| - 1];
    var parent := Traverse(fs, root, head);
    assert parent.Some? ==> parent.value == Canon(d, head) by {
      ResolveSegments([], head);
    }
    assert Step(head, last) == ys by {
      assert IsSegment(last);
      assert head + [last] == ys;
    }
    assert Parent(Canon(d, ys)) == Canon(d, head);
    assert Traverse(fs, root, ys) == if parent.Some? && IsDir(fs, parent.value) then Some(Canon(d, Step(parent.value.segs, last))) else None;
  }

  lemma ClosedParent(fs: Fs, c: Canon)
    requires Closed(fs) && c in fs && |c.segs| > 0
    ensures IsDir(fs, Parent(c))
  {
  }

  lemma BlockedExtends(fs: Fs, t: Canon, k: nat)
    requires k <= |t.segs| && BlockedBy(fs, Prefix(t, k))
    ensures BlockedBy(fs, t)
  {
    var p := Prefix(t, k);
    var j :| 0 <= j <= |p.segs| && Prefix(p, j) in fs && fs[Prefix(p, j)] == File;
    assert Prefix(p, j) == Prefix(t, j);
  }

  lemma AncestryStep(t: Canon)
    requires |t.segs| > 0
    ensures Ancestry(t) == Ancestry(Parent(t)) + {t}
  {
    var n := |t.segs| - 1;
    var p := Parent(t);
    forall c | c in Ancestry(t) ensures c in Ancestry(p) + {t} {
      var k :| 0 <= k <= |t.segs| && c == Prefix(t, k);
      if k <= n {
        assert c == Prefix(p, k);
      } else {
        assert c == t;
      }
    }
    forall c | c in Ancestry(p) + {t} ensures c in Ancestry(t) {
      if c == t {
        assert c == Prefix(t, |t.segs|);
      } else {
        var k :| 0 <= k <= |p.segs| && c == Prefix(p, k);
        assert c == Prefix(t, k);
      }
    }
  }

  lemma NotBlockedStep(fs: Fs, t: Canon)
    requires |t.segs| > 0 && !BlockedBy(fs, Parent(t)) && t !in fs
    ensures !BlockedBy(fs, t)
  {
    var p := Parent(t);
    forall k | 0 <= k <= |t.segs| && Prefix(t, k) in fs
      ensures fs[Prefix(t, k)] != File
    {
      assert k < |t.segs| by { assert Prefix(t, |t.segs|) == t; }
      assert Prefix(t, k) == Prefix(p, k);
    }
  }

  /** Making `t` is making its parent and then `t` itself. */
  lemma MakeDirsStep(fs: Fs, t: Canon)
    requires |t.segs| > 0 && MakeDirs(fs, Parent(t)).Some? && t !in fs
    ensures MakeDirs(fs, t) == Some(MakeDirs(fs, Parent(t)).value[t := Directory])
  {
    var p := Parent(t);
    NotBlockedStep(fs, t);
    AncestryStep(t);
    var q := MakeDirs(fs, p).value;
    var r := MakeDirs(fs, t).value;
    assert r.Keys == q.Keys + {t};
    forall c | c in r ensures r[c] == q[t := Directory][c] {
      if c != t {
        assert c in q;
      }
    }
    assert r == q[t := Directory];
  }

  /** Where `os.makedirs` may stand at the end of a call on a real tree: `MakeDirs` succeeding or the tree untouched. */
  predicate AgreesWithMakeDirs(fs: Fs, t: Canon, r: Outcome) {
    && (r.error.None? <==> MakeDirs(fs, t).Some?)
    && (MakeDirs(fs, t).Some? ==> r.fs == MakeDirs(fs, t).value)
    && (MakeDirs(fs, t).None? ==> r.fs == fs)
  }

  /**
   * On a real tree, `os.makedirs` of a canonical path behaves as "create
   * every missing ancestor unless one of them is a file".
   */
  lemma {:induction false} MakeDirsCanonical(fs: Fs, t: Canon)
    requires Closed(fs) && IsDir(fs, Canon(t.doubleRoot, [])) && ValidCanon(t)
    ensures AgreesWithMakeDirs(fs, t, MakeDirsRaw(fs, Canon(t.doubleRoot, []), t.segs))
    decreases |t.segs|
  {
    var d := t.doubleRoot;
    if t.segs == [] {
      assert t == Canon(d, []);
      MakeDirsExisting(fs, t);
    } else {
      var p := Parent(t);
      assert p == Canon(d, t.segs[..|t.segs| - 1]);
      if p in fs {
        MakeDirsParentExists(fs, t);
      } else {
        MakeDirsCanonical(fs, p);
        MakeDirsParentMissing(fs, t);
      }
    }
  }

  /** On a real tree, `mkdir` of a missing canonical path whose parent is a directory creates it. */
  lemma MkdirCanonicalFresh(fs: Fs, t: Canon)
    requires Closed(fs) && IsDir(fs, Canon(t.doubleRoot, [])) && ValidCanon(t)
    requires |t.segs| > 0 && IsDir(fs, Parent(t)) && t !in fs
    ensures MkdirExistOk(fs, Canon(t.doubleRoot, []), t.segs) == Outcome(fs[t := Directory], None)
  {
    var d := t.doubleRoot;
    var head := t.segs[..|t.segs| - 1];
    assert Parent(t) == Canon(d, head);
    assert Canon(d, t.segs) == t;
    WalkCanonical(fs, d, head);
    WalkCanonical(fs, d, t.segs);
    ResolveSegments([], t.segs);
    var root := Canon(d, []);
    assert Resolved(root, t.segs) == t;
    assert IsSegment(t.segs[|t.segs| - 1]);
    assert PathIsDir(fs, root, head);
    assert !PathExists(fs, root, t.segs);
    assert Mkdir(fs, root, t.segs).error.None?;
  }

  lemma MakeDirsParentExists(fs: Fs, t: Canon)
    requires Closed(fs) && IsDir(fs, Canon(t.doubleRoot, [])) && ValidCanon(t)
    requires |t.segs| > 0 && Parent(t) in fs
    ensures AgreesWithMakeDirs(fs, t, MakeDirsRaw(fs, Canon(t.doubleRoot, []), t.segs))
  {
    var d := t.doubleRoot;
    var xs := t.segs;
    var n := |xs| - 1;
    var head := xs[..n];
    var p := Parent(t);
    assert p == Canon(d, head);
    WalkCanonical(fs, d, head);
    WalkCanonical(fs, d, xs);
    assert Canon(d, xs) == t;
    if fs[p] == Directory {
      if t in fs {
        if fs[t] == Directory {
          MakeDirsExisting(fs, t);
        } else {
          assert BlockedBy(fs, t) by { assert Prefix(t, |xs|) == t; }
        }
      } else {
        MakeDirsExisting(fs, p);
        MakeDirsStep(fs, t);
        MkdirCanonicalFresh(fs, t);
      }
    } else {
      assert BlockedBy(fs, t) by { assert Prefix(t, n) == p; }
    }
  }

  lemma MakeDirsParentMissing(fs: Fs, t: Canon)
    requires Closed(fs) && IsDir(fs, Canon(t.doubleRoot, [])) && ValidCanon(t)
    requires |t.segs| > 0 && Parent(t) !in fs
    requires AgreesWithMakeDirs(fs, Parent(t), MakeDirsRaw(fs, Canon(t.doubleRoot, []), Parent(t).segs))
    ensures AgreesWithMakeDirs(fs, t, MakeDirsRaw(fs, Canon(t.doubleRoot, []), t.segs))
  {
    var d := t.doubleRoot;
    var xs := t.segs;
    var n := |xs| - 1;
    var head := xs[..n];
    var p := Parent(t);
    assert p == Canon(d, head);
    WalkCanonical(fs, d, head);
    WalkCanonical(fs, d, xs);
    assert Canon(d, xs) == t;
    assert t !in fs;
    if MakeDirs(fs, p).None? {
      BlockedExtends(fs, t, n);
    } else {
      var fs1 := MakeDirs(fs, p).value;
      MakeDirsKeepsClosed(fs, p);
      assert t !in fs1;
      MakeDirsStep(fs, t);
      MkdirCanonicalFresh(fs1, t);
      assert IsSegment(xs[n]);
    }
  }

  /** `c` lies strictly below `top`. */
  predicate StrictlyBelow(top: Canon, c: Canon) {
    Below(top, c) && c != top
  }

  /**
   * The kernel's `rmdir` refuses a path whose last component is `.`
   * (`EINVAL`) or `..` (`ENOTEMPTY`), and `/` itself (`EBUSY`).
   */
  predicate RmdirRefused(p: string) {
    var xs := Components(p);
    xs == [] || xs[|xs| - 1] == "." || xs[|xs| - 1] == ".."
  }

  /**
   * What `os.stat` finds at the absolute path `p` as written, which is what
   * `os.path.exists`, `os.path.isfile` and `os.path.isdir` ask: the kernel
   * walks the components of `p` from the root, so a `..` after a missing
   * directory or after a file finds nothing even when the normalised path
   * exists.
   */
  function EntryAt(fs: Fs, p: string): (r: Option<Kind>)
    requires IsAbs(p)
    ensures r.Some? ==> NormAbs(p) in fs && r.value == fs[NormAbs(p)]
  {
    NormAbsComponents(p);
    var t := Traverse(fs, Canon(NormAbs(p).doubleRoot, []), Components(p));
    if t.Some? && t.value in fs then Some(fs[t.value]) else None
  }

  /** On a real tree, a path written without `.`, `..` or repeated slashes finds exactly the entry it names. */
  lemma EntryAtCanonical(fs: Fs, c: Canon)
    requires Closed(fs) && IsDir(fs, Canon(c.doubleRoot, [])) && ValidCanon(c)
    ensures EntryAt(fs, Render(c)) == if c in fs then Some(fs[c]) else None
  {
    NormAbsRender(c);
    ComponentsRender(c);
    WalkCanonical(fs, c.doubleRoot, c.segs);
    assert Canon(c.doubleRoot, c.segs) == c;
  }

  /**
   * A path that goes on past a missing entry or a file finds nothing: `m/..`
   * with `m` missing, or `f.txt/..` and `f.txt/.` with `f.txt` a file, though
   * each normalises to an existing directory.
   */
  lemma EntryAtPastNonDirectory(fs: Fs, p: string, xs: seq<string>, x: string)
    requires IsAbs(p) && Components(p) == xs + [x]
    requires forall i :: 0 <= i < |xs| ==> IsSegment(xs[i])
    requires !IsDir(fs, Canon(NormAbs(p).doubleRoot, xs))
    ensures EntryAt(fs, p) == None
  {
    var start := Canon(NormAbs(p).doubleRoot, []);
    var ys := xs + [x];
    assert ys[..|ys| - 1] == xs;
    var parent := Traverse(fs, start, xs);
    assert parent.Some? ==> parent.value == Canon(start.doubleRoot, xs) by {
      ResolveSegments([], xs);
    }
    assert Traverse(fs, start, ys) == None;
  }

  /** On a real tree, a directory's path followed by `.` finds that directory. */
  lemma EntryAtDot(fs: Fs, c: Canon, p: string)
    requires Closed(fs) && ValidCanon(c) && IsDir(fs, c)
    requires IsAbs(p) && NormAbs(p) == c && Components(p) == c.segs + ["."]
    ensures EntryAt(fs, p) == Some(Directory)
  {
    var start := Canon(c.doubleRoot, []);
    var ys := c.segs + ["."];
    assert ys[..|ys| - 1] == c.segs;
    assert IsDir(fs, start) by {
      if |c.segs| > 0 {
        assert Prefix(c, 0) == start;
      } else {
        assert c == start;
      }
    }
    var parent := Traverse(fs, start, c.segs);
    assert parent == Some(c) by {
      WalkCanonical(fs, c.doubleRoot, c.segs);
      assert Canon(c.doubleRoot, c.segs) == c;
      ResolveSegments([], c.segs);
      assert Resolved(start, c.segs) == c;
    }
    assert Traverse(fs, start, ys) == Some(c);
  }

  /**
   * `FileUtils.safe_delete(p)`: when the kernel finds nothing at `p` as
   * written, neither `isfile` nor `isdir` holds and nothing happens; a file
   * is removed; a directory is emptied by `shutil.rmtree` and then removed
   * by its final `rmdir`, unless the kernel refuses that `rmdir`, in which
   * case the directory stays, empty, and `safe_delete` answers False.
   */
  function SafeDelete(fs: Fs, p: string): (r: Fs)
    requires IsAbs(p)
    ensures forall c :: c in r ==> c in fs && r[c] == fs[c]
    ensures EntryAt(fs, p).None? ==> r == fs
    ensures EntryAt(fs, p) == Some(File) ==>
      forall c :: c in r <==> c in fs && (c != NormAbs(p) || RmdirRefused(p))
    ensures EntryAt(fs, p) == Some(Directory) && !RmdirRefused(p) ==>
      forall c :: c in r <==> c in fs && !Below(NormAbs(p), c)
    ensures EntryAt(fs, p) == Some(Directory) && RmdirRefused(p) ==>
      forall c :: c in r <==> c in fs && !StrictlyBelow(NormAbs(p), c)
  {
    var target := NormAbs(p);
    match EntryAt(fs, p)
    case None => fs
    case Some(File) => if RmdirRefused(p) then fs else fs - {target}
    case Some(Directory) =>
      if RmdirRefused(p) then map c | c in fs && !StrictlyBelow(target, c) :: fs[c]
      else map c | c in fs && !Below(target, c) :: fs[c]
  }

  /** The directory holding `c`. */
  function Parent(c: Canon): Canon
    requires |c.segs| > 0
  {
    Prefix(c, |c.segs| - 1)
  }

  /**
   * Writing a file at `p` (`FileStorage.save`): the parent must be an
   * existing directory and `p` must not be a directory.
   */
  function AddFile(fs: Fs, p: Canon): (r: Option<Fs>)
    ensures r.Some? <==> |p.segs| > 0 && Parent(p) in fs && fs[Parent(p)] == Directory
                         && !(p in fs && fs[p] == Directory)
    ensures r.Some? ==> r.value.Keys == fs.Keys + {p} && r.value[p] == File
    ensures r.Some? ==> forall c :: c in fs && c != p ==> r.value[c] == fs[c]
  {
    if |p.segs| == 0 || Parent(p) !in fs || fs[Parent(p)] != Directory || (p in fs && fs[p] == Directory) then None
    else Some(fs[p := File])
  }

  lemma AddFileKeepsClosed(fs: Fs, p: Canon)
    requires Closed(fs) && AddFile(fs, p).Some?
    ensures Closed(AddFile(fs, p).value)
  {
    var r := AddFile(fs, p).value;
    var n := |p.segs| - 1;
    forall c, k | c in r && 0 <= k < |c.segs|
      ensures Prefix(c, k) in r && r[Prefix(c, k)] == Directory
    {
      if c == p {
        if k < n {
          assert Prefix(c, k) == Prefix(Parent(p), k);
        } else {
          assert Prefix(c, k) == Parent(p);
        }
      }
    }
  }

  lemma MakeDirsKeepsClosed(fs: Fs, target: Canon)
    requires Closed(fs) && MakeDirs(fs, target).Some?
    ensures Closed(MakeDirs(fs, target).value)
  {
    var r := MakeDirs(fs, target).value;
    forall c, k | c in r && 0 <= k < |c.segs|
      ensures Prefix(c, k) in r && r[Prefix(c, k)] == Directory
    {
      if c !in fs {
        var j :| 0 <= j <= |target.segs| && c == Prefix(target, j);
        assert Prefix(c, k) == Prefix(target, k);
        if Prefix(target, k) in fs {
          assert fs[Prefix(target, k)] != File;
        }
      }
    }
  }

  /** Creating a directory that already exists changes nothing. */
  lemma MakeDirsExisting(fs: Fs, target: Canon)
    requires Closed(fs) && target in fs && fs[target] == Directory
    ensures MakeDirs(fs, target) == Some(fs)
  {
    assert !BlockedBy(fs, target) by {
      forall k | 0 <= k <= |target.segs| && Prefix(target, k) in fs
        ensures fs[Prefix(target, k)] == Directory
      {
        if k == |target.segs| {
          assert Prefix(target, k) == target;
        }
      }
    }
    assert forall k :: 0 <= k <= |target.segs| ==> Prefix(target, k) in fs by {
      forall k | 0 <= k <= |target.segs| ensures Prefix(target, k) in fs {
        if k == |target.segs| {
          assert Prefix(target, k) == target;
        }
      }
    }
    var r := MakeDirs(fs, target).value;
    assert forall c :: c in r ==> c in fs;
    assert r.Keys == fs.Keys;
    assert forall c :: c in r ==> r[c] == fs[c];
    assert r == fs;
  }

  lemma SafeDeleteKeepsClosed(fs: Fs, p: string)
    requires Closed(fs) && IsAbs(p)
    ensures Closed(SafeDelete(fs, p))
  {
    var r := SafeDelete(fs, p);
    var t := NormAbs(p);
    forall c, k | c in r && 0 <= k < |c.segs|
      ensures Prefix(c, k) in r && r[Prefix(c, k)] == Directory
    {
      assert Prefix(c, k) in fs && fs[Prefix(c, k)] == Directory;
      BelowPrefix(t, c, k);
      if Prefix(c, k) == t {
        assert fs[t] == Directory;
      }
    }
  }

  lemma BelowPrefix(top: Canon, c: Canon, k: nat)
    requires k <= |c.segs|
    ensures Below(top, Prefix(c, k)) ==> Below(top, c)
  {
    if Below(top, Prefix(c, k)) {
      assert c.segs[..k] <= c.segs;
    }
  }
}

=== FILE: filetree.dfy ===
/**
 * An abstract directory tree, the traversal `os.walk` performs over it, and
 * `FileUtils.get_file_stats`, which counts what the traversal yields.
 */
module FileTree {

  /**
   * A directory entry. `readable` is false for a file whose
   * `os.path.getsize` raises `OSError`; such a file is listed but has no size.
   */
  datatype Node =
    | File(name: string, size: nat, readable: bool)
    | Dir(name: string, children: seq<Node>)

  /** One `(root, dirs, files)` triple of `os.walk`: the sub-directories and the files of one directory. */
  datatype WalkStep = WalkStep(dirs: seq<Node>, files: seq<Node>)

  function SubDirs(cs: seq<Node>): (r: seq<Node>)
    ensures |r| <= |cs|
    ensures forall i :: 0 <= i < |r| ==> r[i].Dir?
  {
    if cs == [] then [] else (if cs[0].Dir? then [cs[0]] else []) + SubDirs(cs[1..])
  }

  function FilesOf(cs: seq<Node>): (r: seq<Node>)
    ensures |r| <= |cs|
    ensures forall i :: 0 <= i < |r| ==> r[i].File?
  {
    if cs == [] then [] else (if cs[0].File? then [cs[0]] else []) + FilesOf(cs[1..])
  }

  /**
   * `os.walk(top)`, top-down: one step for the directory itself, then the
   * walks of its sub-directories in listing order. Walking a file yields
   * nothing, so there is exactly one step per directory.
   */
  function Walk(n: Node): (r: seq<WalkStep>)
    ensures |r| == DirsIn([n])
    decreases n
  {
    assert [n][1..] == [];
    match n
    case File(_, _, _) => []
    case Dir(_, cs) => [WalkStep(SubDirs(cs), FilesOf(cs))] + WalkEach(cs)
  }

  /** The walks of the entries, one after the other: one step per directory among and below them. */
  function WalkEach(cs: seq<Node>): (r: seq<WalkStep>)
    ensures |r| == DirsIn(cs)
    decreases cs
  {
    if cs == [] then [] else
      assert DirsIn(cs) == DirsIn([cs[0]]) + DirsIn(cs[1..]) by {
        assert [cs[0]][1..] == [];
      }
      Walk(cs[0]) + WalkEach(cs[1..])
  }

  // ------------------------------------------------------------------ structural reference counts

  /** Files anywhere below the given entries. */
  function FilesIn(cs: seq<Node>): nat
    decreases cs
  {
    if cs == [] then 0
    else
      (match cs[0]
       case File(_, _, _) => 1
       case Dir(_, sub) => FilesIn(sub))
      + FilesIn(cs[1..])
  }

  /** Directories anywhere below the given entries, the entries included. */
  function DirsIn(cs: seq<Node>): nat
    decreases cs
  {
    if cs == [] then 0
    else
      (match cs[0]
       case File(_, _, _) => 0
       case Dir(_, sub) => 1 + DirsIn(sub))
      + DirsIn(cs[1..])
  }

  /** The sizes of the readable files anywhere below the given entries. */
  function BytesIn(cs: seq<Node>): nat
    decreases cs
  {
    if cs == [] then 0
    else
      (match cs[0]
       case File(_, size, readable) => if readable then size else 0
       case Dir(_, sub) => BytesIn(sub))
      + BytesIn(cs[1..])
  }

  /** The contents of a node: nothing for a file, the children for a directory. */
  function Contents(n: Node): seq<Node> {
    if n.Dir? then n.children else []
  }

  // ------------------------------------------------------------------ sums over a walk

  /** The size a file contributes: `os.path.getsize`, or nothing when it raises. */
  function Bytes(f: Node): nat {
    if f.File? && f.readable then f.size else 0
  }

  function ReadableBytes(files: seq<Node>): nat {
    if files == [] then 0 else ReadableBytes(files[..|files| - 1]) + Bytes(files[|files| - 1])
  }

  function StepFiles(steps: seq<WalkStep>): nat {
    if steps == [] then 0 else StepFiles(steps[..|steps| - 1]) + |steps[|steps| - 1].files|
  }

  function StepDirs(steps: seq<WalkStep>): nat {
    if steps == [] then 0 else StepDirs(steps[..|steps| - 1]) + |steps[|steps| - 1].dirs|
  }

  function StepBytes(steps: seq<WalkStep>): nat {
    if steps == [] then 0 else StepBytes(steps[..|steps| - 1]) + ReadableBytes(steps[|steps| - 1].files)
  }

  lemma {:induction false} ReadableBytesAppend(a: seq<Node>, b: seq<Node>)
    ensures ReadableBytes(a + b) == ReadableBytes(a) + ReadableBytes(b)
    decreases |b|
  {
    if b != [] {
      var b' := b[..|b| - 1];
      assert (a + b)[..|a + b| - 1] == a + b';
      ReadableBytesAppend(a, b');
    } else {
      assert a + b == a;
    }
  }

  lemma {:induction false} StepSumsAppend(a: seq<WalkStep>, b: seq<WalkStep>)
    ensures StepFiles(a + b) == StepFiles(a) + StepFiles(b)
    ensures StepDirs(a + b) == StepDirs(a) + StepDirs(b)
    ensures StepBytes(a + b) == StepBytes(a) + StepBytes(b)
    decreases |b|
  {
    if b != [] {
      var b' := b[..|b| - 1];
      assert (a + b)[..|a + b| - 1] == a + b';
      StepSumsAppend(a, b');
    } else {
      assert a + b == a;
    }
  }

  lemma SplitFirst(cs: seq<Node>)
    requires cs != []
    ensures FilesOf(cs) == (if cs[0].File? then [cs[0]] else []) + FilesOf(cs[1..])
    ensures SubDirs(cs) == (if cs[0].Dir? then [cs[0]] else []) + SubDirs(cs[1..])
  {
  }

  lemma {:induction false} WalkEachFiles(cs: seq<Node>)
    ensures StepFiles(WalkEach(cs)) + |FilesOf(cs)| == FilesIn(cs)
    decreases cs
  {
    if cs != [] {
      var rest := cs[1..];
      WalkEachFiles(rest);
      SplitFirst(cs);
      StepSumsAppend(Walk(cs[0]), WalkEach(rest));
      if cs[0].Dir? {
        var sub := cs[0].children;
        WalkEachFiles(sub);
        StepSumsAppend([WalkStep(SubDirs(sub), FilesOf(sub))], WalkEach(sub));
      }
    }
  }

  lemma {:induction false} WalkEachDirs(cs: seq<Node>)
    ensures StepDirs(WalkEach(cs)) + |SubDirs(cs)| == DirsIn(cs)
    decreases cs
  {
    if cs != [] {
      var rest := cs[1..];
      WalkEachDirs(rest);
      SplitFirst(cs);
      StepSumsAppend(Walk(cs[0]), WalkEach(rest));
      if cs[0].Dir? {
        var sub := cs[0].children;
        WalkEachDirs(sub);
        StepSumsAppend([WalkStep(SubDirs(sub), FilesOf(sub))], WalkEach(sub));
      }
    }
  }

  lemma {:induction false} WalkEachBytes(cs: seq<Node>)
    ensures StepBytes(WalkEach(cs)) + ReadableBytes(FilesOf(cs)) == BytesIn(cs)
    decreases cs
  {
    if cs != [] {
      var rest := cs[1..];
      WalkEachBytes(rest);
      SplitFirst(cs);
      StepSumsAppend(Walk(cs[0]), WalkEach(rest));
      if cs[0].Dir? {
        var sub := cs[0].children;
        WalkEachBytes(sub);
        assert FilesOf(cs) == FilesOf(rest);
        StepSumsAppend([WalkStep(SubDirs(sub), FilesOf(sub))], WalkEach(sub));
        assert StepBytes([WalkStep(SubDirs(sub), FilesOf(sub))]) == ReadableBytes(FilesOf(sub));
      } else {
        ReadableBytesAppend([cs[0]], FilesOf(rest));
        assert ReadableBytes([cs[0]]) == Bytes(cs[0]);
      }
    }
  }

  /** The sums over the steps of `os.walk(top)` are the counts of everything below `top`. */
  lemma WalkTotals(top: Node)
    ensures StepFiles(Walk(top)) == FilesIn(Contents(top))
    ensures StepDirs(Walk(top)) == DirsIn(Contents(top))
    ensures StepBytes(Walk(top)) == BytesIn(Contents(top))
  {
    if top.Dir? {
      var first := [WalkStep(SubDirs(top.children), FilesOf(top.children))];
      WalkEachFiles(top.children);
      WalkEachDirs(top.children);
      WalkEachBytes(top.children);
      StepSumsAppend(first, WalkEach(top.children));
      assert StepFiles(first) == |FilesOf(top.children)|;
      assert StepBytes(first) == ReadableBytes(FilesOf(top.children));
    }
  }

  // ------------------------------------------------------------------ get_file_stats

  datatype FileStats = FileStats(fileCount: nat, dirCount: nat, totalSize: nat)

  lemma StepPrefix(steps: seq<WalkStep>, i: nat)
    requires i < |steps|
    ensures StepFiles(steps[..i + 1]) == StepFiles(steps[..i]) + |steps[i].files|
    ensures StepDirs(steps[..i + 1]) == StepDirs(steps[..i]) + |steps[i].dirs|
    ensures StepBytes(steps[..i + 1]) == StepBytes(steps[..i]) + ReadableBytes(steps[i].files)
  {
    assert steps[..i + 1][..i] == steps[..i];
  }

  /** The inner loop of `get_file_stats`: add `getsize` of each file, skipping those that raise. */
  method SumReadable(files: seq<Node>) returns (total: nat)
    ensures total == ReadableBytes(files)
  {
    total := 0;
    var j := 0;
    while j < |files|
      invariant 0 <= j <= |files|
      invariant total == ReadableBytes(files[..j])
    {
      var f := files[j];
      if f.File? && f.readable {
        total := total + f.size;
      }
      assert files[..j + 1][..j] == files[..j];
      j := j + 1;
    }
    assert files[..j] == files;
  }

  /**
   * `get_file_stats`: over every step of the walk add the number of
   * sub-directories and of files, and the size of every file whose size can
   * be read. Unreadable files are counted but add no size.
   */
  method GetFileStats(top: Node) returns (stats: FileStats)
    ensures stats.fileCount == FilesIn(Contents(top))
    ensures stats.dirCount == DirsIn(Contents(top))
    ensures stats.totalSize == BytesIn(Contents(top))
  {
    var steps := Walk(top);
    var fileCount: nat := 0;
    var dirCount: nat := 0;
    var totalSize: nat := 0;
    var i := 0;
    while i < |steps|
      invariant 0 <= i <= |steps|
      invariant fileCount == StepFiles(steps[..i])
      invariant dirCount == StepDirs(steps[..i])
      invariant totalSize == StepBytes(steps[..i])
    {
      var step := steps[i];
      var bytes := SumReadable(step.files);
      StepPrefix(steps, i);
      dirCount := dirCount + |step.dirs|;
      fileCount := fileCount + |step.files|;
      totalSize := totalSize + bytes;
      i := i + 1;
    }
    assert steps[..i] == steps;
    WalkTotals(top);
    stats := FileStats(fileCount, dirCount, totalSize);
  }
}

=== FILE: folderstats.dfy ===
/**
 * `FileUtils.get_folder_size_stats`: the size of every immediate
 * sub-directory, collected into a name-keyed dictionary, sorted by size
 * (largest first, stable) and cut to the ten largest.
 */
module FolderStats {
  import opened FileTree

  /** One `folder_stats` item: a child directory's name and the bytes below it. */
  datatype Entry = Entry(name: string, size: nat)

  datatype FolderReport = FolderReport(folders: seq<Entry>, totalFolders: nat)

  /** The inner `os.walk` of one child directory, summing the sizes it can read. */
  function FolderSize(d: Node): nat {
    StepBytes(Walk(d))
  }

  lemma FolderSizeMeaning(d: Node)
    ensures FolderSize(d) == BytesIn(Contents(d))
  {
    WalkTotals(d);
  }

  // ------------------------------------------------------------------ the dictionary

  function Names(s: seq<Entry>): set<string> {
    if s == [] then {} else {s[0].name} + Names(s[1..])
  }

  /** Dictionary keys are unique. */
  predicate DistinctNames(s: seq<Entry>) {
    s == [] || (s[0].name !in Names(s[1..]) && DistinctNames(s[1..]))
  }

  /**
   * `folder_stats[item] = ...`: a new key goes at the end; an existing key
   * keeps its place and takes the new value.
   */
  function Upsert(s: seq<Entry>, e: Entry): seq<Entry> {
    if s == [] then [e]
    else if s[0].name == e.name then [e] + s[1..]
    else [s[0]] + Upsert(s[1..], e)
  }

  lemma {:induction false} UpsertMeaning(s: seq<Entry>, e: Entry)
    requires DistinctNames(s)
    ensures DistinctNames(Upsert(s, e))
    ensures Names(Upsert(s, e)) == Names(s) + {e.name}
    ensures e in Upsert(s, e)
    ensures forall x :: x in Upsert(s, e) && x != e ==> x in s
    ensures |Upsert(s, e)| == |s| + (if e.name in Names(s) then 0 else 1)
    decreases |s|
  {
    if s == [] {
      assert [e][1..] == [];
    } else {
      var rest := s[1..];
      if s[0].name == e.name {
        assert ([e] + rest)[1..] == rest;
      } else {
        UpsertMeaning(rest, e);
        var u := Upsert(rest, e);
        assert ([s[0]] + u)[1..] == u;
      }
    }
  }

  /** The names of the directories among the entries of a listing. */
  function DirNames(cs: seq<Node>): set<string> {
    if cs == [] then {}
    else DirNames(cs[..|cs| - 1]) + (if cs[|cs| - 1].Dir? then {cs[|cs| - 1].name} else {})
  }

  /** The loop over `os.listdir(path)`: every directory becomes a dictionary item. */
  function Collect(cs: seq<Node>): seq<Entry> {
    if cs == [] then []
    else
      var prev := Collect(cs[..|cs| - 1]);
      var last := cs[|cs| - 1];
      if last.Dir? then Upsert(prev, Entry(last.name, FolderSize(last))) else prev
  }

  /** A directory child named `e.name` whose walk sums to `e.size`. */
  predicate Measured(cs: seq<Node>, e: Entry) {
    exists i :: 0 <= i < |cs| && cs[i].Dir? && cs[i].name == e.name && e.size == BytesIn(cs[i].children)
  }

  lemma MeasuredInLonger(cs: seq<Node>, e: Entry)
    requires cs != [] && Measured(cs[..|cs| - 1], e)
    ensures Measured(cs, e)
  {
    var init := cs[..|cs| - 1];
    var i :| 0 <= i < |init| && init[i].Dir? && init[i].name == e.name && e.size == BytesIn(init[i].children);
    assert cs[i] == init[i];
  }

  /**
   * The collected dictionary has one item per distinct child directory name,
   * and every item's size is what the walk of such a directory reads.
   */
  lemma {:induction false} CollectMeaning(cs: seq<Node>)
    ensures DistinctNames(Collect(cs))
    ensures Names(Collect(cs)) == DirNames(cs)
    ensures |Collect(cs)| == |DirNames(cs)|
    ensures forall e :: e in Collect(cs) ==> Measured(cs, e)
    decreases |cs|
  {
    if cs != [] {
      var init := cs[..|cs| - 1];
      var last := cs[|cs| - 1];
      CollectMeaning(init);
      var prev := Collect(init);
      forall e | e in prev ensures Measured(cs, e) {
        MeasuredInLonger(cs, e);
      }
      if last.Dir? {
        var e := Entry(last.name, FolderSize(last));
        UpsertMeaning(prev, e);
        FolderSizeMeaning(last);
        assert Measured(cs, e) by {
          assert cs[|cs| - 1].Dir? && cs[|cs| - 1].name == e.name;
        }
      }
    }
  }

  // ------------------------------------------------------------------ sorted(..., reverse=True)

  predicate SortedDesc(s: seq<Entry>) {
    forall i, j :: 0 <= i < j < |s| ==> s[i].size >= s[j].size
  }

  predicate AtMost(s: seq<Entry>, v: nat) {
    forall i :: 0 <= i < |s| ==> s[i].size <= v
  }

  /**
   * Place `e`, which came earlier in the listing than everything in `s`,
   * before the first entry no larger than it: equal sizes keep their order.
   */
  function Insert(s: seq<Entry>, e: Entry): seq<Entry> {
    if s == [] then [e]
    else if s[0].size > e.size then [s[0]] + Insert(s[1..], e)
    else [e] + s
  }

  /** A stable sort by non-increasing size. */
  function Sort(s: seq<Entry>): seq<Entry> {
    if s == [] then [] else Insert(Sort(s[1..]), s[0])
  }

  /** The entries of a given size, in order. */
  function OfSize(s: seq<Entry>, v: nat): seq<Entry> {
    if s == [] then [] else (if s[0].size == v then [s[0]] else []) + OfSize(s[1..], v)
  }

  lemma ConsSorted(x: Entry, r: seq<Entry>)
    requires SortedDesc(r) && AtMost(r, x.size)
    ensures SortedDesc([x] + r)
  {
    forall i, j | 0 <= i < j < |[x] + r| ensures ([x] + r)[i].size >= ([x] + r)[j].size {
      if i > 0 {
        assert ([x] + r)[i] == r[i - 1];
      }
      assert ([x] + r)[j] == r[j - 1];
    }
  }

  lemma {:induction false} InsertAtMost(s: seq<Entry>, e: Entry, v: nat)
    requires AtMost(s, v) && e.size <= v
    ensures AtMost(Insert(s, e), v)
    decreases |s|
  {
    if s != [] && s[0].size > e.size {
      InsertAtMost(s[1..], e, v);
      var r := Insert(s[1..], e);
      assert forall i :: 1 <= i < |[s[0]] + r| ==> ([s[0]] + r)[i] == r[i - 1];
    }
  }

  lemma {:induction false} InsertSorted(s: seq<Entry>, e: Entry)
    requires SortedDesc(s)
    ensures SortedDesc(Insert(s, e))
    decreases |s|
  {
    if s == [] {
    } else if s[0].size > e.size {
      var rest := s[1..];
      InsertSorted(rest, e);
      assert AtMost(rest, s[0].size) by {
        forall i | 0 <= i < |rest| ensures rest[i].size <= s[0].size {
          assert rest[i] == s[i + 1];
        }
      }
      InsertAtMost(rest, e, s[0].size);
      ConsSorted(s[0], Insert(rest, e));
    } else {
      ConsSorted(e, s);
    }
  }

  lemma {:induction false} InsertPermutes(s: seq<Entry>, e: Entry)
    ensures multiset(Insert(s, e)) == multiset(s) + multiset{e}
    ensures Names(Insert(s, e)) == Names(s) + {e.name}
    ensures DistinctNames(s) && e.name !in Names(s) ==> DistinctNames(Insert(s, e))
    decreases |s|
  {
    if s == [] {
      assert [e][1..] == [];
    } else if s[0].size > e.size {
      var rest := s[1..];
      InsertPermutes(rest, e);
      var r := Insert(rest, e);
      assert ([s[0]] + r)[1..] == r;
      assert s == [s[0]] + rest;
    } else {
      assert ([e] + s)[1..] == s;
    }
  }

  lemma {:induction false} InsertStable(s: seq<Entry>, e: Entry, v: nat)
    ensures OfSize(Insert(s, e), v) == (if e.size == v then [e] else []) + OfSize(s, v)
    decreases |s|
  {
    var head := if e.size == v then [e] else [];
    if s == [] {
      assert [e][1..] == [];
      assert OfSize([e], v) == head + OfSize([], v);
    } else if s[0].size > e.size {
      var rest := s[1..];
      var x := if s[0].size == v then [s[0]] else [];
      InsertStable(rest, e, v);
      var r := [s[0]] + Insert(rest, e);
      assert r[0] == s[0] && r[1..] == Insert(rest, e);
      assert OfSize(r, v) == x + OfSize(Insert(rest, e), v);
      assert OfSize(s, v) == x + OfSize(rest, v);
      if s[0].size == v {
        assert e.size != v;
      }
    } else {
      var r := [e] + s;
      assert r[0] == e && r[1..] == s;
      assert OfSize(r, v) == head + OfSize(s, v);
    }
  }

  /**
   * The sort is a permutation that keeps the names, is non-increasing in
   * size, and keeps entries of equal size in their original order.
   */
  lemma {:induction false} SortMeaning(s: seq<Entry>)
    ensures SortedDesc(Sort(s))
    ensures multiset(Sort(s)) == multiset(s)
    ensures |Sort(s)| == |s|
    ensures Names(Sort(s)) == Names(s)
    ensures DistinctNames(s) ==> DistinctNames(Sort(s))
    ensures forall v: nat :: OfSize(Sort(s), v) == OfSize(s, v)
    decreases |s|
  {
    if s != [] {
      var rest := s[1..];
      SortMeaning(rest);
      InsertSorted(Sort(rest), s[0]);
      InsertPermutes(Sort(rest), s[0]);
      assert s == [s[0]] + rest;
      assert |Sort(s)| == |multiset(Sort(s))|;
      forall v: nat ensures OfSize(Sort(s), v) == OfSize(s, v) {
        InsertStable(Sort(rest), s[0], v);
      }
    }
  }

  // ------------------------------------------------------------------ the report

  function Min(a: nat, b: nat): nat {
    if a < b then a else b
  }

  /**
   * `get_folder_size_stats(path)`: the ten largest child directories and the
   * number of child directories. A path that cannot be listed gives an empty report.
   */
  function GetFolderSizeStats(n: Node): (r: FolderReport)
    ensures |r.folders| <= 10
  {
    var entries := Collect(Contents(n));
    var sorted := Sort(entries);
    FolderReport(sorted[..Min(10, |sorted|)], |entries|)
  }

  /**
   * The report holds at most ten entries, largest first; `totalFolders` is
   * the number of distinct child directory names, every reported size is the
   * readable bytes below a child directory of that name, and nothing left out
   * is larger than anything reported.
   */
  lemma FolderReportMeaning(n: Node)
    ensures var r := GetFolderSizeStats(n);
      && |r.folders| == Min(10, r.totalFolders)
      && SortedDesc(r.folders)
      && r.totalFolders == |DirNames(Contents(n))|
      && (forall e :: e in r.folders ==> e.name in DirNames(Contents(n)) && Measured(Contents(n), e))
  {
    var entries := Collect(Contents(n));
    var sorted := Sort(entries);
    var k := Min(10, |sorted|);
    CollectMeaning(Contents(n));
    SortMeaning(entries);
    forall e | e in sorted[..k] ensures e in entries {
      assert e in multiset(sorted);
    }
    forall e | e in entries ensures e.name in Names(entries) {
      NameOfMember(entries, e);
    }
  }

  lemma {:induction false} NameOfMember(s: seq<Entry>, e: Entry)
    requires e in s
    ensures e.name in Names(s)
    decreases |s|
  {
    if s[0] != e {
      NameOfMember(s[1..], e);
    }
  }

  /** Every directory left out of the report is no larger than every one reported. */
  lemma TopAreLargest(n: Node)
    ensures var entries := Collect(Contents(n));
      var sorted := Sort(entries);
      var k := |GetFolderSizeStats(n).folders|;
      && GetFolderSizeStats(n).folders == sorted[..k]
      && multiset(sorted[..k]) + multiset(sorted[k..]) == multiset(entries)
      && (forall i, j :: 0 <= i < k <= j < |sorted| ==> sorted[i].size >= sorted[j].size)
  {
    var entries := Collect(Contents(n));
    var sorted := Sort(entries);
    var k := |GetFolderSizeStats(n).folders|;
    SortMeaning(entries);
    assert sorted == sorted[..k] + sorted[k..];
  }

  /** A file, or anything `os.listdir` cannot list, yields no folders. */
  lemma NotADirectory(n: Node)
    requires n.File?
    ensures GetFolderSizeStats(n) == FolderReport([], 0)
  {
  }
}

=== FILE: handlers.dfy ===
/**
 * The accept/reject decisions of the request handlers in `app.py`: download,
 * preview, delete, create-folder and upload. Each handler is a function of
 * the server settings, the abstract file system and the request data, and
 * returns either the HTTP error it answers with or what it serves or changes.
 */
module Handlers {
  import opened Wrappers
  import opened Text
  import opened Json
  import opened Paths
  import opened FileSystem
  import opened Validation
  import opened UploadNaming

  /** The error answers of the handlers. */
  datatype Failure = BadRequest | Forbidden | NotFound | PayloadTooLarge | ServerError

  function StatusCode(f: Failure): int {
    match f
    case BadRequest => 400
    case Forbidden => 403
    case NotFound => 404
    case PayloadTooLarge => 413
    case ServerError => 500
  }

  /**
   * The settings the handlers read: `UPLOAD_FOLDER` (always the result of
   * `os.path.abspath`, hence a canonical path), the working directory
   * (`None` when it cannot be determined), the extension allow-list and
   * `MAX_CONTENT_LENGTH`.
   */
  datatype Server = Server(root: Canon, cwd: Option<Canon>, allowed: seq<string>, maxSize: int)

  function UploadFolder(srv: Server): string {
    Render(srv.root)
  }

  /** The target lies under the upload folder, in the sense `is_safe_path` checks. */
  predicate Inside(srv: Server, c: Canon) {
    UnderRoot(srv.root, c)
  }

  // ------------------------------------------------------------------ download and preview

  datatype Served = Served(path: Canon, attachment: bool)

  /**
   * The checks `download` and `api_preview` share: join onto the upload
   * folder and `normpath`, then 403 when unsafe, 404 when missing, 400 when
   * a directory, else the file.
   */
  function Locate(srv: Server, fs: Fs, rel: string): (r: Result<Canon, Failure>)
    ensures r.Success? ==> r.value == NormAbs(Join(UploadFolder(srv), rel))
    ensures r.Success? ==> r.value in fs && fs[r.value] == File
  {
    var t := NormAbs(Join(UploadFolder(srv), rel));
    var filePath := Render(t);
    NormAbsRender(t);
    var c := NormAbs(filePath);
    if !IsSafePath(srv.cwd, UploadFolder(srv), filePath) then Failure(Forbidden)
    else if c !in fs then Failure(NotFound)
    else if fs[c].Directory? then Failure(BadRequest)
    else Success(c)
  }

  /** The string checks of `Locate` decide exactly the structural questions: under the folder, present, a file. */
  lemma LocateMeaning(srv: Server, fs: Fs, rel: string)
    requires ValidCanon(srv.root)
    ensures var t := NormAbs(Join(UploadFolder(srv), rel));
      Locate(srv, fs, rel) ==
        if !Inside(srv, t) then Failure(Forbidden)
        else if t !in fs then Failure(NotFound)
        else if fs[t] == Directory then Failure(BadRequest)
        else Success(t)
  {
    var t := NormAbs(Join(UploadFolder(srv), rel));
    NormAbsRender(t);
    NormAbsRender(srv.root);
    IsSafePathMeaning(srv.cwd, UploadFolder(srv), Render(t));
  }

  /**
   * `download`: after the shared checks, the file is sent as an attachment
   * unless the `as_attachment` query argument, lower-cased, is not `true`.
   */
  function Download(srv: Server, fs: Fs, rel: string, asAttachment: Option<string>): (r: Result<Served, Failure>)
    ensures r.Success? <==> Locate(srv, fs, rel).Success?
    ensures r.Failure? ==> r.error == Locate(srv, fs, rel).error
    ensures r.Success? ==> r.value.path == NormAbs(Join(UploadFolder(srv), rel)) && r.value.path in fs
  {
    var t :- Locate(srv, fs, rel);
    var flag := if asAttachment.Some? then asAttachment.value else "true";
    Success(Served(t, Lower(flag) == "true"))
  }

  /** Without the argument the file is an attachment; `False`, in any case, turns that off. */
  lemma DownloadAttachmentFlag(srv: Server, fs: Fs, rel: string)
    requires Locate(srv, fs, rel).Success?
    ensures Download(srv, fs, rel, None).value.attachment
    ensures !Download(srv, fs, rel, Some("False")).value.attachment
  {
    assert Lower("False")[0] == 'f';
  }

  /**
   * `if not data or key not in data: ... 400` followed by `data[key]`, with
   * Python's meaning of `in` and of indexing on each kind of JSON body: a
   * missing or falsy body and an absent key answer 400; `in` on a number or
   * boolean, and indexing a list or a string with a string, raise and answer 500.
   */
  function RequireField(data: Option<Value>, key: string): (r: Result<Value, Failure>)
    ensures r.Success? <==> data.Some? && data.value.Obj? && key in data.value.fields
    ensures r.Success? ==> r.value == data.value.fields[key]
    ensures (data.None? || !Truthy(data.value)) ==> r == Failure(BadRequest)
    ensures r.Failure? ==> r.error == BadRequest || r.error == ServerError
  {
    if data.None? || !Truthy(data.value) then Failure(BadRequest)
    else
      match data.value
      case Obj(fields) => if key in fields then Success(fields[key]) else Failure(BadRequest)
      case Arr(items) => if Str(key) in items then Failure(ServerError) else Failure(BadRequest)
      case Str(s) => if Contains(s, key) then Failure(ServerError) else Failure(BadRequest)
      case _ => Failure(ServerError)
  }

  /** The URL `api_preview` hands back for a file path. */
  function PreviewUrl(filepath: string): string {
    "/download/" + filepath + "?as_attachment=false"
  }

  /**
   * `api_preview`: the `filepath` field, stripped, must be a non-blank
   * string; then the download checks apply and the answer is the URL that
   * shows the file inline.
   */
  function Preview(srv: Server, fs: Fs, data: Option<Value>): (r: Result<string, Failure>)
    ensures r.Success? ==> exists fp :: fp != "" && r.value == PreviewUrl(fp) && Locate(srv, fs, fp).Success?
  {
    var v :- RequireField(data, "filepath");
    if !v.Str? then Failure(ServerError)
    else
      var fp := Strip(v.s);
      if fp == "" then Failure(BadRequest)
      else
        var _ :- Locate(srv, fs, fp);
        Success(PreviewUrl(fp))
  }

  /** A path that strips to nothing is answered 400 before any path check. */
  lemma PreviewBlankRejected(srv: Server, fs: Fs, s: string)
    requires Strip(s) == ""
    ensures Preview(srv, fs, Some(Obj(map["filepath" := Str(s)]))) == Failure(BadRequest)
  {
    var data := Obj(map["filepath" := Str(s)]);
    assert "filepath" in data.fields;
    assert Truthy(data);
  }

  /**
   * The preview of a non-blank path succeeds exactly when downloading it
   * inline does, fails with the same code otherwise, and its URL names that
   * inline download.
   */
  lemma PreviewMatchesDownload(srv: Server, fs: Fs, s: string)
    requires Strip(s) != ""
    ensures var p := Preview(srv, fs, Some(Obj(map["filepath" := Str(s)])));
      var d := Download(srv, fs, Strip(s), Some("false"));
      && (p.Success? <==> d.Success?)
      && (p.Failure? ==> p.error == d.error)
      && (p.Success? ==> p.value == PreviewUrl(Strip(s)) && !d.value.attachment)
  {
    var data := Obj(map["filepath" := Str(s)]);
    assert "filepath" in data.fields;
    assert Truthy(data);
    assert Lower("false")[0] == 'f';
  }

  // ------------------------------------------------------------------ delete

  /**
   * `delete_file`: join onto the upload folder, 403 when unsafe, then 404
   * when `os.path.exists` finds nothing at the joined path as written, then
   * `safe_delete` on the joined path, whose outcome the handler ignores.
   */
  function Delete(srv: Server, fs: Fs, filename: string): (r: Result<Fs, Failure>)
    ensures r.Success? ==> EntryAt(fs, Join(UploadFolder(srv), filename)).Some?
    ensures r.Success? ==> r.value == SafeDelete(fs, Join(UploadFolder(srv), filename))
  {
    var filePath := Join(UploadFolder(srv), filename);
    if !IsSafePath(srv.cwd, UploadFolder(srv), filePath) then Failure(Forbidden)
    else if EntryAt(fs, filePath).None? then Failure(NotFound)
    else Success(SafeDelete(fs, filePath))
  }

  /**
   * The safety check is decided on the normalised path, before existence:
   * an unsafe path is 403 even when it exists; existence is then decided
   * by the kernel's walk of the path as written.
   */
  lemma DeleteMeaning(srv: Server, fs: Fs, filename: string)
    requires ValidCanon(srv.root)
    ensures var p := Join(UploadFolder(srv), filename);
      Delete(srv, fs, filename) ==
        if !Inside(srv, NormAbs(p)) then Failure(Forbidden)
        else if EntryAt(fs, p).None? then Failure(NotFound)
        else Success(SafeDelete(fs, p))
  {
    NormAbsRender(srv.root);
    IsSafePathMeaning(srv.cwd, UploadFolder(srv), Join(UploadFolder(srv), filename));
  }

  /**
   * A delete of `m/x` where `m` is missing or a file answers 404 and changes
   * nothing, for any last component `x`, though `m/..` normalises to the
   * upload folder itself.
   */
  lemma DeletePastNonDirectory(srv: Server, fs: Fs, m: string, x: string)
    requires ValidCanon(srv.root) && IsSegment(m) && x != "" && '/' !in x
    requires !IsDir(fs, Canon(srv.root.doubleRoot, srv.root.segs + [m]))
    ensures Delete(srv, fs, m + "/" + x) == Failure(NotFound)
  {
    var p := Join(UploadFolder(srv), m + "/" + x);
    PastPath(srv, m, x);
    EntryAtPastNonDirectory(fs, p, srv.root.segs + [m], x);
    DeleteMeaning(srv, fs, m + "/" + x);
  }

  /** `m/x` under the upload folder: its raw components, and a normalised path that stays inside. */
  lemma PastPath(srv: Server, m: string, x: string)
    requires ValidCanon(srv.root) && IsSegment(m) && x != "" && '/' !in x
    ensures var p := Join(UploadFolder(srv), m + "/" + x);
      && IsAbs(p)
      && Components(p) == srv.root.segs + [m] + [x]
      && NormAbs(p).doubleRoot == srv.root.doubleRoot
      && Inside(srv, NormAbs(p))
  {
    var p := Join(UploadFolder(srv), m + "/" + x);
    var segs := srv.root.segs;
    assert Split(m + "/" + x, '/') == [m, x] by {
      SplitAppend(m, x, '/');
      SplitNoSep(m, '/');
      SplitNoSep(x, '/');
    }
    assert !IsAbs(m + "/" + x) by {
      assert (m + "/" + x)[0] == m[0] && m[0] in m;
    }
    assert Components(p) == segs + [m] + [x] by {
      DropEmptyKeeps([m, x]);
      ComponentsRender(srv.root);
      JoinedComponents(UploadFolder(srv), m + "/" + x, segs, [m, x]);
    }
    assert NormAbs(p) == Canon(srv.root.doubleRoot, ResolveFrom(segs, [m, x])) by {
      NormAbsRender(srv.root);
      JoinRelative(UploadFolder(srv), m + "/" + x);
    }
    ResolvePast(segs, m, x);
  }

  /** Resolving `m` then any `x` onto `segs` stays at or below `segs`. */
  lemma ResolvePast(segs: seq<string>, m: string, x: string)
    requires IsSegment(m) && x != ""
    ensures segs <= ResolveFrom(segs, [m, x])
  {
    assert [m, x][0] == m && [m, x][1..] == [x] && [x][1..] == [];
    assert Step(segs, m) == segs + [m];
    assert ResolveFrom(segs, [m, x]) == ResolveFrom(segs + [m], [x]);
    assert ResolveFrom(segs + [m], [x]) == ResolveFrom(Step(segs + [m], x), []);
    assert (segs + [m])[..|segs|] == segs;
  }

  lemma BelowInside(srv: Server, t: Canon, c: Canon)
    requires Inside(srv, t) && Below(t, c)
    ensures Inside(srv, c)
  {
  }

  /** A delete only ever removes entries under the upload folder and keeps the tree well formed. */
  lemma DeleteOnlyUnderRoot(srv: Server, fs: Fs, filename: string)
    requires ValidCanon(srv.root) && Delete(srv, fs, filename).Success?
    ensures forall c :: c in fs && c !in Delete(srv, fs, filename).value ==> Inside(srv, c)
    ensures Closed(fs) ==> Closed(Delete(srv, fs, filename).value)
  {
    DeleteMeaning(srv, fs, filename);
    var p := Join(UploadFolder(srv), filename);
    var t := NormAbs(p);
    forall c | c in fs && c !in Delete(srv, fs, filename).value
      ensures Inside(srv, c)
    {
      if fs[t] == Directory {
        BelowInside(srv, t, c);
      }
    }
    if Closed(fs) {
      SafeDeleteKeepsClosed(fs, p);
    }
  }

  /**
   * `.` names the upload folder itself, which passes the check:
   * `shutil.rmtree` empties it, but the kernel refuses the final `rmdir` of
   * a path ending in `.`, so the folder stays, empty, and everything outside
   * it is untouched.
   */
  lemma DeleteOfRootEmptiesIt(srv: Server, fs: Fs)
    requires ValidCanon(srv.root) && Closed(fs) && srv.root in fs && fs[srv.root] == Directory
    ensures Delete(srv, fs, ".").Success?
    ensures var after := Delete(srv, fs, ".").value;
      && srv.root in after && after[srv.root] == Directory
      && forall c :: c in after <==> c in fs && !StrictlyBelow(srv.root, c)
  {
    var p := Join(UploadFolder(srv), ".");
    JoinComponent(UploadFolder(srv), ".");
    NormAbsRender(srv.root);
    ComponentsJoin(UploadFolder(srv), ".");
    ComponentsRender(srv.root);
    EntryAtDot(fs, srv.root, p);
    DeleteMeaning(srv, fs, ".");
    assert RmdirRefused(p);
  }

  // ------------------------------------------------------------------ create folder

  /** The answer of a handler that may change the tree: its error, if any, and the tree after the call. */
  datatype Reply = Reply(error: Option<Failure>, fs: Fs)

  /** `data.get('current_path', '')` on a JSON object. */
  function CurrentPath(fields: map<string, Value>): Value {
    if "current_path" in fields then fields["current_path"] else Str("")
  }

  /** The path `create_folder` builds: the folder name under the current path when that is truthy. */
  function FolderPath(srv: Server, currentPath: Value, name: string): string
    requires !Truthy(currentPath) || currentPath.Str?
  {
    if Truthy(currentPath) then Join(Join(UploadFolder(srv), currentPath.s), name)
    else Join(UploadFolder(srv), name)
  }

  /**
   * The checks `create_folder` makes before touching the tree: the stripped
   * `folder_name` must be a non-blank string; a truthy `current_path` that
   * is not a string makes `os.path.join` raise (500); the composed path
   * must pass `is_safe_path` (403). The value is the composed path, as
   * handed to `os.makedirs`.
   */
  function FolderRequest(srv: Server, data: Option<Value>): (r: Result<string, Failure>)
    ensures r.Success? ==> IsAbs(r.value) && IsSafePath(srv.cwd, UploadFolder(srv), r.value)
  {
    var v :- RequireField(data, "folder_name");
    if !v.Str? then Failure(ServerError)
    else
      var name := Strip(v.s);
      if name == "" then Failure(BadRequest)
      else
        var currentPath := CurrentPath(data.value.fields);
        if Truthy(currentPath) && !currentPath.Str? then Failure(ServerError)
        else
          var fullPath := FolderPath(srv, currentPath, name);
          if !IsSafePath(srv.cwd, UploadFolder(srv), fullPath) then Failure(Forbidden)
          else Success(fullPath)
  }

  /**
   * Once the folder name is a non-blank string and `current_path` is a string
   * or falsy, the request passes exactly when the composed path passes
   * `is_safe_path`, and is 403 otherwise.
   */
  lemma FolderRequestMeaning(srv: Server, fields: map<string, Value>, s: string)
    requires "folder_name" in fields && fields["folder_name"] == Str(s) && Strip(s) != ""
    requires !Truthy(CurrentPath(fields)) || CurrentPath(fields).Str?
    ensures var full := FolderPath(srv, CurrentPath(fields), Strip(s));
      FolderRequest(srv, Some(Obj(fields)))
        == if IsSafePath(srv.cwd, UploadFolder(srv), full) then Success(full) else Failure(Forbidden)
  {
    assert Truthy(Obj(fields)) by { assert "folder_name" in fields; }
    assert RequireField(Some(Obj(fields)), "folder_name") == Success(Str(s));
  }

  /** The reply for a call of `os.makedirs`: an exception from it answers 500, leaving whatever it already created. */
  function MakeDirsReply(out: Outcome): (r: Reply)
    ensures r.fs == out.fs && (r.error.None? <==> out.error.None?)
    ensures r.error.None? || r.error == Some(ServerError)
  {
    Reply(if out.error.None? then None else Some(ServerError), out.fs)
  }

  /**
   * `create_folder`: after the checks of `FolderRequest`,
   * `os.makedirs(full_path, exist_ok=True)` on the composed path as it is,
   * `..` components and all. It never removes or changes an entry and
   * only adds directories.
   */
  function CreateFolder(srv: Server, fs: Fs, data: Option<Value>): (r: Reply)
    ensures FolderRequest(srv, data).Failure? ==> r == Reply(Some(FolderRequest(srv, data).error), fs)
    ensures r.error.None? ==> FolderRequest(srv, data).Success?
    ensures forall c :: c in fs ==> c in r.fs && r.fs[c] == fs[c]
    ensures forall c :: c in r.fs && c !in fs ==> r.fs[c] == Directory
  {
    match FolderRequest(srv, data)
    case Failure(e) => Reply(Some(e), fs)
    case Success(fullPath) => MakeDirsReply(MakeDirsAt(fs, fullPath))
  }

  /**
   * `create_folder` as evidently intended: `os.makedirs` of the normalised
   * path that `is_safe_path` approved.
   */
  function CreateFolderIntended(srv: Server, fs: Fs, data: Option<Value>): (r: Reply)
    ensures FolderRequest(srv, data).Failure? ==> r == Reply(Some(FolderRequest(srv, data).error), fs)
    ensures r.error.None? ==> FolderRequest(srv, data).Success?
    ensures forall c :: c in fs ==> c in r.fs && r.fs[c] == fs[c]
    ensures forall c :: c in r.fs && c !in fs ==> r.fs[c] == Directory
  {
    match FolderRequest(srv, data)
    case Failure(e) => Reply(Some(e), fs)
    case Success(fullPath) => MakeDirsReply(MakeDirsAt(fs, Render(NormAbs(fullPath))))
  }

  /** A folder name that strips to nothing is answered 400 whatever the current path. */
  lemma CreateFolderBlankName(srv: Server, fs: Fs, fields: map<string, Value>, s: string)
    requires "folder_name" in fields && fields["folder_name"] == Str(s) && Strip(s) == ""
    ensures CreateFolder(srv, fs, Some(Obj(fields))) == Reply(Some(BadRequest), fs)
  {
    assert Truthy(Obj(fields));
  }

  lemma CreateFolderKeepsClosed(srv: Server, fs: Fs, data: Option<Value>)
    requires Closed(fs)
    ensures Closed(CreateFolder(srv, fs, data).fs)
  {
    if FolderRequest(srv, data).Success? {
      var p := FolderRequest(srv, data).value;
      MakeDirsRawKeepsClosed(fs, Canon(NormAbs(p).doubleRoot, []), Components(p));
    }
  }

  /**
   * `os.makedirs` of a normalised path under the upload folder, on a real
   * tree holding the upload folder: every directory it adds is under the
   * upload folder, the tree stays real, and, when both roots exist, it
   * succeeds exactly when no ancestor of the path is a file and then leaves
   * the path a directory.
   */
  lemma NormalisedMakeDirs(srv: Server, fs: Fs, t: Canon)
    requires ValidCanon(srv.root) && ValidCanon(t) && Inside(srv, t)
    requires Closed(fs) && srv.root in fs
    ensures forall c :: c in MakeDirsAt(fs, Render(t)).fs && c !in fs ==> Inside(srv, c)
    ensures Closed(MakeDirsAt(fs, Render(t)).fs)
    ensures HasRoots(fs) ==> (MakeDirsAt(fs, Render(t)).error.None? <==> !BlockedBy(fs, t))
    ensures HasRoots(fs) && MakeDirsAt(fs, Render(t)).error.None? ==> IsDir(MakeDirsAt(fs, Render(t)).fs, t)
  {
    var root := Canon(t.doubleRoot, []);
    NormAbsRender(t);
    ComponentsRender(t);
    var out := MakeDirsAt(fs, Render(t));
    assert out == MakeDirsRaw(fs, root, t.segs);
    MakeDirsRawAdds(fs, root, t.segs);
    MakeDirsRawKeepsClosed(fs, root, t.segs);
    forall c | c in out.fs && c !in fs
      ensures Inside(srv, c)
    {
      var k :| 1 <= k <= |t.segs| && c == Resolved(root, t.segs[..k]);
      ResolveSegments([], t.segs[..k]);
      assert c == Prefix(t, k);
      PrefixInside(srv, fs, t, k);
    }
    if HasRoots(fs) {
      MakeDirsCanonical(fs, t);
    }
  }

  /**
   * With `os.makedirs` on the normalised path, a create-folder only adds
   * directories under the upload folder, keeps the tree real, and a
   * success leaves the approved path a directory.
   */
  lemma CreateFolderUnderRoot(srv: Server, fs: Fs, data: Option<Value>)
    requires ValidCanon(srv.root) && Closed(fs) && srv.root in fs
    ensures forall c :: c in CreateFolderIntended(srv, fs, data).fs && c !in fs ==> Inside(srv, c)
    ensures Closed(CreateFolderIntended(srv, fs, data).fs)
    ensures HasRoots(fs) && CreateFolderIntended(srv, fs, data).error.None? ==>
      IsDir(CreateFolderIntended(srv, fs, data).fs, NormAbs(FolderRequest(srv, data).value))
  {
    if FolderRequest(srv, data).Success? {
      NormAbsRender(srv.root);
      IsSafePathMeaning(srv.cwd, UploadFolder(srv), FolderRequest(srv, data).value);
      NormalisedMakeDirs(srv, fs, NormAbs(FolderRequest(srv, data).value));
    }
  }

  /** Ancestors of a path under the folder are under it too, or are ancestors of the folder, which exist. */
  lemma PrefixInside(srv: Server, fs: Fs, t: Canon, k: nat)
    requires Closed(fs) && srv.root in fs && Inside(srv, t) && k <= |t.segs|
    ensures Prefix(t, k) in fs || Inside(srv, Prefix(t, k))
  {
    if t.doubleRoot == srv.root.doubleRoot && srv.root.segs <= t.segs {
      if k < |srv.root.segs| {
        assert Prefix(t, k) == Prefix(srv.root, k);
      } else {
        assert srv.root.segs <= t.segs[..k];
      }
    }
  }

  // ------------------------------------------------------------------ upload

  /** The uploaded part: its client file name and its real size in bytes. */
  datatype Upload = Upload(filename: string, size: nat)

  datatype Stored = Stored(name: string, path: Canon, fs: Fs)

  /** The folder an upload goes to, before any check: the stripped current path under the upload folder. */
  function TargetFolder(srv: Server, currentPath: string): string {
    var cp := Strip(currentPath);
    if cp != "" then Join(UploadFolder(srv), cp) else UploadFolder(srv)
  }

  /**
   * The folder step of `handle_upload`: for a non-blank current path the
   * joined folder must pass `is_safe_path` (403), then
   * `os.makedirs(target_folder, exist_ok=True)` runs on the joined folder as
   * it is, `..` components and all.
   */
  function PrepareFolder(srv: Server, fs: Fs, currentPath: string): (r: Reply)
    ensures Strip(currentPath) == "" ==> r == Reply(None, fs)
    ensures r.error == Some(Forbidden) <==>
      Strip(currentPath) != "" && !IsSafePath(srv.cwd, UploadFolder(srv), TargetFolder(srv, currentPath))
    ensures r.error.None? || r.error == Some(Forbidden) || r.error == Some(ServerError)
    ensures r.error == Some(Forbidden) ==> r.fs == fs
    ensures forall c :: c in fs ==> c in r.fs && r.fs[c] == fs[c]
    ensures forall c :: c in r.fs && c !in fs ==> r.fs[c] == Directory
  {
    var folder := TargetFolder(srv, currentPath);
    if Strip(currentPath) == "" then Reply(None, fs)
    else if !IsSafePath(srv.cwd, UploadFolder(srv), folder) then Reply(Some(Forbidden), fs)
    else MakeDirsReply(MakeDirsAt(fs, folder))
  }

  /** The folder step as evidently intended: `os.makedirs` of the normalised folder that `is_safe_path` approved. */
  function PrepareFolderIntended(srv: Server, fs: Fs, currentPath: string): (r: Reply)
    ensures Strip(currentPath) == "" ==> r == Reply(None, fs)
    ensures r.error == Some(Forbidden) <==>
      Strip(currentPath) != "" && !IsSafePath(srv.cwd, UploadFolder(srv), TargetFolder(srv, currentPath))
    ensures forall c :: c in fs ==> c in r.fs && r.fs[c] == fs[c]
  {
    var folder := TargetFolder(srv, currentPath);
    if Strip(currentPath) == "" then Reply(None, fs)
    else if !IsSafePath(srv.cwd, UploadFolder(srv), folder) then Reply(Some(Forbidden), fs)
    else MakeDirsReply(MakeDirsAt(fs, Render(NormAbs(folder))))
  }

  /**
   * With `os.makedirs` on the normalised folder, the folder step only adds
   * directories under the upload folder, keeps the tree real, and a success
   * leaves the target folder a directory.
   */
  lemma PrepareFolderUnderRoot(srv: Server, fs: Fs, currentPath: string)
    requires ValidCanon(srv.root) && Closed(fs) && srv.root in fs
    ensures forall c :: c in PrepareFolderIntended(srv, fs, currentPath).fs && c !in fs ==> Inside(srv, c)
    ensures Closed(PrepareFolderIntended(srv, fs, currentPath).fs)
    ensures HasRoots(fs) && fs[srv.root] == Directory && PrepareFolderIntended(srv, fs, currentPath).error.None? ==>
      IsDir(PrepareFolderIntended(srv, fs, currentPath).fs, NormAbs(TargetFolder(srv, currentPath)))
  {
    var folder := TargetFolder(srv, currentPath);
    NormAbsRender(srv.root);
    if Strip(currentPath) != "" && IsSafePath(srv.cwd, UploadFolder(srv), folder) {
      IsSafePathMeaning(srv.cwd, UploadFolder(srv), folder);
      NormalisedMakeDirs(srv, fs, NormAbs(folder));
    }
  }

  /** The tree of the worked example: the upload folder `/p/u` and its ancestors, all directories. */
  function DemoTree(p: string, u: string): Fs {
    map[Canon(false, []) := Directory, Canon(false, [p]) := Directory, Canon(false, [p, u]) := Directory]
  }

  /** The current path of the worked example: out of the upload folder `u` into a sibling `e` and back. */
  function Detour(u: string, e: string): string {
    ".." + "/" + e + "/" + ".." + "/" + u
  }

  lemma DetourSplit(u: string, e: string)
    requires IsSegment(u) && IsSegment(e)
    ensures Split(Detour(u, e), '/') == ["..", e, "..", u]
    ensures !IsAbs(Detour(u, e))
  {
    SplitNoSep("..", '/');
    SplitNoSep(e, '/');
    SplitNoSep(u, '/');
    var t1 := ".." + ['/'] + u;
    var t2 := e + ['/'] + t1;
    var t3 := ".." + ['/'] + t2;
    SplitAppend("..", u, '/');
    SplitAppend(e, t1, '/');
    SplitAppend("..", t2, '/');
    assert Detour(u, e) == t3;
  }

  /** The kernel's view of the demo tree before and after `/p/e` exists. */
  lemma EscapeWalks(p: string, u: string, e: string)
    requires IsSegment(p) && IsSegment(u) && IsSegment(e) && e != u
    ensures var root := Canon(false, []);
      var fs0 := DemoTree(p, u);
      var fs1 := fs0[Canon(false, [p, e]) := Directory];
      && Traverse(fs0, root, [p, u, ".."]) == Some(Canon(false, [p]))
      && Traverse(fs0, root, [p, u, "..", e]) == Some(Canon(false, [p, e]))
      && Traverse(fs0, root, [p, u, "..", e, ".."]) == None
      && Traverse(fs1, root, [p, u, "..", e]) == Some(Canon(false, [p, e]))
      && Traverse(fs1, root, [p, u, "..", e, ".."]) == Some(Canon(false, [p]))
      && Traverse(fs1, root, [p, u, "..", e, "..", u]) == Some(Canon(false, [p, u]))
  {
    var fs0 := DemoTree(p, u);
    var root := Canon(false, []);
    var evil := Canon(false, [p, e]);
    var x6 := [p, u, "..", e, "..", u];
    var x5 := [p, u, "..", e, ".."];
    var x4 := [p, u, "..", e];
    var x3 := [p, u, ".."];
    var x2 := [p, u];
    var x1 := [p];
    assert x6[..5] == x5 && x5[..4] == x4 && x4[..3] == x3 && x3[..2] == x2 && x2[..1] == x1 && x1[..0] == [];
    assert Step([], p) == [p] && Step([p], u) == [p, u] && Step([p, u], "..") == [p];
    assert Step([p], e) == [p, e] && Step([p, e], "..") == [p];
    assert evil !in fs0;
    var fs1 := fs0[evil := Directory];
    assert IsDir(fs0, root) && IsDir(fs1, root);
    assert Traverse(fs0, root, []) == Some(root);
    assert Traverse(fs0, root, x1) == Some(Canon(false, [p]));
    assert Traverse(fs0, root, x2) == Some(Canon(false, [p, u]));
    assert Traverse(fs0, root, x3) == Some(Canon(false, [p]));
    assert Traverse(fs0, root, x4) == Some(evil);
    assert Traverse(fs1, root, []) == Some(root);
    assert Traverse(fs1, root, x1) == Some(Canon(false, [p]));
    assert Traverse(fs1, root, x2) == Some(Canon(false, [p, u]));
    assert Traverse(fs1, root, x3) == Some(Canon(false, [p]));
    assert Traverse(fs1, root, x4) == Some(evil);
    assert Traverse(fs1, root, x5) == Some(Canon(false, [p]));
  }

  /**
   * `os.makedirs("/p/u/../e/../u", exist_ok=True)` on the demo tree: the
   * head `/p/u/../e/..` does not exist, so it is made first, which makes
   * `/p/e`.
   */
  lemma EscapeTrace(p: string, u: string, e: string)
    requires IsSegment(p) && IsSegment(u) && IsSegment(e) && e != u
    ensures var xs := [p, u, "..", e, "..", u];
      var fs1 := DemoTree(p, u)[Canon(false, [p, e]) := Directory];
      && !PathExists(DemoTree(p, u), Canon(false, []), xs)
      && MakeDirsRaw(DemoTree(p, u), Canon(false, []), xs) == Outcome(fs1, None)
      && Traverse(fs1, Canon(false, []), xs) == Some(Canon(false, [p, u]))
  {
    EscapeWalks(p, u, e);
    EscapeMakesSibling(p, u, e);
    EscapeClimbs(p, u, e);
    EscapeReturns(p, u, e);
  }

  /** `makedirs` of `/p/u/../e`: its head exists, so `mkdir` creates `/p/e`. */
  lemma EscapeMakesSibling(p: string, u: string, e: string)
    requires IsSegment(p) && IsSegment(u) && IsSegment(e) && e != u
    ensures MakeDirsRaw(DemoTree(p, u), Canon(false, []), [p, u, "..", e])
      == Outcome(DemoTree(p, u)[Canon(false, [p, e]) := Directory], None)
  {
    EscapeWalks(p, u, e);
    var fs0 := DemoTree(p, u);
    var root := Canon(false, []);
    var x4 := [p, u, "..", e];
    assert x4[..3] == [p, u, ".."];
    assert PathIsDir(fs0, root, x4[..3]) by {
      assert Canon(false, [p]) in fs0;
    }
    assert !PathExists(fs0, root, x4);
    assert Mkdir(fs0, root, x4) == Outcome(fs0[Canon(false, [p, e]) := Directory], None);
  }

  /** `makedirs` of `/p/u/../e/..`: the head is made first; the final `..` then names an existing directory. */
  lemma EscapeClimbs(p: string, u: string, e: string)
    requires IsSegment(p) && IsSegment(u) && IsSegment(e) && e != u
    ensures MakeDirsRaw(DemoTree(p, u), Canon(false, []), [p, u, "..", e, ".."])
      == Outcome(DemoTree(p, u)[Canon(false, [p, e]) := Directory], None)
  {
    EscapeWalks(p, u, e);
    EscapeMakesSibling(p, u, e);
    var x5 := [p, u, "..", e, ".."];
    assert x5[..4] == [p, u, "..", e];
    assert Canon(false, [p, e]) !in DemoTree(p, u);
  }

  /** `makedirs` of `/p/u/../e/../u`: the head is made first; the whole path then names the existing upload folder. */
  lemma EscapeReturns(p: string, u: string, e: string)
    requires IsSegment(p) && IsSegment(u) && IsSegment(e) && e != u
    ensures MakeDirsRaw(DemoTree(p, u), Canon(false, []), [p, u, "..", e, "..", u])
      == Outcome(DemoTree(p, u)[Canon(false, [p, e]) := Directory], None)
  {
    EscapeWalks(p, u, e);
    EscapeClimbs(p, u, e);
    var x6 := [p, u, "..", e, "..", u];
    assert x6[..5] == [p, u, "..", e, ".."];
  }

  lemma DetourComponents(srv: Server, p: string, u: string, e: string)
    requires srv.root == Canon(false, [p, u]) && IsSegment(p) && IsSegment(u) && IsSegment(e)
    ensures Components(Join(UploadFolder(srv), Detour(u, e))) == [p, u, "..", e, "..", u]
  {
    var ys := ["..", e, "..", u];
    assert DropEmpty(Split(Detour(u, e), '/')) == ys by {
      DetourSplit(u, e);
      DropEmptyKeeps(ys);
    }
    assert Components(UploadFolder(srv)) == [p, u] by {
      ComponentsRender(srv.root);
    }
    assert !IsAbs(Detour(u, e)) by {
      DetourSplit(u, e);
    }
    JoinedComponents(UploadFolder(srv), Detour(u, e), [p, u], ys);
    assert [p, u] + ys == [p, u, "..", e, "..", u];
  }

  /** `ComponentsJoinRelative` with both sides already known. */
  lemma JoinedComponents(a: string, b: string, xs: seq<string>, ys: seq<string>)
    requires IsAbs(a) && !IsAbs(b) && Components(a) == xs && DropEmpty(Split(b, '/')) == ys
    ensures Components(Join(a, b)) == xs + ys
  {
    ComponentsJoinRelative(a, b);
  }

  lemma DetourResolves(p: string, u: string, e: string)
    requires IsSegment(p) && IsSegment(u) && IsSegment(e)
    ensures ResolveFrom([], [p, u, "..", e, "..", u]) == [p, u]
  {
    ResolveSegments([], [p, u]);
    ResolveAppend([], [p, u], ["..", e, "..", u]);
    assert [p, u] + ["..", e, "..", u] == [p, u, "..", e, "..", u];
    assert Step([p, u], "..") == [p] && Step([p], e) == [p, e] && Step([p, e], "..") == [p] && Step([p], u) == [p, u];
    var ys := ["..", e, "..", u];
    assert ys[1..] == [e, "..", u] && ys[1..][1..] == ["..", u] && ys[1..][1..][1..] == [u] && ys[1..][1..][1..][1..] == [];
    assert ResolveFrom([p], [u]) == [p, u];
    assert ResolveFrom([p, e], ["..", u]) == [p, u];
    assert ResolveFrom([p], [e, "..", u]) == [p, u];
    assert ResolveFrom([p, u], ys) == [p, u];
    var xs := [p, u, "..", e, "..", u];
    assert xs == [p, u] + ys;
    assert ResolveFrom([], [p, u]) == [p, u];
    assert ResolveFrom([], xs) == ResolveFrom(ResolveFrom([], [p, u]), ys);
  }

  lemma DetourStrip(u: string, e: string)
    requires IsSegment(u) && !IsSpace(u[|u| - 1])
    ensures Strip(Detour(u, e)) == Detour(u, e)
  {
    var cp := Detour(u, e);
    assert cp[0] == '.' && cp[|cp| - 1] == u[|u| - 1];
    assert TrimStart(cp) == cp;
  }

  /** The joined folder of the worked example, its components and where it normalises: the upload folder itself. */
  lemma DetourFolder(srv: Server, p: string, u: string, e: string)
    requires srv.root == Canon(false, [p, u]) && IsSegment(p) && IsSegment(u) && IsSegment(e)
    ensures var folder := Join(UploadFolder(srv), Detour(u, e));
      && IsAbs(folder)
      && Components(folder) == [p, u, "..", e, "..", u]
      && NormAbs(folder) == srv.root
      && IsSafePath(srv.cwd, UploadFolder(srv), folder)
  {
    var folder := Join(UploadFolder(srv), Detour(u, e));
    DetourSplit(u, e);
    DetourComponents(srv, p, u, e);
    NormAbsComponents(folder);
    DetourResolves(p, u, e);
    assert [p, u][1..] == [u];
    assert JoinWith([p, u], '/') == p + "/" + u;
    assert UploadFolder(srv) == "/" + p + "/" + u;
    assert folder[1] == p[0] && p[0] in p;
    assert !NormAbs(folder).doubleRoot;
    SafeWhenInside(srv, folder);
  }

  /**
   * An upload into `/p/u` with current path `../e/../u` passes the safety
   * check, since the folder normalises to the upload folder itself, yet the
   * folder step creates `/p/e`, outside it.
   */
  lemma UploadFolderEscapes(srv: Server, p: string, u: string, e: string)
    requires srv.root == Canon(false, [p, u]) && IsSegment(p) && IsSegment(u) && IsSegment(e) && e != u
    requires !IsSpace(u[|u| - 1])
    ensures var r := PrepareFolder(srv, DemoTree(p, u), Detour(u, e));
      && r.error.None?
      && Canon(false, [p, e]) in r.fs
      && !Inside(srv, Canon(false, [p, e]))
  {
    var cp := Detour(u, e);
    var fs0 := DemoTree(p, u);
    DetourStrip(u, e);
    DetourFolder(srv, p, u, e);
    var folder := Join(UploadFolder(srv), cp);
    assert TargetFolder(srv, cp) == folder;
    var out := MakeDirsAt(fs0, folder);
    assert out == MakeDirsRaw(fs0, Canon(false, []), [p, u, "..", e, "..", u]);
    EscapeTrace(p, u, e);
    assert PrepareFolder(srv, fs0, cp) == MakeDirsReply(out);
    EscapeOutside(srv, p, u, e);
  }

  lemma EscapeOutside(srv: Server, p: string, u: string, e: string)
    requires srv.root == Canon(false, [p, u]) && e != u
    ensures !Inside(srv, Canon(false, [p, e]))
  {
    assert [p, e][1] != [p, u][1];
  }

  /** A string folder name under a non-empty string current path, once the composed path is safe, is handed to `os.makedirs`. */
  lemma FolderRequestAccepts(srv: Server, fields: map<string, Value>, name: string, cp: string)
    requires "folder_name" in fields && fields["folder_name"] == Str(name) && Strip(name) == name && name != ""
    requires CurrentPath(fields) == Str(cp) && cp != ""
    requires IsSafePath(srv.cwd, UploadFolder(srv), Join(Join(UploadFolder(srv), cp), name))
    ensures FolderRequest(srv, Some(Obj(fields))) == Success(Join(Join(UploadFolder(srv), cp), name))
  {
    var data := Some(Obj(fields));
    assert Truthy(Obj(fields)) by { assert "folder_name" in fields; }
    assert RequireField(data, "folder_name") == Success(Str(name));
    assert Truthy(Str(cp)) && FolderPath(srv, Str(cp), name) == Join(Join(UploadFolder(srv), cp), name);
  }

  /** One more component after the detour: `/p/e` is made on the way, then `/p/u/x`. */
  lemma EscapeTraceDeeper(p: string, u: string, e: string, x: string)
    requires IsSegment(p) && IsSegment(u) && IsSegment(e) && e != u && IsSegment(x)
    ensures var fs1 := DemoTree(p, u)[Canon(false, [p, e]) := Directory];
      MakeDirsRaw(DemoTree(p, u), Canon(false, []), [p, u, "..", e, "..", u, x])
        == Outcome(fs1[Canon(false, [p, u, x]) := Directory], None)
  {
    EscapeTrace(p, u, e);
    var fs0 := DemoTree(p, u);
    var root := Canon(false, []);
    var fs1 := fs0[Canon(false, [p, e]) := Directory];
    var xs := [p, u, "..", e, "..", u];
    var ys := [p, u, "..", e, "..", u, x];
    assert ys[..6] == xs;
    assert Step([p, u], x) == [p, u, x];
    assert Traverse(fs1, root, ys) == Some(Canon(false, [p, u, x]));
    assert Canon(false, [p, u, x]) !in fs1;
    assert Mkdir(fs1, root, ys) == Outcome(fs1[Canon(false, [p, u, x]) := Directory], None);
  }

  /** The request of the worked example passes the checks of `create_folder`; the path it hands on has the detour's components and `x`. */
  lemma DetourRequest(srv: Server, p: string, u: string, e: string, x: string)
    requires srv.root == Canon(false, [p, u]) && IsSegment(p) && IsSegment(u) && IsSegment(e)
    requires IsSegment(x) && Strip(x) == x
    ensures var full := Join(Join(UploadFolder(srv), Detour(u, e)), x);
      && FolderRequest(srv, Some(Obj(map["folder_name" := Str(x), "current_path" := Str(Detour(u, e))]))) == Success(full)
      && Components(full) == [p, u, "..", e, "..", u, x]
      && !NormAbs(full).doubleRoot
  {
    var fields := map["folder_name" := Str(x), "current_path" := Str(Detour(u, e))];
    var full := Join(Join(UploadFolder(srv), Detour(u, e)), x);
    DetourFull(srv, p, u, e, x);
    assert CurrentPath(fields) == Str(Detour(u, e));
    FolderRequestAccepts(srv, fields, x, Detour(u, e));
  }

  /** The path of the worked example: the detour's components then `x`, normalising to `/p/u/x`. */
  lemma DetourFull(srv: Server, p: string, u: string, e: string, x: string)
    requires srv.root == Canon(false, [p, u]) && IsSegment(p) && IsSegment(u) && IsSegment(e) && IsSegment(x)
    ensures var full := Join(Join(UploadFolder(srv), Detour(u, e)), x);
      && IsAbs(full)
      && Components(full) == [p, u, "..", e, "..", u, x]
      && NormAbs(full) == Canon(false, [p, u, x])
      && IsSafePath(srv.cwd, UploadFolder(srv), full)
      && Detour(u, e) != ""
  {
    var head := Join(UploadFolder(srv), Detour(u, e));
    DetourFolder(srv, p, u, e);
    ComponentsJoin(head, x);
    JoinComponent(head, x);
    assert [p, u, x][..2] == [p, u];
    SafeWhenInside(srv, Join(head, x));
  }

  /** An absolute path that normalises under the upload folder passes the safety check, however it is written. */
  lemma SafeWhenInside(srv: Server, full: string)
    requires ValidCanon(srv.root) && IsAbs(full) && Inside(srv, NormAbs(full))
    ensures IsSafePath(srv.cwd, UploadFolder(srv), full)
  {
    NormAbsRender(srv.root);
    IsSafePathMeaning(srv.cwd, UploadFolder(srv), full);
  }

  /**
   * The same escape through `create_folder`: folder `x` under current path
   * `../e/../u` answers 200 and leaves `/p/e` behind.
   */
  lemma CreateFolderEscapes(srv: Server, p: string, u: string, e: string, x: string)
    requires srv.root == Canon(false, [p, u]) && IsSegment(p) && IsSegment(u) && IsSegment(e) && e != u
    requires IsSegment(x) && Strip(x) == x
    ensures var r := CreateFolder(srv, DemoTree(p, u), Some(Obj(map["folder_name" := Str(x), "current_path" := Str(Detour(u, e))])));
      && r.error.None?
      && Canon(false, [p, e]) in r.fs
      && !Inside(srv, Canon(false, [p, e]))
  {
    var full := Join(Join(UploadFolder(srv), Detour(u, e)), x);
    DetourRequest(srv, p, u, e, x);
    assert MakeDirsAt(DemoTree(p, u), full) == MakeDirsRaw(DemoTree(p, u), Canon(false, []), [p, u, "..", e, "..", u, x]);
    EscapeTraceDeeper(p, u, e, x);
    EscapeOutside(srv, p, u, e);
  }

  /**
   * `handle_upload`: 400 for a missing or unnamed file, 400 for an extension
   * outside the allow-list, 413 when the size exceeds the limit; then the
   * name is sanitised, `PrepareFolder` runs for a non-blank current path
   * (403 or 500), the `_1`, `_2`, ... loop picks a free name and the file is
   * written (500 when the parent is not a directory). Werkzeug's
   * `secure_filename` is the parameter `secure`. `after` is the tree after
   * the call, which a failing upload may already have changed by creating
   * folders.
   */
  method HandleUpload(srv: Server, secure: string -> string, fs: Fs, file: Option<Upload>, currentPath: string)
    returns (r: Result<Stored, Failure>, after: Fs)
    ensures file.None? || file.value.filename == "" ==> r == Failure(BadRequest)
    ensures file.Some? && file.value.filename != "" && !ValidateFileExtension(file.value.filename, srv.allowed)
      ==> r == Failure(BadRequest)
    ensures file.Some? && file.value.filename != "" && ValidateFileExtension(file.value.filename, srv.allowed)
      ==> (r == Failure(PayloadTooLarge) <==> !ValidateFileSize(file.value.size, srv.maxSize))
    ensures r.Success? ==>
      file.Some? && ValidateFileExtension(file.value.filename, srv.allowed) && ValidateFileSize(file.value.size, srv.maxSize)
    ensures r == Failure(Forbidden) ==>
      Strip(currentPath) != "" && !IsSafePath(srv.cwd, UploadFolder(srv), TargetFolder(srv, currentPath))
    ensures r.Failure? && r.error != ServerError ==> after == fs
    ensures r.Success? ==> after == r.value.fs
    ensures forall c :: c in fs ==> c in after && after[c] == fs[c]
    ensures r.Success? ==> r.value.path !in fs && r.value.path in r.value.fs && r.value.fs[r.value.path] == File
    ensures r.Success? && Closed(fs) ==> Closed(r.value.fs)
    ensures r.Success? && ValidCanon(srv.root) && IsSegment(SafeName(file.value.filename, secure)) ==>
      && IsSegment(r.value.name)
      && r.value.path == Canon(NormAbs(TargetFolder(srv, currentPath)).doubleRoot,
                               NormAbs(TargetFolder(srv, currentPath)).segs + [r.value.name])
      && Inside(srv, r.value.path)
    ensures && file.Some? && file.value.filename != ""
            && ValidateFileExtension(file.value.filename, srv.allowed)
            && ValidateFileSize(file.value.size, srv.maxSize)
            && Strip(currentPath) == "" && ValidCanon(srv.root)
            && srv.root in fs && fs[srv.root] == Directory
            && IsSegment(SafeName(file.value.filename, secure))
            ==> r.Success?
  {
    after := fs;
    if file.None? || file.value.filename == "" {
      return Failure(BadRequest), after;
    }
    var upload := file.value;
    if !ValidateFileExtension(upload.filename, srv.allowed) {
      return Failure(BadRequest), after;
    }
    if !ValidateFileSize(upload.size, srv.maxSize) {
      return Failure(PayloadTooLarge), after;
    }
    var safe := SafeName(upload.filename, secure);
    var folder := TargetFolder(srv, currentPath);
    var prepared := PrepareFolder(srv, fs, currentPath);
    if prepared.error.Some? {
      return Failure(prepared.error.value), prepared.fs;
    }
    if Closed(fs) && Strip(currentPath) != "" {
      MakeDirsRawKeepsClosed(fs, Canon(NormAbs(folder).doubleRoot, []), Components(folder));
    }
    r, after := StoreUpload(srv, prepared.fs, currentPath, safe);
  }

  /**
   * The part of `handle_upload` after the folder step: pick a free name with
   * the collision loop and write the file into the prepared tree `fs1`.
   */
  method StoreUpload(srv: Server, fs1: Fs, currentPath: string, safe: string)
    returns (r: Result<Stored, Failure>, after: Fs)
    ensures r.Failure? ==> r == Failure(ServerError) && after == fs1
    ensures r.Success? ==> after == r.value.fs
    ensures forall c :: c in fs1 ==> c in after && after[c] == fs1[c]
    ensures r.Success? ==> r.value.path !in fs1 && r.value.path in r.value.fs && r.value.fs[r.value.path] == File
    ensures r.Success? && Closed(fs1) ==> Closed(r.value.fs)
    ensures r.Success? && ValidCanon(srv.root) && IsSegment(safe)
            && (Strip(currentPath) != "" ==> IsSafePath(srv.cwd, UploadFolder(srv), TargetFolder(srv, currentPath))) ==>
      && IsSegment(r.value.name)
      && r.value.path == Canon(NormAbs(TargetFolder(srv, currentPath)).doubleRoot,
                               NormAbs(TargetFolder(srv, currentPath)).segs + [r.value.name])
      && Inside(srv, r.value.path)
    ensures && Strip(currentPath) == "" && ValidCanon(srv.root)
            && srv.root in fs1 && fs1[srv.root] == Directory && IsSegment(safe)
            ==> r.Success?
  {
    var folder := TargetFolder(srv, currentPath);
    var name := UniqueName(fs1, folder, safe);
    var path := NormAbs(Join(folder, name));
    if ValidCanon(srv.root) && IsSegment(safe) && (Strip(currentPath) != "" ==> IsSafePath(srv.cwd, UploadFolder(srv), folder)) {
      StoredUnderFolder(srv, currentPath, safe, name);
    }
    var stored := AddFile(fs1, path);
    if stored.None? {
      return Failure(ServerError), fs1;
    }
    if Closed(fs1) {
      AddFileKeepsClosed(fs1, path);
    }
    r := Success(Stored(name, path, stored.value));
    after := r.value.fs;
  }

  /**
   * The facts behind the upload's placement: a single-component name lands
   * directly in the target folder, which is under the upload folder once
   * the safety check has passed.
   */
  lemma StoredUnderFolder(srv: Server, currentPath: string, safe: string, name: string)
    requires ValidCanon(srv.root) && IsSegment(safe)
    requires Strip(currentPath) != "" ==> IsSafePath(srv.cwd, UploadFolder(srv), TargetFolder(srv, currentPath))
    requires name == safe || exists k :: k >= 1 && name == Candidate(SplitExt(safe).0, k, SplitExt(safe).1)
    ensures IsSegment(name)
    ensures var folder := NormAbs(TargetFolder(srv, currentPath));
      && NormAbs(Join(TargetFolder(srv, currentPath), name)) == Canon(folder.doubleRoot, folder.segs + [name])
      && Inside(srv, folder)
      && Inside(srv, Canon(folder.doubleRoot, folder.segs + [name]))
    ensures Strip(currentPath) == "" ==> NormAbs(TargetFolder(srv, currentPath)) == srv.root
  {
    if name != safe {
      var k :| k >= 1 && name == Candidate(SplitExt(safe).0, k, SplitExt(safe).1);
      CandidateOfSegment(safe, k);
    }
    var folderPath := TargetFolder(srv, currentPath);
    JoinComponent(folderPath, name);
    NormAbsRender(srv.root);
    if Strip(currentPath) != "" {
      IsSafePathMeaning(srv.cwd, UploadFolder(srv), folderPath);
    }
  }
}

=== FILE: json.dfy ===
/** JSON-like values: the configuration tree and the bodies of JSON requests. */
module Json {

  datatype Value =
    | Null
    | Bool(b: bool)
    | Num(n: int)
    | Str(s: string)
    | Arr(items: seq<Value>)
    | Obj(fields: map<string, Value>)

  /** Python truthiness of the corresponding object (`if v:`). */
  predicate Truthy(v: Value) {
    match v
    case Null => false
    case Bool(b) => b
    case Num(n) => n != 0
    case Str(s) => s != ""
    case Arr(items) => |items| > 0
    case Obj(fields) => |fields| > 0
  }
}

=== FILE: naming.dfy ===
/**
 * The file-name handling of the upload handler: the sanitiser for names with
 * non-ASCII characters, the fallback for names `secure_filename` empties, and
 * the `_1`, `_2`, ... collision loop.
 */
module UploadNaming {
  import opened Wrappers
  import opened Text
  import opened Paths
  import opened FileSystem

  /** The nine characters `\ / : " * ? < > |` replaced in non-ASCII names. */
  predicate IsIllegal(c: char) {
    c == '\\' || c == '/' || c == ':' || c == '"' || c == '*' || c == '?' || c == '<' || c == '>' || c == '|'
  }

  predicate HasNonAscii(s: string) {
    exists i :: 0 <= i < |s| && s[i] as int > 127
  }

  function ReplaceIllegal(s: string): (r: string)
    ensures |r| == |s|
    ensures forall i :: 0 <= i < |r| ==> r[i] == (if IsIllegal(s[i]) then '_' else s[i])
  {
    seq(|s|, i requires 0 <= i < |s| => if IsIllegal(s[i]) then '_' else s[i])
  }

  /**
   * Characters `[\w\d.-]` keeps. In this model only ASCII names reach the
   * fallback, and there `\w` is `[A-Za-z0-9_]`.
   */
  predicate KeptByFallback(c: char) {
    ('a' <= c <= 'z') || ('A' <= c <= 'Z') || ('0' <= c <= '9') || c == '_' || c == '.' || c == '-'
  }

  function Fallback(s: string): (r: string)
    ensures |r| == |s|
    ensures forall i :: 0 <= i < |r| ==> r[i] == (if KeptByFallback(s[i]) then s[i] else '_')
  {
    seq(|s|, i requires 0 <= i < |s| => if KeptByFallback(s[i]) then s[i] else '_')
  }

  /**
   * The name an upload is stored under before collision handling. Names with
   * a character above 127 keep their text with the illegal characters
   * replaced; other names go through Werkzeug's `secure_filename`, a parameter
   * here; an empty outcome falls back to the original name with every
   * character outside `[\w\d.-]` replaced.
   */
  function SafeName(name: string, secure: string -> string): (r: string)
    ensures name != "" ==> r != ""
  {
    var s := if HasNonAscii(name) then ReplaceIllegal(name) else secure(name);
    if s == "" then Fallback(name) else s
  }

  /** A non-ASCII name keeps its length and every legal character, and becomes a single path component. */
  lemma NonAsciiNameSanitised(name: string, secure: string -> string)
    requires HasNonAscii(name)
    ensures var r := SafeName(name, secure);
      && |r| == |name|
      && (forall i :: 0 <= i < |name| ==> (if IsIllegal(name[i]) then r[i] == '_' else r[i] == name[i]))
      && IsSegment(r)
  {
    var r := ReplaceIllegal(name);
    var i :| 0 <= i < |name| && name[i] as int > 127;
    assert r[i] == name[i];
    assert r != "" && r != "." && r != ".." by {
      assert r[i] as int > 127;
    }
    assert '/' !in r by {
      forall j | 0 <= j < |r| ensures r[j] != '/' {
      }
    }
  }

  /** An ASCII name that `secure_filename` keeps non-empty is stored as `secure_filename` returns it. */
  lemma AsciiNameUsesSecureFilename(name: string, secure: string -> string)
    requires !HasNonAscii(name) && secure(name) != ""
    ensures SafeName(name, secure) == secure(name)
  {
  }

  // ------------------------------------------------------------------ collision loop

  /** The k-th renaming of a taken name: `f"{stem}_{k}{ext}"`. */
  function Candidate(stem: string, k: nat, ext: string): string {
    stem + "_" + NatToString(k) + ext
  }

  /** `os.path.exists(os.path.join(folder, name))` over the abstract file system. */
  predicate Taken(fs: Fs, folder: string, name: string)
    requires IsAbs(folder)
  {
    NormAbs(Join(folder, name)) in fs
  }

  lemma LastComponent(y: string, last: string)
    requires IsSegment(last)
    ensures IsAbs(y + "/" + last) ==>
      var c := NormAbs(y + "/" + last);
      |c.segs| > 0 && c.segs[|c.segs| - 1] == last
  {
    var p := y + "/" + last;
    if IsAbs(p) {
      assert p == y + ['/'] + last;
      SplitAppend(y, last, '/');
      SplitNoSep(last, '/');
      ResolveAppend([], Split(y, '/'), [last]);
    }
  }

  /** The last component of a path, `os.path.basename`. */
  function BaseName(p: string): (r: string)
    ensures |r| <= |p| && r == p[|p| - |r|..]
    ensures '/' !in r
    ensures |r| < |p| ==> p[|p| - |r| - 1] == '/'
  {
    var i := RFind(p, '/');
    var r := p[i + 1..];
    BaseHasNoSlash(p);
    r
  }

  /** The last path component of the path the k-th candidate names. */
  function CandidateTail(stem: string, k: nat, ext: string): string {
    BaseName(stem) + "_" + NatToString(k) + ext
  }

  lemma BaseHasNoSlash(stem: string)
    ensures '/' !in stem[RFind(stem, '/') + 1..]
  {
    var i := RFind(stem, '/');
    var base := stem[i + 1..];
    forall j | 0 <= j < |base| ensures base[j] != '/' {
      assert base[j] == stem[i + 1 + j];
    }
  }

  lemma DigitsHaveNoSlash(k: nat)
    ensures '/' !in NatToString(k)
  {
    var digits := NatToString(k);
    forall j | 0 <= j < |digits| ensures digits[j] != '/' {
      assert IsDigit(digits[j]);
    }
  }

  lemma UnderscoreSegment(base: string, digits: string, ext: string)
    requires '/' !in base && '/' !in digits && '/' !in ext
    ensures IsSegment(base + "_" + digits + ext)
  {
    var x := base + "_" + digits + ext;
    assert x[|base|] == '_';
    assert x != "" && x != "." && x != "..";
  }

  lemma TailIsSegment(stem: string, k: nat, ext: string)
    requires '/' !in ext
    ensures IsSegment(CandidateTail(stem, k, ext))
  {
    DigitsHaveNoSlash(k);
    UnderscoreSegment(BaseName(stem), NatToString(k), ext);
  }

  /** Renaming a single path component by a counter keeps it a single path component. */
  lemma CandidateOfSegment(name: string, k: nat)
    requires IsSegment(name)
    ensures IsSegment(Candidate(SplitExt(name).0, k, SplitExt(name).1))
  {
    var stem := SplitExt(name).0;
    var ext := SplitExt(name).1;
    assert '/' !in stem by {
      forall i | 0 <= i < |stem| ensures stem[i] != '/' {
        assert stem[i] == name[i];
      }
    }
    DigitsHaveNoSlash(k);
    UnderscoreSegment(stem, NatToString(k), ext);
  }

  lemma CandidateSplit(folder: string, stem: string, k: nat, ext: string) returns (y: string)
    requires IsAbs(folder) && '/' !in ext
    ensures Join(folder, Candidate(stem, k, ext)) == y + "/" + CandidateTail(stem, k, ext)
  {
    TailIsSegment(stem, k, ext);
    var base := BaseName(stem);
    var rest := "_" + NatToString(k) + ext;
    var tail := CandidateTail(stem, k, ext);
    var cand := Candidate(stem, k, ext);
    assert tail == base + rest;
    assert cand == stem + rest;
    var n := |stem| - |base|;
    if n > 0 {
      var dir := stem[..n - 1];
      assert stem == dir + "/" + base;
      assert cand == dir + "/" + tail;
      y := JoinedDir(folder, dir, tail);
    } else {
      assert cand == tail;
      y := JoinedSegment(folder, tail);
    }
  }

  lemma JoinedDir(folder: string, dir: string, tail: string) returns (y: string)
    requires IsAbs(folder)
    ensures Join(folder, dir + "/" + tail) == y + "/" + tail
  {
    var cand := dir + "/" + tail;
    if IsAbs(cand) {
      y := dir;
    } else if folder[|folder| - 1] == '/' {
      y := folder + dir;
    } else {
      y := folder + "/" + dir;
    }
  }

  lemma JoinedSegment(folder: string, tail: string) returns (y: string)
    requires IsAbs(folder) && IsSegment(tail)
    ensures Join(folder, tail) == y + "/" + tail
  {
    assert !IsAbs(tail) by {
      assert tail[0] in tail;
    }
    if folder[|folder| - 1] == '/' {
      y := folder[..|folder| - 1];
      assert folder == y + "/";
    } else {
      y := folder;
    }
  }

  /** The path the k-th candidate names inside the folder. */
  function CandidateAt(folder: string, stem: string, k: nat, ext: string): Canon
    requires IsAbs(folder)
  {
    NormAbs(Join(folder, Candidate(stem, k, ext)))
  }

  /** The last component of a normalised path, if any. */
  function Last(c: Canon): Option<string> {
    if |c.segs| == 0 then None else Some(c.segs[|c.segs| - 1])
  }

  /** The k-th candidate's path ends in the candidate's own last component. */
  lemma CandidatePath(folder: string, stem: string, k: nat, ext: string)
    requires IsAbs(folder) && '/' !in ext
    ensures Last(CandidateAt(folder, stem, k, ext)) == Some(CandidateTail(stem, k, ext))
  {
    TailIsSegment(stem, k, ext);
    var y := CandidateSplit(folder, stem, k, ext);
    LastComponent(y, CandidateTail(stem, k, ext));
  }

  lemma MiddleEqual(p: string, m1: string, m2: string, e: string)
    requires p + m1 + e == p + m2 + e
    ensures m1 == m2
  {
    var s := p + m1 + e;
    assert m1 == s[|p|..|p| + |m1|];
  }

  /** Different counters give different last components. */
  lemma TailsDistinct(stem: string, j: nat, k: nat, ext: string)
    requires j != k
    ensures CandidateTail(stem, j, ext) != CandidateTail(stem, k, ext)
  {
    if CandidateTail(stem, j, ext) == CandidateTail(stem, k, ext) {
      var base := BaseName(stem) + "_";
      MiddleEqual(base, NatToString(j), NatToString(k), ext);
      NatToStringInjective(j, k);
    }
  }

  /** Different counters name different paths, whatever the folder, stem and extension. */
  lemma CandidatesDistinct(folder: string, stem: string, j: nat, k: nat, ext: string)
    requires IsAbs(folder) && '/' !in ext && j != k
    ensures CandidateAt(folder, stem, j, ext) != CandidateAt(folder, stem, k, ext)
  {
    CandidatePath(folder, stem, j, ext);
    CandidatePath(folder, stem, k, ext);
    TailsDistinct(stem, j, k, ext);
  }

  /** The paths of the candidates 1 .. n-1, those the loop has tried when its counter is n. */
  function Tried(folder: string, stem: string, ext: string, n: nat): set<Canon>
    requires IsAbs(folder)
    decreases n
  {
    if n <= 1 then {} else Tried(folder, stem, ext, n - 1) + {CandidateAt(folder, stem, n - 1, ext)}
  }

  lemma {:induction false} NotYetTried(folder: string, stem: string, ext: string, n: nat, k: nat)
    requires IsAbs(folder) && '/' !in ext && k >= n
    ensures CandidateAt(folder, stem, k, ext) !in Tried(folder, stem, ext, n)
    decreases n
  {
    if n > 1 {
      CandidatesDistinct(folder, stem, n - 1, k, ext);
      NotYetTried(folder, stem, ext, n - 1, k);
    }
  }

  lemma {:induction false} TriedSize(folder: string, stem: string, ext: string, n: nat)
    requires IsAbs(folder) && '/' !in ext && n >= 1
    ensures |Tried(folder, stem, ext, n)| == n - 1
    decreases n
  {
    if n > 1 {
      TriedSize(folder, stem, ext, n - 1);
      NotYetTried(folder, stem, ext, n - 1, n - 1);
    }
  }

  lemma {:induction false} TriedTaken(fs: Fs, folder: string, stem: string, ext: string, n: nat)
    requires IsAbs(folder)
    requires forall j :: 1 <= j < n ==> Taken(fs, folder, Candidate(stem, j, ext))
    ensures Tried(folder, stem, ext, n) <= fs.Keys
    decreases n
  {
    if n > 1 {
      TriedTaken(fs, folder, stem, ext, n - 1);
    }
  }

  lemma {:induction false} SubsetSize<T>(a: set<T>, b: set<T>)
    requires a <= b
    ensures |a| <= |b|
    decreases a
  {
    if a != {} {
      var x :| x in a;
      SubsetSize(a - {x}, b - {x});
    }
  }

  /** Once the names 1 .. n-1 are all taken, the file system holds at least n-1 entries. */
  lemma TakenBound(fs: Fs, folder: string, stem: string, ext: string, n: nat)
    requires IsAbs(folder) && '/' !in ext && n >= 1
    requires forall j :: 1 <= j < n ==> Taken(fs, folder, Candidate(stem, j, ext))
    ensures n - 1 <= |fs.Keys|
  {
    TriedTaken(fs, folder, stem, ext, n);
    TriedSize(folder, stem, ext, n);
    SubsetSize(Tried(folder, stem, ext, n), fs.Keys);
  }

  /**
   * The collision loop of the upload handler: keep the name when it is free,
   * otherwise try `stem_1+ext`, `stem_2+ext`, ... with the stem and extension
   * of the original name, and stop at the first free one. It terminates
   * because each candidate names a different path and only finitely many
   * paths exist.
   */
  method UniqueName(fs: Fs, folder: string, name: string) returns (r: string)
    requires IsAbs(folder)
    ensures !Taken(fs, folder, r)
    ensures !Taken(fs, folder, name) ==> r == name
    ensures Taken(fs, folder, name) ==>
      exists k :: k >= 1 && r == Candidate(SplitExt(name).0, k, SplitExt(name).1)
        && forall j :: 1 <= j < k ==> Taken(fs, folder, Candidate(SplitExt(name).0, j, SplitExt(name).1))
  {
    var stem := SplitExt(name).0;
    var ext := SplitExt(name).1;
    assert '/' !in ext;
    r := name;
    var counter: nat := 1;
    while Taken(fs, folder, r)
      invariant counter >= 1
      invariant counter == 1 ==> r == name
      invariant counter > 1 ==> r == Candidate(stem, counter - 1, ext) && Taken(fs, folder, name)
      invariant forall j :: 1 <= j < counter - 1 ==> Taken(fs, folder, Candidate(stem, j, ext))
      decreases |fs.Keys| + 1 - counter
    {
      if counter > 1 {
        TakenBound(fs, folder, stem, ext, counter);
      }
      r := Candidate(stem, counter, ext);
      counter := counter + 1;
    }
    if Taken(fs, folder, name) {
      assert counter > 1;
      assert r == Candidate(stem, counter - 1, ext);
    }
  }
}

=== FILE: paths.dfy ===
/**
 * Lexical path handling on POSIX: `os.path.join`, `os.path.abspath` (which is
 * `normpath` after joining onto the working directory) and the traversal guard
 * `FileUtils.is_safe_path`. Symlinks are not resolved, exactly as `abspath`
 * does not resolve them.
 */
module Paths {
  import opened Wrappers
  import opened Text

  predicate IsAbs(p: string) {
    |p| > 0 && p[0] == '/'
  }

  /** POSIX `os.path.join(a, b)`: an absolute `b` replaces `a`, otherwise one `/` is inserted when `a` lacks it. */
  function Join(a: string, b: string): (r: string)
    ensures IsAbs(b) ==> r == b
    ensures !IsAbs(b) ==> a <= r && EndsWith(r, b) && |r| <= |a| + 1 + |b|
    ensures IsAbs(a) ==> IsAbs(r)
  {
    if IsAbs(b) then b
    else if a == "" || a[|a| - 1] == '/' then a + b
    else a + "/" + b
  }

  /**
   * A path as `os.path.abspath` returns it: POSIX keeps exactly two leading
   * slashes (`doubleRoot`) and otherwise one, followed by the segments.
   */
  datatype Canon = Canon(doubleRoot: bool, segs: seq<string>)

  /** A component that survives normalisation. */
  predicate IsSegment(x: string) {
    x != "" && x != "." && x != ".." && '/' !in x
  }

  predicate ValidCanon(c: Canon) {
    forall i :: 0 <= i < |c.segs| ==> IsSegment(c.segs[i])
  }

  /** One step of `normpath` on an absolute path: drop empty and `.`, pop on `..` (never above `/`). */
  function Step(acc: seq<string>, comp: string): seq<string> {
    if comp == "" || comp == "." then acc
    else if comp == ".." then (if |acc| > 0 then acc[..|acc| - 1] else acc)
    else acc + [comp]
  }

  function ResolveFrom(acc: seq<string>, comps: seq<string>): seq<string>
    decreases |comps|
  {
    if |comps| == 0 then acc else ResolveFrom(Step(acc, comps[0]), comps[1..])
  }

  /** Resolving slash-free components onto segments leaves only segments. */
  lemma {:induction false} ResolveKeepsSegments(acc: seq<string>, comps: seq<string>)
    requires forall i :: 0 <= i < |acc| ==> IsSegment(acc[i])
    requires forall i :: 0 <= i < |comps| ==> '/' !in comps[i]
    ensures forall i :: 0 <= i < |ResolveFrom(acc, comps)| ==> IsSegment(ResolveFrom(acc, comps)[i])
    decreases |comps|
  {
    if |comps| > 0 {
      var next := Step(acc, comps[0]);
      assert forall i :: 0 <= i < |next| ==> IsSegment(next[i]);
      ResolveKeepsSegments(next, comps[1..]);
    }
  }

  /** `os.path.normpath` of an absolute path. */
  function NormAbs(p: string): (c: Canon)
    requires IsAbs(p)
    ensures ValidCanon(c)
  {
    ResolveKeepsSegments([], Split(p, '/'));
    Canon(StartsWith(p, "//") && !StartsWith(p, "///"), ResolveFrom([], Split(p, '/')))
  }

  function Lead(c: Canon): string {
    if c.doubleRoot then "//" else "/"
  }

  /** The string `abspath` returns for a canonical path. */
  function Render(c: Canon): (r: string)
    ensures IsAbs(r)
  {
    Lead(c) + JoinWith(c.segs, '/')
  }

  /**
   * `os.path.abspath(p)`: relative paths are joined onto the working
   * directory first; `cwd == None` models `os.getcwd()` raising.
   */
  function Abs(cwd: Option<Canon>, p: string): (r: Option<Canon>)
    ensures r.None? <==> !IsAbs(p) && cwd.None?
    ensures IsAbs(p) ==> r == Some(NormAbs(p))
  {
    if IsAbs(p) then Some(NormAbs(p))
    else if cwd.None? then None
    else Some(NormAbs(Join(Render(cwd.value), p)))
  }

  function WithSep(s: string): string {
    if EndsWith(s, "/") then s else s + "/"
  }

  /**
   * `FileUtils.is_safe_path(base, target)`: normalise both, accept equal
   * paths, otherwise compare with a trailing separator appended to each so
   * that `/root-evil` does not pass for `/root`. A failure of `abspath`
   * yields False.
   */
  function IsSafePath(cwd: Option<Canon>, base: string, target: string): (r: bool)
    ensures r ==> Abs(cwd, base).Some? && Abs(cwd, target).Some?
    ensures Abs(cwd, base).Some? && Abs(cwd, target) == Abs(cwd, base) ==> r
  {
    var b := Abs(cwd, base);
    var t := Abs(cwd, target);
    if b.None? || t.None? then false
    else
      var bs := Render(b.value);
      var ts := Render(t.value);
      if bs == ts then true else StartsWith(WithSep(ts), WithSep(bs))
  }

  /** The target is the base itself or lies below it at a component boundary. */
  predicate UnderRoot(base: Canon, target: Canon) {
    || (base.doubleRoot == target.doubleRoot && base.segs <= target.segs)
    || (!base.doubleRoot && target.doubleRoot && base.segs == [])
  }

  // ------------------------------------------------------------------ proofs

  function Slashed(segs: seq<string>): string {
    if |segs| == 0 then "" else segs[0] + "/" + Slashed(segs[1..])
  }

  lemma {:induction false} JoinWithSlash(segs: seq<string>)
    requires |segs| >= 1
    ensures JoinWith(segs, '/') + "/" == Slashed(segs)
  {
    if |segs| > 1 {
      JoinWithSlash(segs[1..]);
    }
  }

  lemma {:induction false} JoinWithLast(segs: seq<string>)
    requires |segs| >= 1 && forall i :: 0 <= i < |segs| ==> IsSegment(segs[i])
    ensures |JoinWith(segs, '/')| > 0
    ensures JoinWith(segs, '/')[|JoinWith(segs, '/')| - 1] != '/'
    ensures JoinWith(segs, '/')[0] != '/'
  {
    if |segs| > 1 {
      JoinWithLast(segs[1..]);
    } else {
      assert segs[0][|segs[0]| - 1] in segs[0];
    }
    assert segs[0][0] in segs[0];
  }

  lemma WithSepRender(c: Canon)
    requires ValidCanon(c)
    ensures WithSep(Render(c)) == Lead(c) + Slashed(c.segs)
  {
    if |c.segs| > 0 {
      JoinWithLast(c.segs);
      JoinWithSlash(c.segs);
      assert Lead(c) + JoinWith(c.segs, '/') + "/" == Lead(c) + (JoinWith(c.segs, '/') + "/");
    }
  }

  lemma HeadSegment(x: string, y: string, a: string, b: string)
    requires '/' !in x && '/' !in y
    requires x + "/" + b <= y + "/" + a
    ensures x == y && b <= a
  {
    var l := x + "/" + b;
    var r := y + "/" + a;
    assert forall i :: 0 <= i < |y| ==> r[i] != '/' by {
      forall i | 0 <= i < |y| ensures r[i] != '/' {
        assert r[i] == y[i] && y[i] in y;
      }
    }
    assert forall i :: 0 <= i < |x| ==> l[i] != '/' by {
      forall i | 0 <= i < |x| ensures l[i] != '/' {
        assert l[i] == x[i] && x[i] in x;
      }
    }
    assert r[|x|] == l[|x|] == '/';
    assert |x| >= |y|;
    assert l[|y|] == r[|y|] == '/';
    assert |x| == |y|;
    assert x == l[..|x|] == r[..|x|] == y;
    assert b == l[|x| + 1..];
    assert a == r[|x| + 1..];
  }

  lemma {:induction false} SlashedPrefix(sb: seq<string>, st: seq<string>)
    requires forall i :: 0 <= i < |sb| ==> IsSegment(sb[i])
    requires forall i :: 0 <= i < |st| ==> IsSegment(st[i])
    ensures Slashed(sb) <= Slashed(st) <==> sb <= st
  {
    if |sb| > 0 {
      if |st| == 0 {
        assert |Slashed(sb)| > 0;
      } else {
        SlashedPrefix(sb[1..], st[1..]);
        if Slashed(sb) <= Slashed(st) {
          HeadSegment(sb[0], st[0], Slashed(st[1..]), Slashed(sb[1..]));
          assert sb == [sb[0]] + sb[1..] && st == [st[0]] + st[1..];
        }
        if sb <= st {
          assert sb[0] == st[0] && sb[1..] <= st[1..];
          assert Slashed(sb) == sb[0] + "/" + Slashed(sb[1..]);
          assert Slashed(st) == sb[0] + "/" + Slashed(st[1..]);
        }
      }
    }
  }

  /** The string comparison of `is_safe_path` on normalised paths is the segment-prefix relation. */
  lemma CompareMeaning(b: Canon, t: Canon)
    requires ValidCanon(b) && ValidCanon(t)
    ensures (Render(b) == Render(t) || StartsWith(WithSep(Render(t)), WithSep(Render(b))))
            <==> UnderRoot(b, t)
  {
    WithSepRender(b);
    WithSepRender(t);
    var wb := WithSep(Render(b));
    var wt := WithSep(Render(t));
    if b.doubleRoot == t.doubleRoot {
      SlashedPrefix(b.segs, t.segs);
      var l := Lead(b);
      assert wb <= wt <==> Slashed(b.segs) <= Slashed(t.segs) by {
        if wb <= wt {
          assert Slashed(b.segs) == wb[|l|..] && Slashed(t.segs) == wt[|l|..];
        }
      }
    } else if t.doubleRoot {
      if |b.segs| > 0 {
        assert wb[1] == b.segs[0][0];
        assert b.segs[0][0] in b.segs[0];
        assert wt[1] == '/';
        assert !(wb <= wt);
        assert Render(b) != Render(t) by {
          JoinWithLast(b.segs);
          assert Render(b)[1] != '/';
          assert Render(t)[1] == '/';
        }
      }
    } else {
      if |t.segs| > 0 {
        assert wt[1] == t.segs[0][0];
        assert t.segs[0][0] in t.segs[0];
        assert !(wb <= wt);
        assert Render(b) != Render(t) by {
          JoinWithLast(t.segs);
          assert Render(t)[1] != '/';
          assert Render(b)[1] == '/';
        }
      } else {
        assert |wt| == 1 && |wb| >= 2;
      }
    }
  }

  /**
   * `is_safe_path` accepts exactly when both paths normalise and the target
   * is the base or lies below it at a component boundary.
   */
  lemma IsSafePathMeaning(cwd: Option<Canon>, base: string, target: string)
    ensures IsSafePath(cwd, base, target) <==>
      && Abs(cwd, base).Some? && Abs(cwd, target).Some?
      && UnderRoot(Abs(cwd, base).value, Abs(cwd, target).value)
  {
    var b := Abs(cwd, base);
    var t := Abs(cwd, target);
    if b.Some? && t.Some? {
      CompareMeaning(b.value, t.value);
    }
  }

  lemma {:induction false} ResolveSegments(acc: seq<string>, xs: seq<string>)
    requires forall i :: 0 <= i < |xs| ==> IsSegment(xs[i])
    ensures ResolveFrom(acc, xs) == acc + xs
    decreases |xs|
  {
    if |xs| > 0 {
      ResolveSegments(acc + [xs[0]], xs[1..]);
      assert acc + [xs[0]] + xs[1..] == acc + xs;
    }
  }

  lemma {:induction false} ResolveAppend(acc: seq<string>, xs: seq<string>, ys: seq<string>)
    ensures ResolveFrom(acc, xs + ys) == ResolveFrom(ResolveFrom(acc, xs), ys)
    decreases |xs|
  {
    if |xs| > 0 {
      ResolveAppend(Step(acc, xs[0]), xs[1..], ys);
      assert (xs + ys)[1..] == xs[1..] + ys;
    } else {
      assert xs + ys == ys;
    }
  }

  lemma {:induction false} ResolveNoParent(acc: seq<string>, xs: seq<string>)
    requires ".." !in xs
    ensures acc <= ResolveFrom(acc, xs)
    decreases |xs|
  {
    if |xs| > 0 {
      assert xs[0] != "..";
      ResolveNoParent(Step(acc, xs[0]), xs[1..]);
    }
  }

  lemma {:induction false} ResolveSkips(acc: seq<string>, xs: seq<string>)
    requires forall i :: 0 <= i < |xs| ==> xs[i] == ""
    ensures ResolveFrom(acc, xs) == acc
    decreases |xs|
  {
    if |xs| > 0 {
      ResolveSkips(acc, xs[1..]);
    }
  }

  lemma SplitRender(c: Canon)
    requires ValidCanon(c)
    ensures Split(Render(c), '/') == (if c.doubleRoot then ["", ""] else [""]) + Split(JoinWith(c.segs, '/'), '/')
  {
    var j := JoinWith(c.segs, '/');
    if c.doubleRoot {
      assert Render(c) == "" + ['/'] + ("/" + j);
      SplitAppend("", "/" + j, '/');
      assert "/" + j == "" + ['/'] + j;
      SplitAppend("", j, '/');
    } else {
      assert Render(c) == "" + ['/'] + j;
      SplitAppend("", j, '/');
    }
  }

  lemma LeadOfRender(c: Canon, tail: string)
    requires ValidCanon(c)
    requires |c.segs| > 0 || tail == "" || tail[0] != '/'
    ensures var p := Render(c) + tail;
      c.doubleRoot == (StartsWith(p, "//") && !StartsWith(p, "///"))
  {
    var p := Render(c) + tail;
    var j := JoinWith(c.segs, '/');
    if |c.segs| > 0 {
      JoinWithLast(c.segs);
    }
    var rest := j + tail;
    assert |rest| == 0 || rest[0] != '/';
    if c.doubleRoot {
      assert p == "//" + rest;
      assert "//" <= p;
      if |p| >= 3 { assert p[2] == rest[0]; }
    } else {
      assert p == "/" + rest;
      if |p| >= 2 { assert p[1] == rest[0]; }
    }
  }

  /** Normalisation is idempotent: a canonical path renders to a string that normalises back to it. */
  lemma NormAbsRender(c: Canon)
    requires ValidCanon(c)
    ensures NormAbs(Render(c)) == c
  {
    SplitRender(c);
    LeadOfRender(c, "");
    assert Render(c) + "" == Render(c);
    var lead := if c.doubleRoot then ["", ""] else [""];
    if |c.segs| == 0 {
      assert JoinWith(c.segs, '/') == "";
      ResolveSkips([], lead + [""]);
    } else {
      SplitJoin(c.segs, '/');
      ResolveAppend([], lead, c.segs);
      ResolveSkips([], lead);
      ResolveSegments([], c.segs);
    }
  }

  /** Joining one more component onto a non-root canonical path resolves that component. */
  lemma AppendComponent(c: Canon, x: string)
    requires ValidCanon(c) && |c.segs| > 0 && '/' !in x
    ensures Join(Render(c), x) == Render(c) + "/" + x
    ensures NormAbs(Join(Render(c), x)) == Canon(c.doubleRoot, Step(c.segs, x))
  {
    assert !IsAbs(x) by {
      if |x| > 0 { assert x[0] in x; }
    }
    InnerJoinText(c, x);
    InnerJoinSegments(c, x);
    InnerJoinLead(c, x);
    SplitNoSep(x, '/');
    assert ResolveFrom(c.segs, [x]) == Step(c.segs, x);
  }

  /** A plain component joined onto a canonical path becomes its child. */
  lemma JoinChild(c: Canon, x: string)
    requires ValidCanon(c) && IsSegment(x)
    ensures NormAbs(Join(Render(c), x)) == Canon(c.doubleRoot, c.segs + [x])
  {
    if |c.segs| > 0 {
      AppendComponent(c, x);
    } else {
      JoinChildOfRoot(c, x);
    }
  }

  lemma JoinChildOfRoot(c: Canon, x: string)
    requires |c.segs| == 0 && IsSegment(x)
    ensures NormAbs(Join(Render(c), x)) == Canon(c.doubleRoot, [x])
  {
    var d := Canon(c.doubleRoot, [x]);
    var lead := Lead(c);
    assert Render(c) == lead by {
      assert JoinWith(c.segs, '/') == "";
    }
    assert Render(d) == lead + x by {
      assert JoinWith([x], '/') == x;
    }
    assert !IsAbs(x) by {
      assert x[0] in x;
    }
    assert lead[|lead| - 1] == '/';
    assert Join(lead, x) == lead + x;
    NormAbsRender(d);
  }

  /** Extending an absolute path does not change whether it has the double-slash root. */
  lemma DoubleRootOfExtension(a: string, t: string)
    requires IsAbs(a)
    requires |a| >= 3 || (|a| >= 2 && a[1] != '/') || t == "" || t[0] != '/'
    ensures (StartsWith(a + t, "//") && !StartsWith(a + t, "///")) == (StartsWith(a, "//") && !StartsWith(a, "///"))
  {
    var p := a + t;
    if |a| >= 3 {
      assert p[..3] == a[..3];
    } else if |a| >= 2 {
      assert p[..2] == a[..2];
      if |p| >= 3 { assert p[2] == t[0]; }
    } else {
      if |p| >= 2 { assert p[1] == t[0]; }
    }
  }

  /**
   * `os.path.join(a, b)` for an absolute `a` and a relative `b`, once
   * normalised, is `a` normalised with `b`'s components resolved onto it.
   */
  lemma JoinRelative(a: string, b: string)
    requires IsAbs(a) && !IsAbs(b)
    ensures NormAbs(Join(a, b)) == Canon(NormAbs(a).doubleRoot, ResolveFrom(NormAbs(a).segs, Split(b, '/')))
  {
    if a[|a| - 1] == '/' {
      JoinAfterSlash(a, b);
    } else {
      JoinAfterName(a, b);
    }
  }

  /** `JoinRelative` for a base ending in `/`: the first component of `b` replaces the empty last one. */
  lemma JoinAfterSlash(a: string, b: string)
    requires IsAbs(a) && !IsAbs(b) && a[|a| - 1] == '/'
    ensures NormAbs(Join(a, b)) == Canon(NormAbs(a).doubleRoot, ResolveFrom(NormAbs(a).segs, Split(b, '/')))
  {
    var a' := a[..|a| - 1];
    assert a == a' + ['/'] + "";
    assert Join(a, b) == a' + ['/'] + b;
    SplitAppend(a', b, '/');
    assert Split(a, '/') == Split(a', '/') + [""] by {
      SplitAppend(a', "", '/');
    }
    ResolveAppend([], Split(a', '/'), Split(b, '/'));
    ResolveAppend([], Split(a', '/'), [""]);
    DoubleRootOfExtension(a, b);
  }

  /** `JoinRelative` for a base ending in a name: one `/` and `b` are appended. */
  lemma JoinAfterName(a: string, b: string)
    requires IsAbs(a) && !IsAbs(b) && a[|a| - 1] != '/'
    ensures NormAbs(Join(a, b)) == Canon(NormAbs(a).doubleRoot, ResolveFrom(NormAbs(a).segs, Split(b, '/')))
  {
    JoinNameSegments(a, b);
    JoinNameRoot(a, b);
  }

  lemma JoinNameSegments(a: string, b: string)
    requires IsAbs(a) && !IsAbs(b) && a[|a| - 1] != '/'
    ensures NormAbs(Join(a, b)).segs == ResolveFrom(NormAbs(a).segs, Split(b, '/'))
  {
    assert Join(a, b) == a + ['/'] + b;
    SplitAppend(a, b, '/');
    ResolveAppend([], Split(a, '/'), Split(b, '/'));
  }

  lemma JoinNameRoot(a: string, b: string)
    requires IsAbs(a) && !IsAbs(b) && a[|a| - 1] != '/'
    ensures NormAbs(Join(a, b)).doubleRoot == NormAbs(a).doubleRoot
  {
    assert Join(a, b) == a + ("/" + b);
    DoubleRootOfExtension(a, "/" + b);
  }

  /**
   * `os.path.join(a, x)` for an absolute `a` and a slash-free `x`, once
   * normalised, is `a` normalised with one more `normpath` step.
   */
  lemma JoinComponent(a: string, x: string)
    requires IsAbs(a) && '/' !in x
    ensures NormAbs(Join(a, x)) == Canon(NormAbs(a).doubleRoot, Step(NormAbs(a).segs, x))
  {
    assert !IsAbs(x) by {
      if |x| > 0 { assert x[0] in x; }
    }
    JoinRelative(a, x);
    SplitNoSep(x, '/');
    assert ResolveFrom(NormAbs(a).segs, [x]) == Step(NormAbs(a).segs, x);
  }

  // ------------------------------------------------------------------ components

  /** The parts of a component list that are not empty. */
  function DropEmpty(xs: seq<string>): (r: seq<string>)
    ensures forall i :: 0 <= i < |r| ==> r[i] != "" && r[i] in xs
    decreases |xs|
  {
    if xs == [] then [] else (if xs[0] == "" then [] else [xs[0]]) + DropEmpty(xs[1..])
  }

  /**
   * The components of a path as the kernel walks them and as `os.path.split`
   * peels them off: repeated slashes separate nothing.
   */
  function Components(p: string): (r: seq<string>)
    ensures forall i :: 0 <= i < |r| ==> r[i] != "" && '/' !in r[i]
  {
    DropEmpty(Split(p, '/'))
  }

  lemma {:induction false} DropEmptyAppend(xs: seq<string>, ys: seq<string>)
    ensures DropEmpty(xs + ys) == DropEmpty(xs) + DropEmpty(ys)
    decreases |xs|
  {
    if xs == [] {
      assert xs + ys == ys;
    } else {
      DropEmptyAppend(xs[1..], ys);
      assert (xs + ys)[1..] == xs[1..] + ys;
    }
  }

  lemma {:induction false} DropEmptyKeeps(xs: seq<string>)
    requires forall i :: 0 <= i < |xs| ==> xs[i] != ""
    ensures DropEmpty(xs) == xs
    decreases |xs|
  {
    if xs != [] {
      DropEmptyKeeps(xs[1..]);
    }
  }

  /** Empty components are no-ops for `normpath`. */
  lemma {:induction false} ResolveDropEmpty(acc: seq<string>, xs: seq<string>)
    ensures ResolveFrom(acc, DropEmpty(xs)) == ResolveFrom(acc, xs)
    decreases |xs|
  {
    if xs != [] {
      var rest := DropEmpty(xs[1..]);
      ResolveDropEmpty(Step(acc, xs[0]), xs[1..]);
      if xs[0] == "" {
        assert DropEmpty(xs) == rest;
      } else {
        var d := [xs[0]] + rest;
        assert DropEmpty(xs) == d;
        assert d[0] == xs[0] && d[1..] == rest;
        assert ResolveFrom(acc, d) == ResolveFrom(Step(acc, xs[0]), rest);
      }
    }
  }

  /** Normalising an absolute path resolves its components from `/`. */
  lemma NormAbsComponents(p: string)
    requires IsAbs(p)
    ensures NormAbs(p).segs == ResolveFrom([], Components(p))
  {
    ResolveDropEmpty([], Split(p, '/'));
  }

  /** The components of a canonical path are its segments. */
  lemma ComponentsRender(c: Canon)
    requires ValidCanon(c)
    ensures Components(Render(c)) == c.segs
  {
    SplitRender(c);
    var lead: seq<string> := if c.doubleRoot then ["", ""] else [""];
    DropEmptyAppend(lead, Split(JoinWith(c.segs, '/'), '/'));
    if |c.segs| == 0 {
      assert JoinWith(c.segs, '/') == "";
    } else {
      SplitJoin(c.segs, '/');
      DropEmptyKeeps(c.segs);
    }
  }

  /** Joining a non-empty slash-free component adds it as the last component. */
  lemma ComponentsJoin(a: string, x: string)
    requires IsAbs(a) && x != "" && '/' !in x
    ensures Components(Join(a, x)) == Components(a) + [x]
  {
    assert !IsAbs(x) by { assert x[0] in x; }
    SplitNoSep(x, '/');
    if a[|a| - 1] == '/' {
      var a' := a[..|a| - 1];
      assert a == a' + ['/'] + "";
      assert Join(a, x) == a' + ['/'] + x;
      SplitAppend(a', x, '/');
      SplitAppend(a', "", '/');
      DropEmptyAppend(Split(a', '/'), [x]);
      DropEmptyAppend(Split(a', '/'), [""]);
    } else {
      assert Join(a, x) == a + ['/'] + x;
      SplitAppend(a, x, '/');
      DropEmptyAppend(Split(a, '/'), [x]);
    }
  }

  /** Joining a relative path appends its non-empty components. */
  lemma ComponentsJoinRelative(a: string, b: string)
    requires IsAbs(a) && !IsAbs(b)
    ensures Components(Join(a, b)) == Components(a) + DropEmpty(Split(b, '/'))
  {
    var head := if a[|a| - 1] == '/' then a[..|a| - 1] else a;
    var xs := Split(head, '/');
    var ys := Split(b, '/');
    assert Split(Join(a, b), '/') == xs + ys by {
      assert Join(a, b) == head + ['/'] + b;
      SplitAppend(head, b, '/');
    }
    assert DropEmpty(Split(a, '/')) == DropEmpty(xs) by {
      if a[|a| - 1] == '/' {
        assert a == head + ['/'] + "";
        SplitAppend(head, "", '/');
        DropEmptyAppend(xs, [""]);
      }
    }
    DropEmptyAppend(xs, ys);
  }

  // ------------------------------------------------------------------ consequences

  /** `is_safe_path(b, b)` holds for every base that normalises. */
  lemma SamePathIsSafe(cwd: Option<Canon>, base: string)
    requires Abs(cwd, base).Some?
    ensures IsSafePath(cwd, base, base)
  {
  }

  /** A sibling whose name merely extends the base's last name is rejected: `/root-evil` for `/root`. */
  lemma SiblingPrefixRejected(cwd: Option<Canon>)
    ensures !IsSafePath(cwd, "/root", "/root-evil")
  {
    var b := Canon(false, ["root"]);
    var t := Canon(false, ["root-evil"]);
    assert Render(b) == "/root";
    assert Render(t) == "/root-evil";
    NormAbsRender(b);
    NormAbsRender(t);
    IsSafePathMeaning(cwd, "/root", "/root-evil");
  }

  /** `..` joined onto a root with at least one segment escapes it and is rejected. */
  lemma ParentOfRootRejected(cwd: Option<Canon>, root: Canon)
    requires ValidCanon(root) && |root.segs| > 0
    ensures !IsSafePath(cwd, Render(root), Join(Render(root), ".."))
  {
    AppendComponent(root, "..");
    NormAbsRender(root);
    IsSafePathMeaning(cwd, Render(root), Join(Render(root), ".."));
  }

  lemma RootLeadJoin(root: Canon, p: string)
    requires ValidCanon(root) && |root.segs| == 0 && !IsAbs(p)
    ensures Join(Render(root), p) == Render(root) + p
    ensures ResolveFrom([], Split(Render(root) + p, '/')) == ResolveFrom([], Split(p, '/'))
    ensures root.doubleRoot == (StartsWith(Render(root) + p, "//") && !StartsWith(Render(root) + p, "///"))
  {
    RootLeadSegments(root, p);
    LeadOfRender(root, p);
  }

  lemma RootLeadSegments(root: Canon, p: string)
    requires |root.segs| == 0
    ensures ResolveFrom([], Split(Render(root) + p, '/')) == ResolveFrom([], Split(p, '/'))
  {
    var r := Render(root);
    assert JoinWith(root.segs, '/') == "";
    var lead: seq<string> := if root.doubleRoot then ["", ""] else [""];
    assert Split(r + p, '/') == lead + Split(p, '/') by {
      if root.doubleRoot {
        assert r + p == "" + ['/'] + ("" + ['/'] + p);
        SplitAppend("", "" + ['/'] + p, '/');
        SplitAppend("", p, '/');
      } else {
        assert r + p == "" + ['/'] + p;
        SplitAppend("", p, '/');
      }
    }
    ResolveAppend([], lead, Split(p, '/'));
    ResolveSkips([], lead);
  }

  lemma InnerJoin(root: Canon, p: string)
    requires ValidCanon(root) && |root.segs| > 0 && !IsAbs(p)
    ensures Join(Render(root), p) == Render(root) + "/" + p
    ensures ResolveFrom([], Split(Join(Render(root), p), '/')) == ResolveFrom(root.segs, Split(p, '/'))
    ensures root.doubleRoot == (StartsWith(Join(Render(root), p), "//") && !StartsWith(Join(Render(root), p), "///"))
  {
    InnerJoinText(root, p);
    InnerJoinSegments(root, p);
    InnerJoinLead(root, p);
  }

  lemma InnerJoinText(root: Canon, p: string)
    requires ValidCanon(root) && |root.segs| > 0 && !IsAbs(p)
    ensures Join(Render(root), p) == Render(root) + "/" + p
  {
    var r := Render(root);
    assert r[|r| - 1] != '/' by {
      JoinWithLast(root.segs);
    }
  }

  lemma InnerJoinSegments(root: Canon, p: string)
    requires ValidCanon(root) && |root.segs| > 0
    ensures ResolveFrom([], Split(Render(root) + "/" + p, '/')) == ResolveFrom(root.segs, Split(p, '/'))
  {
    var r := Render(root);
    var j := r + "/" + p;
    assert Split(j, '/') == Split(r, '/') + Split(p, '/') by {
      assert j == r + ['/'] + p;
      SplitAppend(r, p, '/');
    }
    assert ResolveFrom([], Split(r, '/')) == root.segs by {
      NormAbsRender(root);
      assert NormAbs(r).segs == root.segs;
    }
    ResolveAppend([], Split(r, '/'), Split(p, '/'));
  }

  lemma InnerJoinLead(root: Canon, p: string)
    requires ValidCanon(root) && |root.segs| > 0
    ensures var j := Render(root) + "/" + p;
      root.doubleRoot == (StartsWith(j, "//") && !StartsWith(j, "///"))
  {
    LeadOfRender(root, "/" + p);
    assert Render(root) + ("/" + p) == Render(root) + "/" + p;
  }

  /** A relative user path with no `..` component always stays under the root it is joined onto. */
  lemma RelativeWithoutParentIsSafe(cwd: Option<Canon>, root: Canon, p: string)
    requires ValidCanon(root) && !IsAbs(p) && ".." !in Split(p, '/')
    ensures IsSafePath(cwd, Render(root), Join(Render(root), p))
  {
    var r := Render(root);
    var j := Join(r, p);
    NormAbsRender(root);
    if |root.segs| > 0 {
      InnerJoin(root, p);
      ResolveNoParent(root.segs, Split(p, '/'));
    } else {
      RootLeadJoin(root, p);
    }
    assert UnderRoot(NormAbs(r), NormAbs(j));
    IsSafePathMeaning(cwd, r, j);
  }
}

=== FILE: text.dfy ===
/**
 * The handful of Python `str` and `os.path` primitives the server relies on:
 * `strip`, ASCII `lower`/`upper`, `split`/`join` on one separator, decimal
 * rendering of naturals, and POSIX `splitext`.
 */
module Text {

  /** Characters for which Python's `str.isspace()` holds: what `strip()` and `\s` remove. */
  predicate IsSpace(c: char) {
    var n := c as int;
    (9 <= n <= 13) || (28 <= n <= 32) || n == 0x85 || n == 0xA0 || n == 0x1680
    || (0x2000 <= n <= 0x200A) || n == 0x2028 || n == 0x2029 || n == 0x202F
    || n == 0x205F || n == 0x3000
  }

  predicate IsDigit(c: char) {
    '0' <= c <= '9'
  }

  predicate AllDigits(s: string) {
    forall i :: 0 <= i < |s| ==> IsDigit(s[i])
  }

  predicate StartsWith(s: string, prefix: string) {
    prefix <= s
  }

  predicate EndsWith(s: string, suffix: string) {
    |suffix| <= |s| && s[|s| - |suffix|..] == suffix
  }

  /** Python `sub in s` on strings. */
  predicate Contains(s: string, sub: string) {
    exists i :: 0 <= i <= |s| && StartsWith(s[i..], sub)
  }

  // ---------------------------------------------------------------- strip

  function TrimStart(s: string): (r: string)
    ensures |r| <= |s| && r == s[|s| - |r|..]
    ensures |r| > 0 ==> !IsSpace(r[0])
    ensures forall i :: 0 <= i < |s| - |r| ==> IsSpace(s[i])
  {
    if |s| > 0 && IsSpace(s[0]) then TrimStart(s[1..]) else s
  }

  function TrimEnd(s: string): (r: string)
    ensures r <= s
    ensures |r| > 0 ==> !IsSpace(r[|r| - 1])
    ensures forall i :: |r| <= i < |s| ==> IsSpace(s[i])
  {
    if |s| > 0 && IsSpace(s[|s| - 1]) then TrimEnd(s[..|s| - 1]) else s
  }

  /** Python `s.strip()`: the result is blank exactly when `s` is all whitespace. */
  function Strip(s: string): (r: string)
    ensures |r| > 0 ==> !IsSpace(r[0]) && !IsSpace(r[|r| - 1])
    ensures r == "" <==> forall i :: 0 <= i < |s| ==> IsSpace(s[i])
  {
    var t := TrimStart(s);
    var r := TrimEnd(t);
    r
  }

  // ---------------------------------------------------------------- case

  function LowerChar(c: char): char {
    if 'A' <= c <= 'Z' then (c as int + 32) as char else c
  }

  function UpperChar(c: char): char {
    if 'a' <= c <= 'z' then (c as int - 32) as char else c
  }

  /** Python `s.lower()` restricted to ASCII letters. */
  function Lower(s: string): (r: string)
    ensures |r| == |s|
    ensures forall i :: 0 <= i < |s| ==> r[i] == LowerChar(s[i])
  {
    seq(|s|, i requires 0 <= i < |s| => LowerChar(s[i]))
  }

  /** Python `s.upper()` restricted to ASCII letters. */
  function Upper(s: string): (r: string)
    ensures |r| == |s|
    ensures forall i :: 0 <= i < |s| ==> r[i] == UpperChar(s[i])
  {
    seq(|s|, i requires 0 <= i < |s| => UpperChar(s[i]))
  }

  // ---------------------------------------------------------------- split / join

  /** Python `s.split(sep)` for a one-character separator: never empty, one more part than separators. */
  function Split(s: string, sep: char): (parts: seq<string>)
    ensures |parts| >= 1
    ensures forall i :: 0 <= i < |parts| ==> sep !in parts[i]
    decreases |s|
  {
    if |s| == 0 then [""]
    else
      var rest := Split(s[1..], sep);
      if s[0] == sep then [""] + rest
      else [[s[0]] + rest[0]] + rest[1..]
  }

  /** Python `sep.join(parts)`. */
  function JoinWith(parts: seq<string>, sep: char): string
  {
    if |parts| == 0 then ""
    else if |parts| == 1 then parts[0]
    else parts[0] + [sep] + JoinWith(parts[1..], sep)
  }

  lemma {:induction false} SplitNoSep(s: string, sep: char)
    requires sep !in s
    ensures Split(s, sep) == [s]
    decreases |s|
  {
    if |s| > 0 {
      SplitNoSep(s[1..], sep);
      assert [s[0]] + s[1..] == s;
    }
  }

  /** One unfolding of `Split` on a non-empty string. */
  lemma SplitCons(s: string, sep: char)
    requires |s| > 0
    ensures s[0] == sep ==> Split(s, sep) == [""] + Split(s[1..], sep)
    ensures s[0] != sep ==> Split(s, sep) == [[s[0]] + Split(s[1..], sep)[0]] + Split(s[1..], sep)[1..]
  {
  }

  /** Splitting at a separator splits the parts independently. */
  lemma {:induction false} SplitAppend(a: string, b: string, sep: char)
    ensures Split(a + [sep] + b, sep) == Split(a, sep) + Split(b, sep)
    decreases |a|
  {
    var s := a + [sep] + b;
    if |a| == 0 {
      assert s[0] == sep && s[1..] == b;
      SplitCons(s, sep);
    } else {
      assert s[0] == a[0];
      assert s[1..] == a[1..] + [sep] + b;
      SplitAppend(a[1..], b, sep);
      var ra := Split(a[1..], sep);
      var rb := Split(b, sep);
      SplitCons(s, sep);
      SplitCons(a, sep);
      if a[0] != sep {
        GlueHead(a[0], ra, rb);
      }
    }
  }

  /** Gluing a character onto the first part commutes with appending more parts. */
  lemma GlueHead(c: char, ra: seq<string>, rb: seq<string>)
    requires |ra| >= 1
    ensures [[c] + (ra + rb)[0]] + (ra + rb)[1..] == ([[c] + ra[0]] + ra[1..]) + rb
  {
    assert (ra + rb)[0] == ra[0];
    assert (ra + rb)[1..] == ra[1..] + rb;
  }

  /** `split` undoes `join` when no part contains the separator. */
  lemma {:induction false} SplitJoin(parts: seq<string>, sep: char)
    requires |parts| >= 1
    requires forall i :: 0 <= i < |parts| ==> sep !in parts[i]
    ensures Split(JoinWith(parts, sep), sep) == parts
  {
    if |parts| == 1 {
      SplitNoSep(parts[0], sep);
    } else {
      SplitJoin(parts[1..], sep);
      SplitNoSep(parts[0], sep);
      SplitAppend(parts[0], JoinWith(parts[1..], sep), sep);
      assert [parts[0]] + parts[1..] == parts;
    }
  }

  /** `join` undoes `split`. */
  lemma {:induction false} JoinSplit(s: string, sep: char)
    ensures JoinWith(Split(s, sep), sep) == s
    decreases |s|
  {
    if |s| > 0 {
      JoinSplit(s[1..], sep);
      var rest := Split(s[1..], sep);
      if s[0] == sep {
        assert ([""] + rest)[1..] == rest;
      } else {
        var p := [[s[0]] + rest[0]] + rest[1..];
        if |rest| == 1 {
          assert JoinWith(rest, sep) == rest[0];
        } else {
          assert JoinWith(rest, sep) == rest[0] + [sep] + JoinWith(rest[1..], sep);
          assert p[1..] == rest[1..];
        }
        assert [s[0]] + s[1..] == s;
      }
    }
  }

  // ---------------------------------------------------------------- decimal numbers

  function DigitChar(d: nat): char
    requires d < 10
  {
    ('0' as int + d) as char
  }

  /** Python `str(n)` for a non-negative integer. */
  function NatToString(n: nat): (s: string)
    ensures |s| >= 1 && AllDigits(s)
  {
    if n < 10 then [DigitChar(n)] else NatToString(n / 10) + [DigitChar(n % 10)]
  }

  /** The value of a string of ASCII decimal digits, as Python `int(s)` reads it. */
  function DigitsValue(s: string): nat
    requires AllDigits(s)
  {
    if |s| == 0 then 0 else DigitsValue(s[..|s| - 1]) * 10 + (s[|s| - 1] as int - '0' as int)
  }

  /** Reading back the decimal rendering gives the number. */
  lemma {:induction false} DigitsValueOfNatToString(n: nat)
    ensures DigitsValue(NatToString(n)) == n
  {
    if n >= 10 {
      DigitsValueOfNatToString(n / 10);
      var s := NatToString(n);
      assert s[..|s| - 1] == NatToString(n / 10);
    }
  }

  lemma NatToStringInjective(a: nat, b: nat)
    requires NatToString(a) == NatToString(b)
    ensures a == b
  {
    DigitsValueOfNatToString(a);
    DigitsValueOfNatToString(b);
  }

  // ---------------------------------------------------------------- splitext

  /** Python `s.rfind(c)`: the last index of `c`, or -1. */
  function RFind(s: string, c: char): (r: int)
    ensures -1 <= r < |s|
    ensures r >= 0 ==> s[r] == c
    ensures forall i :: r < i < |s| ==> s[i] != c
  {
    if |s| == 0 then -1
    else if s[|s| - 1] == c then |s| - 1
    else RFind(s[..|s| - 1], c)
  }

  predicate AllDots(s: string, lo: int, hi: int)
    requires 0 <= lo <= hi <= |s|
  {
    forall i :: lo <= i < hi ==> s[i] == '.'
  }

  /**
   * The last component of `p` holds a dot with some character other than a
   * dot before it in that component: `a.txt`, `x/.a.b` and `..a.b` do,
   * `.bashrc`, `..` and `a.d/b` do not.
   */
  predicate HasExtension(p: string) {
    exists i, j :: 0 <= j < i < |p| && p[i] == '.' && p[j] != '.' && '/' !in p[j..]
  }

  /**
   * POSIX `os.path.splitext(p)`: the extension starts at the last dot of the
   * last path component, unless everything before that dot in the component
   * is dots (so `.bashrc` and `..` have no extension).
   */
  function SplitExt(p: string): (r: (string, string))
    ensures r.0 + r.1 == p
    ensures r.1 == "" || (r.1[0] == '.' && '.' !in r.1[1..] && '/' !in r.1)
    ensures r.1 != "" <==> HasExtension(p)
  {
    var sepIndex := RFind(p, '/');
    var dotIndex := RFind(p, '.');
    SplitExtMeaning(p);
    if dotIndex > sepIndex && !AllDots(p, sepIndex + 1, dotIndex) then
      assert p[..dotIndex] + p[dotIndex..] == p;
      assert p[dotIndex..][0] == '.';
      (p[..dotIndex], p[dotIndex..])
    else
      (p, "")
  }

  /** The test `splitext` makes with `rfind` is `HasExtension`. */
  lemma SplitExtMeaning(p: string)
    ensures (RFind(p, '.') > RFind(p, '/') && !AllDots(p, RFind(p, '/') + 1, RFind(p, '.'))) <==> HasExtension(p)
  {
    var sepIndex := RFind(p, '/');
    var dotIndex := RFind(p, '.');
    if dotIndex > sepIndex && !AllDots(p, sepIndex + 1, dotIndex) {
      var j :| sepIndex + 1 <= j < dotIndex && p[j] != '.';
      assert forall k :: 0 <= k < |p[j..]| ==> p[j..][k] == p[j + k];
      assert '/' !in p[j..];
    }
    if HasExtension(p) {
      var i, j :| 0 <= j < i < |p| && p[i] == '.' && p[j] != '.' && '/' !in p[j..];
      assert sepIndex < j;
      assert dotIndex >= i;
      assert !AllDots(p, sepIndex + 1, dotIndex);
    }
  }
}

=== FILE: typestats.dfy ===
/**
 * `FileUtils.get_file_type_stats`: every readable file found by the walk is
 * put into one category by its lower-cased extension, and each category
 * records how many files it holds and their total size.
 */
module TypeStats {
  import opened Text
  import opened Validation
  import opened FileTree

  /** The categories `图片`, `视频`, `音频`, `文档`, `压缩包`, `应用程序`, `代码文件` and `其他`. */
  datatype Category = Image | Video | Audio | Document | Archive | Application | Code | Other

  /** The extensions listed for each category; `Other` has none and takes the rest. */
  function Table(c: Category): seq<string> {
    match c
    case Image => [".jpg", ".jpeg", ".png", ".gif", ".bmp", ".webp", ".svg"]
    case Video => [".mp4", ".avi", ".mkv", ".mov", ".wmv", ".flv", ".webm"]
    case Audio => [".mp3", ".wav", ".flac", ".aac", ".ogg", ".wma"]
    case Document => [".pdf", ".doc", ".docx", ".xls", ".xlsx", ".ppt", ".pptx", ".txt"]
    case Archive => [".zip", ".rar", ".7z", ".tar", ".gz"]
    case Application => [".exe", ".dmg", ".pkg", ".deb", ".rpm"]
    case Code => [".py", ".js", ".java", ".cpp", ".c", ".html", ".css", ".php"]
    case Other => []
  }

  /**
   * The category of a file name: the tables are tried in order on the
   * lower-cased `splitext` extension, the one `NormalizedExtension` gives. A name without extension is given the
   * marker `无扩展名`, which no table lists, so it lands in `Other` like
   * every unlisted extension.
   */
  function Classify(name: string): Category {
    var ext := Lower(SplitExt(name).1);
    if ext in Table(Image) then Image
    else if ext in Table(Video) then Video
    else if ext in Table(Audio) then Audio
    else if ext in Table(Document) then Document
    else if ext in Table(Archive) then Archive
    else if ext in Table(Application) then Application
    else if ext in Table(Code) then Code
    else Other
  }

  /** A file is `Other` exactly when no list has its extension; otherwise its category's list has it. */
  lemma ClassifyMeaning(name: string)
    ensures Classify(name) == Other <==> forall d: Category :: NormalizedExtension(name) !in Table(d)
    ensures Classify(name) != Other ==> NormalizedExtension(name) in Table(Classify(name))
  {
  }

  /** A name without extension, such as `README` or `.bashrc`, is `Other`. */
  lemma NoExtensionIsOther(name: string)
    requires SplitExt(name).1 == ""
    ensures Classify(name) == Other
  {
    assert NormalizedExtension(name) == "";
  }

  /** The category does not depend on the case of the name: `photo.JPG` is classified like `photo.jpg`. */
  lemma ClassifyIgnoresCase(name: string)
    ensures Classify(Upper(name)) == Classify(name)
  {
    SplitExtUpper(name);
    LowerUpper(SplitExt(name).1);
  }

  // ------------------------------------------------------------------ tallying

  datatype Bucket = Bucket(count: nat, size: nat)

  type Buckets = map<Category, Bucket>

  /** Every file the walk yields, in walk order. */
  function WalkFiles(steps: seq<WalkStep>): seq<Node> {
    if steps == [] then [] else WalkFiles(steps[..|steps| - 1]) + steps[|steps| - 1].files
  }

  /** One iteration of the inner loop: a readable file is added to its category, an unreadable one is skipped. */
  function Record(b: Buckets, f: Node): Buckets {
    if f.File? && f.readable then
      var c := Classify(f.name);
      var prev := if c in b then b[c] else Bucket(0, 0);
      b[c := Bucket(prev.count + 1, prev.size + f.size)]
    else b
  }

  function Tally(files: seq<Node>): Buckets {
    if files == [] then map[] else Record(Tally(files[..|files| - 1]), files[|files| - 1])
  }

  /** Independent reference: the readable files of a category, counted and summed directly. */
  function CountOf(files: seq<Node>, c: Category): nat {
    if files == [] then 0
    else
      var f := files[|files| - 1];
      CountOf(files[..|files| - 1], c) + (if Counts(f, c) then 1 else 0)
  }

  function SizeOf(files: seq<Node>, c: Category): nat {
    if files == [] then 0
    else
      var f := files[|files| - 1];
      SizeOf(files[..|files| - 1], c) + (if Counts(f, c) then f.size else 0)
  }

  function ReadableCount(files: seq<Node>): nat {
    if files == [] then 0
    else ReadableCount(files[..|files| - 1]) + (if files[|files| - 1].File? && files[|files| - 1].readable then 1 else 0)
  }

  /** Whether a file adds to category `c`. */
  predicate Counts(f: Node, c: Category) {
    f.File? && f.readable && Classify(f.name) == c
  }

  lemma RecordEffect(b: Buckets, f: Node, c: Category)
    ensures c in Record(b, f) <==> c in b || Counts(f, c)
    ensures c in Record(b, f) && !Counts(f, c) ==> Record(b, f)[c] == b[c]
    ensures c in Record(b, f) && Counts(f, c) ==>
      var prev := if c in b then b[c] else Bucket(0, 0);
      Record(b, f)[c] == Bucket(prev.count + 1, prev.size + f.size)
  {
  }

  /**
   * The tally holds a category exactly when some readable file belongs to
   * it, and then records that category's count and total size.
   */
  lemma {:induction false} TallyMeaning(files: seq<Node>, c: Category)
    ensures c in Tally(files) <==> CountOf(files, c) > 0
    ensures c in Tally(files) ==> Tally(files)[c] == Bucket(CountOf(files, c), SizeOf(files, c))
    decreases |files|
  {
    if files != [] {
      var prefix := files[..|files| - 1];
      var f := files[|files| - 1];
      TallyMeaning(prefix, c);
      if c !in Tally(prefix) {
        SizeNeedsCount(prefix, c);
      }
      RecordEffect(Tally(prefix), f, c);
      assert Tally(files) == Record(Tally(prefix), f);
      assert CountOf(files, c) == CountOf(prefix, c) + (if Counts(f, c) then 1 else 0);
      assert SizeOf(files, c) == SizeOf(prefix, c) + (if Counts(f, c) then f.size else 0);
    }
  }

  /** An empty category never appears: every bucket holds at least one file. */
  lemma OnlyNonEmptyCategories(files: seq<Node>)
    ensures forall c :: c in Tally(files) ==> Tally(files)[c].count >= 1
  {
    forall c | c in Tally(files) ensures Tally(files)[c].count >= 1 {
      TallyMeaning(files, c);
    }
  }

  function SumCounts(files: seq<Node>): nat {
    CountOf(files, Image) + CountOf(files, Video) + CountOf(files, Audio) + CountOf(files, Document)
    + CountOf(files, Archive) + CountOf(files, Application) + CountOf(files, Code) + CountOf(files, Other)
  }

  function SumSizes(files: seq<Node>): nat {
    SizeOf(files, Image) + SizeOf(files, Video) + SizeOf(files, Audio) + SizeOf(files, Document)
    + SizeOf(files, Archive) + SizeOf(files, Application) + SizeOf(files, Code) + SizeOf(files, Other)
  }

  /** A readable file counts for exactly one category, an unreadable one for none. */
  lemma ExactlyOne(f: Node)
    ensures (if Counts(f, Image) then 1 else 0) + (if Counts(f, Video) then 1 else 0)
      + (if Counts(f, Audio) then 1 else 0) + (if Counts(f, Document) then 1 else 0)
      + (if Counts(f, Archive) then 1 else 0) + (if Counts(f, Application) then 1 else 0)
      + (if Counts(f, Code) then 1 else 0) + (if Counts(f, Other) then 1 else 0)
      == (if f.File? && f.readable then 1 else 0)
  {
  }

  /** The categories partition the readable files: counts add up to their number and sizes to their total size. */
  lemma {:induction false} CategoriesPartition(files: seq<Node>)
    ensures SumCounts(files) == ReadableCount(files)
    ensures SumSizes(files) == ReadableBytes(files)
    decreases |files|
  {
    if files != [] {
      var f := files[|files| - 1];
      CategoriesPartition(files[..|files| - 1]);
      ExactlyOne(f);
    }
  }

  lemma {:induction false} WalkFilesBytes(steps: seq<WalkStep>)
    ensures ReadableBytes(WalkFiles(steps)) == StepBytes(steps)
    decreases |steps|
  {
    if steps != [] {
      var prefix := steps[..|steps| - 1];
      WalkFilesBytes(prefix);
      ReadableBytesAppend(WalkFiles(prefix), steps[|steps| - 1].files);
    }
  }

  // ------------------------------------------------------------------ get_file_type_stats

  datatype TypeReport = TypeReport(buckets: Buckets, totalSize: nat)

  /**
   * `get_file_type_stats(path)`: the buckets of the readable files the walk
   * yields and their total size. Every category present holds at least one
   * file and no more bytes than the total.
   */
  function GetFileTypeStats(top: Node): (r: TypeReport)
    ensures forall c :: c in r.buckets ==> 1 <= r.buckets[c].count && r.buckets[c].size <= r.totalSize
  {
    var files := WalkFiles(Walk(top));
    BucketsWithinTotal(files);
    TypeReport(Tally(files), ReadableBytes(files))
  }

  lemma BucketsWithinTotal(files: seq<Node>)
    ensures forall c :: c in Tally(files) ==> 1 <= Tally(files)[c].count && Tally(files)[c].size <= ReadableBytes(files)
  {
    forall c | c in Tally(files) ensures 1 <= Tally(files)[c].count && Tally(files)[c].size <= ReadableBytes(files) {
      TallyMeaning(files, c);
      SizeWithinTotal(files, c);
    }
  }

  /** A category's bytes are part of the readable bytes. */
  lemma {:induction false} SizeWithinTotal(files: seq<Node>, c: Category)
    ensures SizeOf(files, c) <= ReadableBytes(files)
    decreases |files|
  {
    if files != [] {
      SizeWithinTotal(files[..|files| - 1], c);
    }
  }

  /** The total is the same readable size `get_file_stats` reports for the tree. */
  lemma TypeStatsTotal(top: Node)
    ensures GetFileTypeStats(top).totalSize == BytesIn(Contents(top))
  {
    WalkFilesBytes(Walk(top));
    WalkTotals(top);
  }

  /** A category's share of the total size, in percent; 0 for every category when the total is 0. */
  function Percentage(r: TypeReport, c: Category): (p: real)
    requires c in r.buckets
    ensures p >= 0.0
    ensures r.totalSize == 0 ==> p == 0.0
    ensures r.totalSize > 0 ==> p * r.totalSize as real == r.buckets[c].size as real * 100.0
  {
    if r.totalSize > 0 then (r.buckets[c].size as real / r.totalSize as real) * 100.0 else 0.0
  }

  function ShareOrZero(r: TypeReport, c: Category): real {
    if c in r.buckets then Percentage(r, c) else 0.0
  }

  function SumShares(r: TypeReport): real {
    ShareOrZero(r, Image) + ShareOrZero(r, Video) + ShareOrZero(r, Audio) + ShareOrZero(r, Document)
    + ShareOrZero(r, Archive) + ShareOrZero(r, Application) + ShareOrZero(r, Code) + ShareOrZero(r, Other)
  }

  lemma ShareOfCategory(top: Node, c: Category)
    requires GetFileTypeStats(top).totalSize > 0
    ensures ShareOrZero(GetFileTypeStats(top), c)
      == (SizeOf(WalkFiles(Walk(top)), c) as real / GetFileTypeStats(top).totalSize as real) * 100.0
  {
    var files := WalkFiles(Walk(top));
    ShareOfTally(files, c, ReadableBytes(files));
  }

  lemma ShareOfTally(files: seq<Node>, c: Category, total: nat)
    requires total > 0
    ensures ShareOrZero(TypeReport(Tally(files), total), c) == (SizeOf(files, c) as real / total as real) * 100.0
  {
    TallyMeaning(files, c);
    if c !in Tally(files) {
      SizeNeedsCount(files, c);
    }
  }

  lemma Shares(a: real, b: real, t: real)
    requires t > 0.0
    ensures (a / t) * 100.0 + (b / t) * 100.0 == ((a + b) / t) * 100.0
  {
  }

  lemma EightShares(s1: real, s2: real, s3: real, s4: real, s5: real, s6: real, s7: real, s8: real, t: real)
    requires t > 0.0 && s1 + s2 + s3 + s4 + s5 + s6 + s7 + s8 == t
    ensures (s1 / t) * 100.0 + (s2 / t) * 100.0 + (s3 / t) * 100.0 + (s4 / t) * 100.0
      + (s5 / t) * 100.0 + (s6 / t) * 100.0 + (s7 / t) * 100.0 + (s8 / t) * 100.0 == 100.0
  {
    Shares(s1, s2, t);
    Shares(s1 + s2, s3, t);
    Shares(s1 + s2 + s3, s4, t);
    Shares(s1 + s2 + s3 + s4, s5, t);
    Shares(s1 + s2 + s3 + s4 + s5, s6, t);
    Shares(s1 + s2 + s3 + s4 + s5 + s6, s7, t);
    Shares(s1 + s2 + s3 + s4 + s5 + s6 + s7, s8, t);
    assert t / t == 1.0;
  }

  /** The percentage of a category in a real report is between 0 and 100. */
  lemma PercentageAtMostHundred(top: Node, c: Category)
    requires c in GetFileTypeStats(top).buckets
    ensures 0.0 <= Percentage(GetFileTypeStats(top), c) <= 100.0
  {
    var r := GetFileTypeStats(top);
    if r.totalSize > 0 {
      FractionAtMostOne(r.buckets[c].size as real, r.totalSize as real);
    }
  }

  lemma FractionAtMostOne(a: real, t: real)
    requires 0.0 <= a <= t && t > 0.0
    ensures (a / t) * 100.0 <= 100.0
  {
    assert a / t <= 1.0;
  }

  /** With a non-zero total, the percentages of the categories present add up to 100. */
  /** An empty total (no readable file, or only empty ones) gives every category present 0 percent, so the shares add up to 0. */
  lemma ZeroTotalZeroPercentages(top: Node)
    requires GetFileTypeStats(top).totalSize == 0
    ensures forall c :: c in GetFileTypeStats(top).buckets ==> Percentage(GetFileTypeStats(top), c) == 0.0
    ensures SumShares(GetFileTypeStats(top)) == 0.0
  {
  }

  lemma PercentagesSum(top: Node)
    requires GetFileTypeStats(top).totalSize > 0
    ensures SumShares(GetFileTypeStats(top)) == 100.0
  {
    var r := GetFileTypeStats(top);
    var files := WalkFiles(Walk(top));
    CategoriesPartition(files);
    ShareOfCategory(top, Image);
    ShareOfCategory(top, Video);
    ShareOfCategory(top, Audio);
    ShareOfCategory(top, Document);
    ShareOfCategory(top, Archive);
    ShareOfCategory(top, Application);
    ShareOfCategory(top, Code);
    ShareOfCategory(top, Other);
    EightShares(SizeOf(files, Image) as real, SizeOf(files, Video) as real, SizeOf(files, Audio) as real,
                SizeOf(files, Document) as real, SizeOf(files, Archive) as real, SizeOf(files, Application) as real,
                SizeOf(files, Code) as real, SizeOf(files, Other) as real, r.totalSize as real);
  }

  lemma {:induction false} SizeNeedsCount(files: seq<Node>, c: Category)
    requires CountOf(files, c) == 0
    ensures SizeOf(files, c) == 0
    decreases |files|
  {
    if files != [] {
      SizeNeedsCount(files[..|files| - 1], c);
    }
  }
}

=== FILE: users.dfy ===
/**
 * The user list kept under the `users` key of the configuration:
 * credential checks, lookup, and the in-memory effect of adding, removing
 * and re-passwording a user.
 */
module Users {
  import opened Wrappers

  datatype User = User(username: string, password: string, role: string)

  const DefaultRole: string := "user"

  datatype UserError =
    | AlreadyExists   // `add_user` on a name already present
    | NoSuchUser      // `update_user_password` on a name not present

  /** The index of the first user satisfying both name and, when given, password; or `|users|`. */
  function FirstMatch(users: seq<User>, name: string, password: Option<string>): (i: nat)
    ensures i <= |users|
    ensures forall j :: 0 <= j < i ==> !Matches(users[j], name, password)
    ensures i < |users| ==> Matches(users[i], name, password)
    decreases |users|
  {
    if users == [] then 0
    else if Matches(users[0], name, password) then 0
    else 1 + FirstMatch(users[1..], name, password)
  }

  predicate Matches(u: User, name: string, password: Option<string>) {
    u.username == name && (password.None? || u.password == password.value)
  }

  predicate HasUser(users: seq<User>, name: string) {
    exists i :: 0 <= i < |users| && users[i].username == name
  }

  predicate UniqueNames(users: seq<User>) {
    forall i, j :: 0 <= i < j < |users| ==> users[i].username != users[j].username
  }

  // ------------------------------------------------------------------ lookups

  /** `validate_user`: the first user whose name and password both match, if any. */
  function ValidateUser(users: seq<User>, name: string, password: string): (r: Option<User>)
    ensures r.Some? <==> exists i :: 0 <= i < |users| && users[i].username == name && users[i].password == password
    ensures r.Some? ==> r.value in users && r.value.username == name && r.value.password == password
  {
    var i := FirstMatch(users, name, Some(password));
    assert forall j :: 0 <= j < |users| && users[j].username == name && users[j].password == password ==> i <= j;
    if i < |users| then Some(users[i]) else None
  }

  /** `get_user_by_username`: the first user with that name, if any. */
  function GetUserByUsername(users: seq<User>, name: string): (r: Option<User>)
    ensures r.Some? <==> HasUser(users, name)
    ensures r.Some? ==> r.value in users && r.value.username == name
  {
    var i := FirstMatch(users, name, None);
    assert forall j :: 0 <= j < |users| && users[j].username == name ==> i <= j;
    if i < |users| then Some(users[i]) else None
  }

  /** Both lookups take the earliest match: no user before the one returned qualifies. */
  lemma LookupsTakeFirst(users: seq<User>, name: string, password: string)
    ensures GetUserByUsername(users, name).Some? ==>
      exists i :: 0 <= i < |users| && users[i] == GetUserByUsername(users, name).value
        && forall j :: 0 <= j < i ==> users[j].username != name
    ensures ValidateUser(users, name, password).Some? ==>
      exists i :: 0 <= i < |users| && users[i] == ValidateUser(users, name, password).value
        && forall j :: 0 <= j < i ==> !(users[j].username == name && users[j].password == password)
  {
    var a := FirstMatch(users, name, None);
    var b := FirstMatch(users, name, Some(password));
    if a < |users| {
      assert users[a] == GetUserByUsername(users, name).value;
    }
    if b < |users| {
      assert users[b] == ValidateUser(users, name, password).value;
    }
  }

  /** With unique names, valid credentials are exactly a name lookup whose password agrees. */
  lemma ValidateIsLookupThenCompare(users: seq<User>, name: string, password: string)
    requires UniqueNames(users)
    ensures ValidateUser(users, name, password) ==
      match GetUserByUsername(users, name)
      case Some(u) => if u.password == password then Some(u) else None
      case None => None
  {
    var a := FirstMatch(users, name, None);
    var b := FirstMatch(users, name, Some(password));
    if b < |users| {
      assert a <= b;
      assert a == b;
    }
  }

  // ------------------------------------------------------------------ updates

  /** `add_user`: refuse an existing name, otherwise append the new user at the end. */
  function AddUser(users: seq<User>, name: string, password: string, role: string): (r: Result<seq<User>, UserError>)
    ensures r.Failure? <==> HasUser(users, name)
    ensures r.Success? ==> r.value == users + [User(name, password, role)]
  {
    if GetUserByUsername(users, name).Some? then Failure(AlreadyExists)
    else Success(users + [User(name, password, role)])
  }

  /** `add_user(name, password)` without a role: the new user is an ordinary `"user"`. */
  function AddUserDefault(users: seq<User>, name: string, password: string): (r: Result<seq<User>, UserError>)
    ensures r.Failure? <==> HasUser(users, name)
    ensures r.Success? ==> |r.value| == |users| + 1 && r.value[|users|] == User(name, password, "user")
  {
    AddUser(users, name, password, DefaultRole)
  }

  /** An added user can log in and be found, and names stay unique. */
  lemma AddThenFind(users: seq<User>, name: string, password: string, role: string)
    requires AddUser(users, name, password, role).Success?
    ensures var r := AddUser(users, name, password, role).value;
      && GetUserByUsername(r, name) == Some(User(name, password, role))
      && ValidateUser(r, name, password) == Some(User(name, password, role))
      && (UniqueNames(users) ==> UniqueNames(r))
  {
    var r := users + [User(name, password, role)];
    assert forall j :: 0 <= j < |users| ==> r[j] == users[j];
    var a := FirstMatch(r, name, None);
    var b := FirstMatch(r, name, Some(password));
    assert r[|users|].username == name;
    assert a == |users|;
    assert b == |users|;
  }

  /** `remove_user`: keep, in order, every user with another name. */
  function RemoveUser(users: seq<User>, name: string): (r: seq<User>)
    ensures |r| <= |users|
    ensures forall u {:trigger u in r} :: u in r <==> u in users && u.username != name
    decreases |users|
  {
    if users == [] then []
    else (if users[0].username == name then [] else [users[0]]) + RemoveUser(users[1..], name)
  }

  /** Removing a name that is not present changes nothing. */
  lemma {:induction false} RemoveAbsent(users: seq<User>, name: string)
    requires !HasUser(users, name)
    ensures RemoveUser(users, name) == users
    decreases |users|
  {
    if users != [] {
      assert !HasUser(users[1..], name) by {
        forall i | 0 <= i < |users[1..]| ensures users[1..][i].username != name {
          assert users[1..][i] == users[i + 1];
        }
      }
      RemoveAbsent(users[1..], name);
    }
  }

  /** Removal distributes over concatenation: each part is filtered in place, so the survivors keep their order. */
  lemma {:induction false} RemoveAppend(a: seq<User>, b: seq<User>, name: string)
    ensures RemoveUser(a + b, name) == RemoveUser(a, name) + RemoveUser(b, name)
    decreases |a|
  {
    if a == [] {
      assert a + b == b;
    } else {
      RemoveAppend(a[1..], b, name);
      assert a == [a[0]] + a[1..];
      RemoveConsAppend(a[0], a[1..], b, name);
    }
  }

  /** One step of `RemoveAppend`: prepending a user to the left part. */
  lemma RemoveConsAppend(x: User, t: seq<User>, b: seq<User>, name: string)
    requires RemoveUser(t + b, name) == RemoveUser(t, name) + RemoveUser(b, name)
    ensures RemoveUser([x] + t + b, name) == RemoveUser([x] + t, name) + RemoveUser(b, name)
  {
    assert [x] + t + b == [x] + (t + b);
    RemoveCons(x, t + b, name);
    RemoveCons(x, t, name);
  }

  lemma RemoveCons(x: User, rest: seq<User>, name: string)
    ensures RemoveUser([x] + rest, name) == (if x.username == name then [] else [x]) + RemoveUser(rest, name)
  {
    assert ([x] + rest)[0] == x && ([x] + rest)[1..] == rest;
  }

  /** Every user with the removed name disappears; every other user keeps its multiplicity. */
  lemma {:induction false} RemoveCount(users: seq<User>, name: string, u: User)
    ensures multiset(RemoveUser(users, name))[u] == if u.username == name then 0 else multiset(users)[u]
    decreases |users|
  {
    if users != [] {
      RemoveCount(users[1..], name, u);
      assert users == [users[0]] + users[1..];
      assert multiset(users) == multiset([users[0]]) + multiset(users[1..]);
    }
  }

  /** Lookups of other names see the same first match after a removal; the removed name is gone. */
  lemma {:induction false} RemoveKeepsOrder(users: seq<User>, name: string, other: string)
    requires other != name
    ensures GetUserByUsername(RemoveUser(users, name), other) == GetUserByUsername(users, other)
    ensures GetUserByUsername(RemoveUser(users, name), name).None?
    decreases |users|
  {
    if users != [] {
      RemoveKeepsOrder(users[1..], name, other);
      var r := RemoveUser(users, name);
      var rest := RemoveUser(users[1..], name);
      FirstOfCons(users, other);
      if users[0].username != name {
        assert r == [users[0]] + rest;
        assert r[1..] == rest;
        FirstOfCons(r, other);
      } else {
        assert r == rest;
      }
    }
  }

  /** The first name match in a non-empty list is its head or the first match in its tail. */
  lemma FirstOfCons(users: seq<User>, name: string)
    requires users != []
    ensures GetUserByUsername(users, name) ==
      if users[0].username == name then Some(users[0]) else GetUserByUsername(users[1..], name)
  {
    if users[0].username != name {
      var i := FirstMatch(users[1..], name, None);
      assert FirstMatch(users, name, None) == 1 + i;
      if i < |users[1..]| {
        assert users[1 + i] == users[1..][i];
      }
    }
  }

  /** `update_user_password`: change the password of the first user with that name only. */
  function UpdateUserPassword(users: seq<User>, name: string, newPassword: string): (r: Result<seq<User>, UserError>)
    ensures r.Failure? <==> !HasUser(users, name)
  {
    var i := FirstMatch(users, name, None);
    if i < |users| then Success(users[i := users[i].(password := newPassword)])
    else Failure(NoSuchUser)
  }

  /**
   * A successful update keeps every user but the first with that name, which
   * gets the new password and keeps its role; that user can then log in with it.
   */
  lemma UpdateMeaning(users: seq<User>, name: string, newPassword: string)
    requires UpdateUserPassword(users, name, newPassword).Success?
    ensures var r := UpdateUserPassword(users, name, newPassword).value;
      && |r| == |users|
      && (exists i :: 0 <= i < |users|
            && (forall j :: 0 <= j < i ==> users[j].username != name)
            && users[i].username == name
            && r[i] == User(name, newPassword, users[i].role)
            && (forall j :: 0 <= j < |users| && j != i ==> r[j] == users[j]))
      && ValidateUser(r, name, newPassword).Some?
  {
    var i := FirstMatch(users, name, None);
    var r := users[i := users[i].(password := newPassword)];
    assert r[i].username == name && r[i].password == newPassword;
  }
}

=== FILE: validation.dfy ===
/** `ValidationUtils`: the two one-line upload checks. */
module Validation {
  import opened Text

  /** A dot followed by no other dot and no slash: the shape of a non-empty `splitext` extension. */
  predicate DotSuffix(e: string) {
    |e| > 0 && e[0] == '.' && (forall i :: 0 < i < |e| ==> e[i] != '.') && '/' !in e
  }

  /**
   * `e` is the lower-cased extension of `filename`: the final dot-led part
   * of its lower-cased name when the name has an extension, "" when not.
   */
  predicate IsExtensionOf(e: string, filename: string) {
    if HasExtension(filename) then DotSuffix(e) && EndsWith(Lower(filename), e) else e == ""
  }

  /** The extension the allow-list is compared with: `splitext`'s extension, lower-cased. */
  function NormalizedExtension(filename: string): (ext: string)
    ensures ext != "" <==> HasExtension(filename)
    ensures ext != "" ==> DotSuffix(ext)
    ensures EndsWith(Lower(filename), ext)
  {
    var (stem, e) := SplitExt(filename);
    LowerKeepsShape(e);
    LowerAppend(stem, e);
    Lower(e)
  }

  /** Lower-casing keeps the shape of a `splitext` extension: its dots, its slashes and its length. */
  lemma LowerKeepsShape(e: string)
    requires e == "" || (e[0] == '.' && '.' !in e[1..] && '/' !in e)
    ensures Lower(e) == "" <==> e == ""
    ensures e != "" ==> DotSuffix(Lower(e))
  {
    var l := Lower(e);
    if e != "" {
      assert l[0] == '.';
      forall i | 0 < i < |l| ensures l[i] != '.' {
        assert e[i] == e[1..][i - 1];
      }
      forall i | 0 <= i < |l| ensures l[i] != '/' {
        assert e[i] in e;
      }
    }
  }

  lemma LowerAppend(a: string, b: string)
    ensures Lower(a + b) == Lower(a) + Lower(b)
  {
  }

  /** Two dot-led suffixes of one string with no further dot are the same suffix. */
  lemma DotSuffixUnique(s: string, e1: string, e2: string)
    requires DotSuffix(e1) && DotSuffix(e2) && EndsWith(s, e1) && EndsWith(s, e2)
    ensures e1 == e2
  {
    if |e1| <= |e2| {
      DotSuffixLonger(s, e1, e2);
    } else {
      DotSuffixLonger(s, e2, e1);
    }
    assert s[|s| - |e1|..] == e1;
  }

  lemma DotSuffixLonger(s: string, e1: string, e2: string)
    requires DotSuffix(e1) && DotSuffix(e2) && EndsWith(s, e1) && EndsWith(s, e2) && |e1| <= |e2|
    ensures |e1| == |e2|
  {
    var k := |e2| - |e1|;
    assert e2[k] == s[|s| - |e1|] == '.';
  }

  /** `NormalizedExtension` is the one extension of the name. */
  lemma NormalizedExtensionUnique(filename: string, e: string)
    ensures IsExtensionOf(e, filename) <==> e == NormalizedExtension(filename)
  {
    if HasExtension(filename) && IsExtensionOf(e, filename) {
      DotSuffixUnique(Lower(filename), e, NormalizedExtension(filename));
    }
  }

  /** `validate_file_extension`: the name's extension, lower-cased, is one of the allowed strings. */
  function ValidateFileExtension(filename: string, allowed: seq<string>): (ok: bool)
    ensures ok <==> exists i :: 0 <= i < |allowed| && IsExtensionOf(allowed[i], filename)
  {
    forall i | 0 <= i < |allowed| {
      NormalizedExtensionUnique(filename, allowed[i]);
    }
    NormalizedExtension(filename) in allowed
  }

  /** `validate_file_size`: the limit itself is allowed. */
  function ValidateFileSize(size: int, maxSize: int): (ok: bool)
  {
    size <= maxSize
  }

  /** The limit itself passes, one byte more does not, and a smaller file than an accepted one is accepted. */
  lemma FileSizeLimitInclusive(size: int, smaller: int, maxSize: int)
    requires smaller <= size
    ensures ValidateFileSize(maxSize, maxSize) && !ValidateFileSize(maxSize + 1, maxSize)
    ensures ValidateFileSize(size, maxSize) ==> ValidateFileSize(smaller, maxSize)
  {
  }

  lemma {:induction false} RFindUpper(s: string, c: char)
    requires c == '.' || c == '/'
    ensures RFind(Upper(s), c) == RFind(s, c)
  {
    if |s| > 0 {
      assert Upper(s)[..|s| - 1] == Upper(s[..|s| - 1]);
      RFindUpper(s[..|s| - 1], c);
    }
  }

  lemma SplitExtUpper(s: string)
    ensures SplitExt(Upper(s)).1 == Upper(SplitExt(s).1)
  {
    RFindUpper(s, '.');
    RFindUpper(s, '/');
    var sepIndex := RFind(s, '/');
    var dotIndex := RFind(s, '.');
    if dotIndex > sepIndex {
      assert AllDots(Upper(s), sepIndex + 1, dotIndex) == AllDots(s, sepIndex + 1, dotIndex);
      assert Upper(s)[dotIndex..] == Upper(s[dotIndex..]);
    }
  }

  /** The check ignores the case of the name: an upper-cased name is accepted exactly when the original is. */
  lemma ExtensionCheckIgnoresCase(filename: string, allowed: seq<string>)
    ensures ValidateFileExtension(Upper(filename), allowed) == ValidateFileExtension(filename, allowed)
  {
    SplitExtUpper(filename);
    LowerUpper(SplitExt(filename).1);
  }

  lemma LowerUpper(e: string)
    ensures Lower(Upper(e)) == Lower(e)
  {
    forall i | 0 <= i < |e| ensures Lower(Upper(e))[i] == Lower(e)[i] {
      assert Upper(e)[i] == UpperChar(e[i]);
    }
  }

  /** A dot-file such as `.pdf` has no extension for `splitext`, so it passes only if "" is allowed. */
  lemma DotFileHasNoExtension(allowed: seq<string>)
    ensures ValidateFileExtension(".pdf", allowed) <==> "" in allowed
  {
    var p := ".pdf";
    assert p[..3] == ".pd" && p[..2] == ".p" && p[..1] == ".";
    assert RFind(".", '.') == 0;
    assert RFind(".p", '.') == 0;
    assert RFind(".pd", '.') == 0;
    assert RFind(p, '.') == 0;
    assert RFind(".", '/') == -1;
    assert RFind(".p", '/') == -1;
    assert RFind(".pd", '/') == -1;
    assert RFind(p, '/') == -1;
  }

  /** Only the last dot counts: `a.tar.gz` is checked as `.gz`. */
  lemma LastDotCounts()
    ensures NormalizedExtension("a.tar.gz") == ".gz"
  {
    var p := "a.tar.gz";
    assert RFind(p, '/') == -1;
    assert RFind(p, '.') == 5;
    assert !AllDots(p, 0, 5) by {
      assert p[0] != '.';
    }
    assert SplitExt(p).1 == p[5..] == ".gz";
    assert Lower(".gz") == ".gz";
  }
}

=== FILE: wrappers.dfy ===
/** Optional values and results with an error, shared by every module. */
module Wrappers {

  datatype Option<+T> = None | Some(value: T)

  datatype Result<+T, +E> = Success(value: T) | Failure(error: E) {
    predicate IsFailure() {
      Failure?
    }

    function PropagateFailure<U>(): Result<U, E>
      requires Failure?
    {
      Failure(error)
    }

    function Extract(): T
      requires Success?
    {
      value
    }
  }
}
